=== FILE: README.md ===
# AI-education dashboard: detection and statistics core in Dafny

This project is a Dafny model of the computational core of the AI-education
dashboard. It covers these parts:

- **DetectGPT scorer** (`python-service/model.py`). A windowed GPT-2
  log-likelihood estimator and a word-drop perturbation sampler. The
  normalised curvature score built from them. The two calibration tables that
  turn the score into a verdict and an AI-likelihood percentage. The chunking
  of long texts in `analyze`.
- **Hybrid AI-detection route** (`app/api/detect-ai/route.ts`). The local
  heuristic score and the rule that combines it with the external detector's
  percentage.
- **Sentence-level detection route** (`app/api/detect-sentences/route.ts`).
  The per-sentence classification and its keyword heuristic.
- **Faculty CSV export** (`app/api/faculty/export/route.ts`). Includes a
  reader for the same format, used to prove that exports read back exactly.
- **Department/major tables** (`lib/department-major-mapping.ts`).
- **`getDueDateStatus`** (`lib/utils.ts`).
- **Route statistics** for the faculty AI-detection alerts, the student
  dashboard, the faculty dashboard and the faculty analytics.
- **Subject selector state logic** (`components/subject-selector.tsx`):
  toggling subjects, the save checks and the department filter.

Some things become parameters of the model:

- The language model is an oracle of uninterpreted functions: a tokenizer,
  and a loss that may fail.
- numpy's seeded `randint` is a function of the seed and the range whose
  result lies in the range.
- The square root inside `np.std` is an abstract non-negative function.
- The current time is a number of milliseconds passed in.
- Database query results are sequences passed in, in the order the query
  returned them.
- The external detector's `aiLikelihood` is an integer percentage. The
  Python service declares it as an `int`, and the JavaScript detector rounds it.

Shared modules:

- `Outcomes`: `Option`.
- `Seqs`: sums, means, filters, counts, JavaScript `Math.round` and `Math.ceil`.
- `Text`: Python's `str.split`/`" ".join`, decimal digits and lower-casing.
- `Sorting`: JavaScript's stable `Array.prototype.sort` by a numeric key.
- `Detections`: the first detection of a submission.
- `Statistics`: positive-only averages, capped percentages and rounded means.

## Model

| member | source | states |
|---|---|---|
| Likelihood.PrefixLength | python-service/model.py:72 | The number of labels that `target_ids[:, :-trg_len] = -100` masks follows Python's slice rules, including the negative stop. |
| Likelihood.WindowsFrom | python-service/model.py:67-81 | The windows start every 512 tokens. Each window ends at `min(begin + max_length, seq_len)`. Only the last window can reach the end of the sequence. Each window scores from where the previous one ended. |
| Likelihood.Windows | python-service/model.py:67 | The walk over a sequence starts at token 0 and scores from 0. Window i starts at i·512. There are no windows exactly when the sequence is empty. |
| Likelihood.WindowsFromLast | python-service/model.py:67-81 | The loop stops either at the `break` or when the range runs out. |
| Likelihood.TargetTotalTelescopes | python-service/model.py:69-79 | Contiguous `trg_len` values add up to the span from the first scored token to the last window's end. |
| Likelihood.ContiguousCovers | python-service/model.py:69-79 | Contiguous scored ranges leave no token uncovered. |
| Likelihood.WindowTargets | python-service/model.py:68-72 | With stride ≤ max_length, every window scores between 1 token and its whole width. |
| Likelihood.WindowsOrdered | python-service/model.py:68-79 | Window ends never decrease, so a window ends no later than any later window starts scoring. |
| Likelihood.LoopEndsByBreak | python-service/model.py:67-81 | With stride ≤ max_length, the last window ends exactly at the end of the sequence. |
| Likelihood.WindowProtocol | python-service/model.py:59-83 | The walk starts at 0 and ends at the sequence end. Scored ranges are contiguous and sum to the sequence length. Every token is scored by exactly one window. |
| Likelihood.WindowLosses | python-service/model.py:74-77 | One loss per window, in order, exactly when every model call answers. |
| Likelihood.LogLikelihood | python-service/model.py:59-83 | Fails on an empty token sequence (`torch.stack([])`) and when a model call raises. Otherwise succeeds. |
| Likelihood.LogLikelihoodIsNegatedMeanLoss | python-service/model.py:74-83 | A successful estimate is minus the unweighted mean of the per-window losses: times the number of windows it is minus their sum. |
| Likelihood.LogLikelihoodWithinLossBounds | python-service/model.py:83 | Being minus an average, the log-likelihood lies in [-hi, -lo] when every window loss lies in [lo, hi]. |
| Perturbation.PerturbationCount | python-service/model.py:181-183 | No perturbations for ≤ 10 words. Otherwise `n // 4` clamped to [15, 30]. |
| Perturbation.PerturbationCountExamples | python-service/model.py:181-183 | 8 and 10 words give 0 perturbations; 11 and 40 give 15; 80 gives 20; 200 gives 30. |
| Perturbation.Remove | python-service/model.py:194 | `list.pop(k)` keeps the words before k and shifts those after it down by one. |
| Perturbation.DropIndex | python-service/model.py:187-193 | The reseeded `randint(1, n - 1)` picks an inner word: never the first, never the last. |
| Perturbation.Perturb | python-service/model.py:190-196 | At most five words are kept as they are. Longer lists lose exactly one word. |
| Perturbation.Perturbations | python-service/model.py:185-196 | There are `PerturbationCount` perturbations, and the i-th uses seed 42 + i. |
| Perturbation.PerturbationDropsOneInnerWord | python-service/model.py:185-196 | Every perturbation of a long text is the text minus one word that is neither the first nor the last. |
| Scoring.SquaredDeviations | python-service/model.py:203 | One squared deviation from the mean per likelihood. |
| Scoring.StdDev | python-service/model.py:203 | `np.std` is non-negative. |
| Scoring.Normalise | python-service/model.py:200-217 | diff = original − mean. score·(std + 1e-10) = diff. The score is positive or negative exactly when the original is above or below the mean. |
| Scoring.LikelihoodsOf | python-service/model.py:185-198 | Succeeds exactly when every text's log-likelihood does. Then it gives those values in order. |
| Scoring.PerturbedTexts | python-service/model.py:185-196 | One text per perturbation. |
| Scoring.GetScore | python-service/model.py:159-220 | A failure on the original text wins. ≤ 10 words gives the neutral (0, 0, 1). Otherwise every perturbation must score, std ≥ 0, and the score's sign is diff's sign. |
| Scoring.GetScoreCompares | python-service/model.py:183-210 | diff is the original log-likelihood minus the mean over 15–30 perturbations. |
| Scoring.GetScoreIsNormalised | python-service/model.py:196-220 | Over 10 words, a successful result is `Normalise` of the original log-likelihood and the perturbed ones: diff = ll − mean, std = the population deviation `np.std` of the perturbed log-likelihoods, and score · (std + 1e-10) = diff. |
| Scoring.Shift | python-service/model.py:210 | Adds a constant to every likelihood. |
| Scoring.SumShift | python-service/model.py:202 | Shifting every value by c shifts the sum by n·c. |
| Scoring.MeanShift | python-service/model.py:202 | Shifting every value by c shifts the mean by c. |
| Scoring.VarianceShift | python-service/model.py:203 | Shifting every value leaves the population variance unchanged. |
| Scoring.NormaliseShiftInvariant | python-service/model.py:200-217 | Adding one constant to all log-likelihoods changes neither score, diff nor std. |
| Calibration.GetVerdict | python-service/model.py:255-269 | Three verdict texts and two confidence levels. The AI verdict exactly above 0.05, the human verdict exactly at or below −0.15, mixed in between. High confidence exactly above 0.3 or at or below −0.5. |
| Calibration.AiLikelihood | python-service/model.py:346-377 | The percentage lies in [0, 100]. |
| Calibration.LookupInRange | python-service/model.py:346-377 | A threshold-table lookup yields one of the table's values or the fallback. |
| Calibration.Lookup | python-service/model.py:346-377 | The first step whose threshold the score exceeds decides the value. A score at or below every threshold gets the fallback. |
| Calibration.LookupFirstAbove | python-service/model.py:346-377 | The lookup answers with the first step whose bound the score exceeds. |
| Calibration.LookupBand | python-service/model.py:346-377 | In a well-ordered table, a score in (bound[k], bound[k−1]] gets value k. |
| Calibration.LookupBelowAll | python-service/model.py:376-377 | A score at or below every bound gets the fallback. |
| Calibration.LookupMonotone | python-service/model.py:346-377 | A well-ordered table is non-decreasing in the score. |
| Calibration.AiTableWellOrdered | python-service/model.py:346-377 | The fifteen breakpoints strictly decrease and their values do not increase. |
| Calibration.AiLikelihoodIsTableLookupHigh | python-service/model.py:346-355 | For scores above 0.3, the if-chain equals the breakpoint table. |
| Calibration.AiLikelihoodIsTableLookupMiddle | python-service/model.py:356-365 | For scores in (−0.15, 0.3], the if-chain equals the breakpoint table. |
| Calibration.AiLikelihoodIsTableLookupLow | python-service/model.py:366-377 | For scores ≤ −0.15, the if-chain equals the breakpoint table. |
| Calibration.AiLikelihoodIsTableLookup | python-service/model.py:346-377 | The if-chain equals the breakpoint table for every score. |
| Calibration.AiLikelihoodMonotone | python-service/model.py:346-377 | A higher score never gives a lower AI likelihood. |
| Calibration.AiLikelihoodValues | python-service/model.py:346-379 | The percentage is one of the sixteen table values. It and `100 - ai` both lie in [0, 100]. |
| Calibration.CalibrationExamples | python-service/model.py:255-377 | 0.8 gives 95 with AI/High. −0.6 gives 12 with human/High. 0.0 gives 55 with mixed/Medium. |
| Calibration.VerdictAgreesWithLikelihood | python-service/model.py:255-377 | An AI verdict implies ≥ 75 %. A human verdict implies ≤ 32 %. A mixed verdict implies 42, 55 or 68 %. Confidence is high exactly when the percentage is ≥ 88 or ≤ 12. |
| Analysis.Chunks | python-service/model.py:289-292 | The chunks concatenate back to the words. Each chunk is non-empty with at most 600 words. Every chunk but the last is full. |
| Analysis.ChunksCount | python-service/model.py:290 | There are ceil(n / 600) chunks. |
| Analysis.CeilDivStep | python-service/model.py:290 | Removing one full chunk lowers the chunk count by one. |
| Analysis.Scored | python-service/model.py:341-391 | A success report carries the calibrated likelihood, the verdict and the confidence of its score, and human = 100 − ai. |
| Analysis.Unclear | python-service/model.py:306-319 | The neutral answer when analysis fails: 50 % AI and 50 % human, score 0, low confidence, the "Unclear - analysis error" verdict, and the raw metrics passed through. |
| Analysis.ChunkScore | python-service/model.py:297-303 | A chunk scores exactly when `getScore` succeeds, and then with its score. |
| Analysis.ChunkTexts | python-service/model.py:291 | One text per chunk. |
| Analysis.ChunkScores | python-service/model.py:295-303 | No more chunk scores than chunks. When every chunk scores, the scores are the chunks' scores in chunk order. |
| Analysis.ChunkScoresAreScoredChunks | python-service/model.py:295-303 | Under partial failure, every averaged score is the score of some chunk that scored, and every chunk that scored contributes its score. |
| Analysis.ChunkScoresEndWithLastChunk | python-service/model.py:295-303 | The loop appends in chunk order: when the last chunk scores, its score is the last one averaged. |
| Seqs.SuccessesAppendOne | python-service/model.py:295-303 | The `try`/`append`/`continue` loop: one more element appends its score when scoring it succeeds and nothing when it fails. |
| Analysis.Analyze | python-service/model.py:271-391 | Under 30 words gives the error. An unclear report is 50 % with score 0, low confidence, and no spread. Otherwise the calibration of the score applies. ≤ 600 words scores the text. Longer texts average the chunk scores with diff 0 and std 1, or are unclear when all chunks fail. |
| Analysis.ChunkCountExamples | python-service/model.py:285-292 | 600 words make one chunk. 601 make two, the second of one word. |
| Analysis.LastChunkLength | python-service/model.py:290-291 | The last chunk holds n mod 600 words, or 600 when 600 divides n. |
| Analysis.ChunkElementsOfFlatten | python-service/model.py:291 | A chunk's words are words of the text. |
| Analysis.ChunkResplits | python-service/model.py:291 | A chunk's joined text splits back into the chunk's words. |
| Analysis.ShortLastChunkScoresZero | python-service/model.py:290-299 | A final chunk of at most 10 words scores 0.0 (or fails). When it scores, that 0.0 is the last entry of the list whose mean is the reported score. |
| Analysis.ChunkedScoreWithinChunkScores | python-service/model.py:321-323 | The averaged score lies between the lowest and highest chunk score. |
| HybridDetection.MarkerPoints | app/api/detect-ai/route.ts:308-311 | 0 points exactly for no marker, 15 exactly for one, 25 exactly for two, 35 exactly for three or four, 50 exactly for five or more. |
| HybridDetection.AiSignals | app/api/detect-ai/route.ts:308-326 | The raising signals add up to a non-negative number. |
| HybridDetection.HumanSignals | app/api/detect-ai/route.ts:329-334 | The lowering signals add up to a non-negative number. |
| HybridDetection.Clamp | app/api/detect-ai/route.ts:337 | The result lies in [0, 100] and is the identity inside that range. |
| HybridDetection.LocalScore | app/api/detect-ai/route.ts:305-337 | The local score lies in [0, 100]. |
| HybridDetection.LocalConfidence | app/api/detect-ai/route.ts:340-343 | One of high, low or medium. |
| HybridDetection.LocalVerdict | app/api/detect-ai/route.ts:348-351 | One of the four verdict texts. |
| HybridDetection.Formality | app/api/detect-ai/route.ts:354-356 | Informal exactly when more than 2 informal or more than 2 conversational matches. Formal exactly when neither holds and there are at least 3 markers. Moderate otherwise. |
| HybridDetection.LocalAnalysis | app/api/detect-ai/route.ts:167-378 | ai + human = 100, with ai in [0, 100]. Under 10 words gives the fixed "Too short to analyze" result. The short result has no personal touch. Otherwise it gives the local score, confidence, verdict and marker fields, and the formality level is `Formality` of the counted features. |
| HybridDetection.MarkerPointsMonotone | app/api/detect-ai/route.ts:308-311 | More markers never give fewer points. |
| HybridDetection.LocalScoreMonotone | app/api/detect-ai/route.ts:305-337 | More markers, or fewer informal and conversational matches, never lower the local score. |
| HybridDetection.LocalConfidencePrecedence | app/api/detect-ai/route.ts:340-343 | Confidence is high exactly for ≥ 4 markers, a score ≥ 70, or no marker with a score < 20. Otherwise it is low exactly under 50 words. |
| HybridDetection.LocalVerdictTiers | app/api/detect-ai/route.ts:348-351 | The verdict cuts the score range at 30, 50 and 70. |
| HybridDetection.RoundedAverage | app/api/detect-ai/route.ts:59 | `Math.round` of the mean lies between the two inputs and is the exact mean or half above it. |
| HybridDetection.Combine | app/api/detect-ai/route.ts:50-95 | A service failure falls back to the local analysis. Otherwise: max ≥ 60 takes the max; both < 30 takes the min and keeps the verdict; any other case takes the rounded average. The method name, the verdict and ai + human = 100 follow each case, and every other field is local. |
| HybridDetection.CombineSymmetric | app/api/detect-ai/route.ts:58-89 | Swapping the two detectors' percentages does not change the combined percentage. |
| HybridDetection.CombineIsPercentage | app/api/detect-ai/route.ts:58-89 | Inputs in [0, 100] give outputs in [0, 100], and the local confidence survives. |
| HybridDetection.CombineShortText | app/api/detect-ai/route.ts:58-89 | A too-short text is confirmed human by an external score < 30 and taken over by one ≥ 60. |
| SentenceDetection.ContainsAt | app/api/detect-sentences/route.ts:152 | An occurrence at any position makes `includes` true. |
| SentenceDetection.ContainsWitness | app/api/detect-sentences/route.ts:152 | When `includes` is true, the pattern occurs at some position. |
| SentenceDetection.Hits | app/api/detect-sentences/route.ts:151-171 | No more hits than patterns. |
| SentenceDetection.HitsPositive | app/api/detect-sentences/route.ts:151-171 | There is at least one hit exactly when some pattern of the list occurs in the sentence. |
| SentenceDetection.HeuristicRaw | app/api/detect-sentences/route.ts:122-186 | The unclamped score is at least the baseline 40. |
| SentenceDetection.HeuristicScore | app/api/detect-sentences/route.ts:121-190 | The clamped heuristic lies in [40, 95]. Without a first-person pronoun it is at least 50. |
| SentenceDetection.HeuristicRange | app/api/detect-sentences/route.ts:121-190 | The heuristic lies in [40, 95], and the lower clamp at 30 never applies. Without a first-person pronoun it is ≥ 50. |
| SentenceDetection.KindOf | app/api/detect-sentences/route.ts:80-100 | "ai" exactly at ≥ 50, otherwise "human". |
| SentenceDetection.Classify | app/api/detect-sentences/route.ts:37-103 | Exactly under 5 words the sentence is too short and gives unknown/50/low. The service reply is used exactly for 5–150 words when the call succeeds and is not the error fallback or 50 % at score 0. Otherwise the heuristic applies with medium confidence. |
| SentenceDetection.ClassifyAll | app/api/detect-sentences/route.ts:29-104 | One analysed sentence per sentence that is not punctuation-only. |
| SentenceDetection.ClassifyAllIsFilterThenClassify | app/api/detect-sentences/route.ts:29-104 | The loop with `continue` is the same as dropping the punctuation-only pieces and then classifying each remaining sentence in order. |
| SentenceDetection.ClassifiedSentences | app/api/detect-sentences/route.ts:29-104 | Every analysed sentence is the classification of a kept sentence, and every kept sentence is classified. |
| SentenceDetection.TallyPartitions | app/api/detect-sentences/route.ts:106-111 | ai + human + unknown sentences = total. |
| SentenceDetection.Tally | app/api/detect-sentences/route.ts:106-111 | The total is the number of analysed sentences. The ai, human and unknown counts add up to it. |
| CsvExport.DoubleQuotes | app/api/faculty/export/route.ts:227 | Doubling quotes never shortens a value. |
| CsvExport.EscapeCsv | app/api/faculty/export/route.ts:225-230 | A value is left unchanged exactly when it has no comma, quote or newline. Otherwise it is wrapped in quotes. |
| CsvExport.JoinWith | app/api/faculty/export/route.ts:233-237 | Joining two or more strings gives a non-empty text. |
| CsvExport.RenderRecord | app/api/faculty/export/route.ts:233-234 | A record with no fields renders as "". Otherwise the line starts with the escaped first field. `ReadRecordOf` reads the line back into the fields. |
| CsvExport.RenderRecords | app/api/faculty/export/route.ts:232-237 | No records render as "". Otherwise the text starts with the first record's line. `ReadRecordsOf` reads the text back into the records. |
| CsvExport.UnquotedOf | app/api/faculty/export/route.ts:225-230 | A plain value reads back unchanged up to the next separator. |
| CsvExport.QuotedOf | app/api/faculty/export/route.ts:227 | A quoted value reads back as the original value. |
| CsvExport.ReadFieldOf | app/api/faculty/export/route.ts:225-230 | Every escaped field reads back as its value. |
| CsvExport.ReadQuotedFieldOf | app/api/faculty/export/route.ts:226-228 | A value with a comma, quote or newline, once quoted with its quotes doubled, reads back as the value. |
| CsvExport.ReadPlainFieldOf | app/api/faculty/export/route.ts:229 | A value without a comma, quote or newline reads back as itself. |
| CsvExport.ReadRecordOf | app/api/faculty/export/route.ts:234 | A rendered line reads back as its fields. |
| CsvExport.ReadRecordsOf | app/api/faculty/export/route.ts:232-237 | Rendered lines joined by `\n` read back as the records. |
| CsvExport.RoundTrip | app/api/faculty/export/route.ts:225-237 | Parsing a rendering gives exactly the records back. |
| CsvExport.YesNo | app/api/faculty/export/route.ts:169 | "Yes" exactly for true, otherwise "No". |
| CsvExport.OrEmpty | app/api/faculty/export/route.ts:167 | A null value renders as "" and any other as itself. |
| CsvExport.MeasureCells | app/api/faculty/export/route.ts:176-185 | Ten measurement cells. |
| CsvExport.Cells | app/api/faculty/export/route.ts:163-221 | A submission row has one cell per submission header, and an analytics row one per analytics header. |
| CsvExport.ConvertToCsv | app/api/faculty/export/route.ts:124-237 | No data, or a type other than submissions/analytics (such as "students"), gives "". |
| CsvExport.SubmissionHeadersArePlain1 | app/api/faculty/export/route.ts:131-142 | These headers need no quoting. |
| CsvExport.SubmissionHeadersArePlain2 | app/api/faculty/export/route.ts:142-151 | These headers need no quoting. |
| CsvExport.SubmissionHeadersArePlain3 | app/api/faculty/export/route.ts:152-160 | These headers need no quoting. |
| CsvExport.AnalyticsHeadersArePlain | app/api/faculty/export/route.ts:195-207 | These headers need no quoting. |
| CsvExport.HeadersNeedNoQuoting | app/api/faculty/export/route.ts:233 | Escaping leaves the header line unchanged, so the unescaped `headers.join(",")` agrees with the escaped rendering. |
| CsvExport.RowWidths | app/api/faculty/export/route.ts:131-221 | 29 columns for submissions and 11 for analytics. Every row is as wide as its header. |
| CsvExport.RenderRecordsCons | app/api/faculty/export/route.ts:232-235 | The header line comes first, then the rows. |
| CsvExport.ConvertToCsvRenders | app/api/faculty/export/route.ts:124-237 | The export is the rendering of the header followed by each item's cells. |
| CsvExport.ConvertToCsvReadsBack | app/api/faculty/export/route.ts:124-237 | Reading an export back gives the header and exactly each item's cells. |
| CsvExport.SharedMeasureColumns | app/api/faculty/export/route.ts:176-220 | The analytics columns equal columns 13–22 of the submissions export. |
| Departments.MajorsForDepartment | lib/department-major-mapping.ts:47-49 | An unknown department gives []. Every listed major is a student major. |
| Departments.DepartmentForMajor | lib/department-major-mapping.ts:52-54 | An unknown major gives "". A known major gives a faculty department. |
| Departments.CanTeachMajor | lib/department-major-mapping.ts:57-60 | A department can teach a major exactly when the major is in the department's list. For a known major, that holds exactly when the reverse table names this department. |
| Departments.TablesCoverTheLists | lib/department-major-mapping.ts:4-44 | The keys of the two tables are exactly the department list and the major list. |
| Departments.MajorsListedUnderTheirDepartment | lib/department-major-mapping.ts:25-44 | Every major in the reverse table is in the list of the department it maps to. |
| Departments.ListedMajorsMapBack | lib/department-major-mapping.ts:25-44 | Every major a department lists maps back to that department. |
| Departments.ListsPartitionMajors | lib/department-major-mapping.ts:25-30 | Each major is listed under exactly one department. |
| Departments.CanTeachIsReverseLookup | lib/department-major-mapping.ts:57-60 | A department can teach a major exactly when the reverse table maps the major to it. An unknown department teaches nothing. |
| DueDate.Days | lib/utils.ts:38-52 | Singular " day" exactly for 1. |
| DueDate.GetDueDateStatus | lib/utils.ts:23-63 | daysRemaining is ceil(diff / day). Overdue iff < 0; due soon iff 0–3; upcoming iff > 3. The colour and text follow each case. |
| DueDate.StatusByMilliseconds | lib/utils.ts:29-62 | Overdue once a full day has passed since the deadline. "Due Today" from then until the deadline. Due soon up to 3 days ahead. Upcoming beyond. |
| DueDate.TextNamesTheDays | lib/utils.ts:38-59 | The text's digits read back as the number of days, and the unit is singular only for 1. |
| DueDate.JustPastIsDueToday | lib/utils.ts:29-50 | 1 ms past the deadline is still "Due Today". |
| DueDate.DayPastIsOverdue | lib/utils.ts:29-41 | One full day past the deadline is overdue, "Overdue by 1 day". |
| DueDate.DaysAheadRoundUp | lib/utils.ts:29-62 | 2 days and 1 ms ahead is "Due in 3 days". 4 days ahead is upcoming. |
| Detections.FindFrom | app/api/faculty/ai-detection/route.ts:65 | The first matching index at or after the start, or none. |
| Detections.FirstDetection | app/api/faculty/ai-detection/route.ts:65 | `find` gives a detection exactly when one matches, and it is the first match. |
| Sorting.SortDesc | app/api/faculty/ai-detection/route.ts:70 | Sorting is a permutation, sorted by non-increasing key. |
| Sorting.SortDescStable | app/api/faculty/ai-detection/route.ts:70 | Equal keys keep their input order. |
| Sorting.SortDescOfSorted | app/api/faculty/ai-detection/route.ts:70 | An input already in non-increasing order comes back unchanged. |
| Sorting.TopK | app/api/student/dashboard/route.ts:76-83 | Sorting and taking k gives min(k, n) elements of the input, sorted. Every kept element ranks at least as high as every dropped one. |
| AiAlerts.Mine | app/api/faculty/ai-detection/route.ts:42-46 | Exactly this faculty member's submissions whose id is flagged. |
| AiAlerts.Join | app/api/faculty/ai-detection/route.ts:64-69 | Each submission gets the likelihood of its first flagged detection. |
| AiAlerts.Rows | app/api/faculty/ai-detection/route.ts:25-70 | One row per submission of this faculty member that has a flagged detection. The rows come most likely first. |
| AiAlerts.SeverityOf | app/api/faculty/ai-detection/route.ts:80-82 | Critical iff ≥ 90; high iff in [70, 90); medium below 70. |
| AiAlerts.ToAlert | app/api/faculty/ai-detection/route.ts:78-93 | The fields are copied. aiConfidence is the likelihood rounded half up. Severity comes from the unrounded likelihood. |
| AiAlerts.Report | app/api/faculty/ai-detection/route.ts:63-102 | The alerts are `ToAlert` of the sorted, joined, flagged rows, one per row in the same order, and the three counts count the critical, high and medium rows. |
| AiAlerts.RowsAreFlagged | app/api/faculty/ai-detection/route.ts:26-69 | Every row is this faculty member's submission, with the likelihood of its first detection, and that likelihood is ≥ 50. |
| AiAlerts.RowsSorted | app/api/faculty/ai-detection/route.ts:70 | Rows are most likely first, a permutation of the joined rows, and stable. |
| AiAlerts.OneAlertPerFlaggedSubmission | app/api/faculty/ai-detection/route.ts:39-70 | There are as many alerts as this faculty member's flagged submissions. |
| AiAlerts.CountsMatchAlerts | app/api/faculty/ai-detection/route.ts:73-93 | The three counts add up to the number of alerts. Each count is the number of alerts of that severity. |
| AiAlerts.SeverityUsesUnroundedLikelihood | app/api/faculty/ai-detection/route.ts:79-91 | 89.5 shows as aiConfidence 90 but has severity high. |
| Statistics.PositiveMean | app/api/faculty/dashboard/route.ts:71-77 | The result is ≥ 0, and > 0 exactly when some score is positive. |
| Statistics.PositiveMeanAtMost | app/api/faculty/dashboard/route.ts:71-77 | The average of scores bounded by hi is at most hi. |
| Statistics.PositiveMeanIgnoresNonPositive | app/api/faculty/dashboard/route.ts:72 | A zero or negative score does not move the average. |
| Statistics.PositiveMeanOfPositives | app/api/faculty/dashboard/route.ts:71-77 | With all scores positive, it is the plain mean. |
| Statistics.Percentage | app/api/faculty/dashboard/route.ts:80-83 | 0 for no submissions. At most 100. Non-negative for a part of the whole. |
| Statistics.PercentageIsRoundedRatio | app/api/faculty/dashboard/route.ts:81-83 | For a part of the whole, the result is within one half of the exact percentage. |
| Statistics.PercentageMonotone | app/api/faculty/dashboard/route.ts:81-83 | A larger part never gives a smaller percentage. |
| Statistics.CappedRoundedMean | app/api/faculty/analytics/route.ts:53-57 | 0 for an empty list. At most 100. |
| Statistics.CappedRoundedMeanOfPercentages | app/api/faculty/analytics/route.ts:53-57 | For likelihoods in [0, 100], the result is the mean rounded half up, within [0, 100]. |
| StudentDashboard.ChooseAssignments | app/api/student/dashboard/route.ts:48-68 | Year-and-major matches if any exist. Otherwise an assignment is chosen exactly when its major matches, if any does. Otherwise the result is the first 20 of all (or all, if fewer). The result is never empty when assignments exist. |
| StudentDashboard.MinOf | app/api/student/dashboard/route.ts:150 | `Math.min(...)` is an element, no larger than any other. |
| StudentDashboard.WeeksActive | app/api/student/dashboard/route.ts:147-153 | Defined exactly when some submission is dated, and then ≥ 1. |
| StudentDashboard.WeeksActiveIsElapsedWeeks | app/api/student/dashboard/route.ts:147-153 | The week count covers the time since every dated submission. It is 1, or one week fewer would not cover some dated submission: it is the fewest whole weeks since the earliest one. |
| StudentDashboard.CountPositive | app/api/student/dashboard/route.ts:147-148 | The dated submissions are non-empty exactly when one is dated. |
| StudentDashboard.AiHoursPerWeek | app/api/student/dashboard/route.ts:141-156 | 0 without submissions, hours or dates. Otherwise hours per week times weeks equals the total hours, and hours per week lies in (0, total]. |
| StudentDashboard.PerWeek | app/api/student/dashboard/route.ts:141-156 | A positive total over at least one week: the weekly figure times the weeks is the total, and it lies in (0, total]. |
| StudentDashboard.Dashboard | app/api/student/dashboard/route.ts:48-168 | Over the chosen assignments: active = those due after now, due this week = those due within seven days, upcoming = `Upcoming` of them. Completed = submissions with status Submitted, Graded or completed; reflections, AI-usage percentage, total and weekly AI hours, positive-only creativity and grade averages, and recent = `Recent` of the submissions. Hence due this week ≤ active ≤ assignments, counts ≤ submissions, usage in [0, 100], averages ≥ 0 and positive exactly when some score is, lists of at most 6, upcoming in the future. |
| StudentDashboard.RecentInWindow | app/api/student/dashboard/route.ts:76-83 | Recent submissions are the min(6, in-window) submissions dated within six weeks. |
| StudentDashboard.RecentNewestFirst | app/api/student/dashboard/route.ts:78-82 | Recent submissions come newest first. |
| StudentDashboard.RecentKeepsNewest | app/api/student/dashboard/route.ts:76-83 | No in-window submission left out is newer than a shown one. |
| StudentDashboard.Recent | app/api/student/dashboard/route.ts:76-83 | At most six submissions, each one of the student's submissions dated within the last six weeks, newest first. |
| StudentDashboard.UpcomingInFuture | app/api/student/dashboard/route.ts:95-101 | Upcoming assignments are the min(6, future) assignments due after now. |
| StudentDashboard.UpcomingSoonestFirst | app/api/student/dashboard/route.ts:97-101 | Upcoming assignments come soonest first, and none left out is due sooner than a shown one. |
| StudentDashboard.Upcoming | app/api/student/dashboard/route.ts:95-101 | At most six assignments, each one of the given assignments due after now, soonest first. |
| StudentDashboard.DueThisWeekIsActive | app/api/student/dashboard/route.ts:111-119 | Active = due this week + due later than a week. |
| FacultyDashboard.ForAssignments | app/api/faculty/dashboard/route.ts:31-46 | Exactly the submissions to one of the faculty member's assignments. |
| FacultyDashboard.FindAssignment | app/api/faculty/dashboard/route.ts:64 | `find` gives an assignment with that id, or none exists. |
| FacultyDashboard.Dashboard | app/api/faculty/dashboard/route.ts:49-106 | Over the submissions to this faculty member's assignments: students = number of distinct student ids, pending = status Submitted, graded = status Graded, due this week = `DueSoon`, the AI-usage rate and the positive-only creativity and grade averages. Hence students ≤ submissions, due this week ≤ pending, pending + graded ≤ submissions, rate in [0, 100]. |
| FacultyDashboard.DueThisWeekFindsAssignment | app/api/faculty/dashboard/route.ts:63-68 | Every fetched submission finds its assignment. Due this week means pending with the assignment due in (now, now + 7 days]. |
| FacultyDashboard.StudentCountCountsDistinctIds | app/api/faculty/dashboard/route.ts:52-53 | A new student raises the count by one; a known one leaves it unchanged. |
| FacultyAnalytics.ResultsFor | app/api/faculty/analytics/route.ts:39-75 | Exactly the detections of the given submissions. None for no submissions. |
| FacultyAnalytics.LevelOf | app/api/faculty/analytics/route.ts:90-101 | Low iff ≤ 30; medium iff in (30, 60]; high iff > 60. |
| FacultyAnalytics.CreativityAt | app/api/faculty/analytics/route.ts:103-113 | A band's average creativity is ≥ 0. |
| FacultyAnalytics.Analyze | app/api/faculty/analytics/route.ts:49-113 | Students = number of distinct student ids. avgAI and the two generation figures are the capped rounded means of the likelihoods of all, first-generation and continuing-generation detections. Creativity is the positive-only mean overall and per likelihood band (`CreativityAt`). Totals are correct, averages ≤ 100 and 0 for an empty group. |
| FacultyAnalytics.LevelsPartition | app/api/faculty/analytics/route.ts:90-101 | The three bands split the submissions that have a detection. |
| FacultyAnalytics.GenerationsPartition | app/api/faculty/analytics/route.ts:68-69 | First-generation and continuing submissions split the submissions. |
| FacultyAnalytics.GenerationResultsPartition | app/api/faculty/analytics/route.ts:71-75 | With one flag per submission id, every detection is averaged into exactly one generation figure. |
| FacultyAnalytics.GenerationAiIsRoundedMean | app/api/faculty/analytics/route.ts:66-87 | On the 0–100 scale each generation figure is its group's mean likelihood rounded half up, never capped. |
| FacultyAnalytics.AverageAiIsRoundedMean | app/api/faculty/analytics/route.ts:53-57 | With likelihoods in [0, 100], the overall average is the mean rounded half up and never capped. |
| SubjectSelector.Toggle | components/subject-selector.tsx:72-87 | A selected id is removed and the order of the rest is kept. A new id is appended while there is room. Otherwise nothing changes and the limit message is set. |
| SubjectSelector.FilterKeepsNoDuplicates | components/subject-selector.tsx:78 | Removing keeps the selection duplicate-free. |
| SubjectSelector.RemoveOnce | components/subject-selector.tsx:78 | Removing a selected id shortens the selection by one. |
| SubjectSelector.ToggleKeepsValid | components/subject-selector.tsx:72-87 | A toggle keeps the selection duplicate-free and within the limit. |
| SubjectSelector.ToggleAllKeepsValid | components/subject-selector.tsx:72-87 | Any sequence of clicks keeps the selection duplicate-free and within the limit. |
| SubjectSelector.ToggleTwiceRestores | components/subject-selector.tsx:77-84 | Toggling a new id twice restores the selection. |
| SubjectSelector.SaveError | components/subject-selector.tsx:89-100 | The save goes ahead exactly for min ≤ size ≤ max. Otherwise it gives the too-few message, then the too-many message. |
| SubjectSelector.ToggledSelectionSaves | components/subject-selector.tsx:42-100 | A clicked selection never trips the upper check. It saves exactly when it is large enough. |
| SubjectSelector.Filtered | components/subject-selector.tsx:144-146 | "all" shows every subject. Any other filter shows exactly that department's subjects. |
| SubjectSelector.Dedup | components/subject-selector.tsx:142 | `Array.from(new Set(...))` has no duplicates and holds exactly the values. The first new value comes first. |
| SubjectSelector.Departments | components/subject-selector.tsx:142 | Every department of the subjects appears once. |
| SubjectSelector.DepartmentButtonsCoverSubjects | components/subject-selector.tsx:142-146 | Every subject is shown under some department button. |
| Text.Split | python-service/model.py:179 | `str.split()` gives the non-empty whitespace-free words. |
| Text.Join | python-service/model.py:196 | Joining no words gives "". Otherwise the text starts with the first word. `SplitJoin` splits it back into the words. |
| Text.SplitJoin | python-service/model.py:291 | Splitting `" ".join(words)` gives the words back. |
| Text.ToLower | app/api/detect-sentences/route.ts:124 | The result has the same length and no capital letters. Each ASCII capital becomes the lower-case letter 32 code points later. Every other character is unchanged. |
| Text.NatToString | lib/utils.ts:38-52 | Decimal digits, non-empty. |
| Text.NatToStringRoundTrip | lib/utils.ts:38-52 | The digits read back as the number. |
| Seqs.RoundHalfUp | app/api/detect-ai/route.ts:59 | `Math.round` gives the integer within (x − ½, x + ½]. |
| Seqs.CeilDiv | lib/utils.ts:32 | `Math.ceil(a / b)` is the least k with k·b ≥ a. |

## Left out

- `detect-ai` emergency fallback (route.ts:103-114) and every HTTP, session, Prisma, `fetch` and `try`/`catch` plumbing of the routes: these are I/O. A failing external call is modelled as `None`. Query results are parameters, taken in the order the database returned them.
- Regular-expression feature extraction (`stripHtmlAndCode`, the marker patterns, sentence splitting in both detection routes, word counting with `[^\d\W]+`): the regexes are not modelled. The extracted counts and flags are inputs, `Features` and `Sentence`.
- `Text.ToLower`: lower-cases ASCII letters only. JavaScript's `toLowerCase` also maps other Unicode capitals, which the keyword lists never contain.
- The T5 mask-and-fill path of `getScore` (`maskRandomWord`, `unmasker`, `apply_extracted_fills`): `use_t5` is constantly false, so that path never runs.
- `similar`, `normCdf` and `likelihoodRatio` in model.py: never called by the core.
- GPT-2, its tokenizer and numpy's generator: abstract functions. `np.std` keeps only its non-negative square root. Floating point is modelled as exact reals.
- Display rounding with `toFixed` / `Math.round(x * 10) / 10`, `foundMarkers`, `avgWordsPerSentence`, `vocabularyRichness` and `sentenceVariation` in the responses: presentation only.
- CSV value rendering (`toString`, `toISOString`): values arrive already rendered. The `json` format branch of the export route returns the data unchanged.
- `Departments.MajorsForDepartment`: does not model JavaScript prototype keys such as `"constructor"`, which a plain-object lookup would also find.
- `Departments.DepartmentForMajor`: does not model prototype keys either. For a key such as `"constructor"` the source's lookup finds an inherited function, and `|| ''` returns that truthy non-string value, not `""`. The model returns `""` for every key outside the table.
- `Departments.CanTeachMajor`: does not model prototype keys either. For a department such as `"toString"` the source finds an inherited function that has no `includes`, so the call throws a TypeError. The model answers `false`.
- `DueDate.GetDueDateStatus`: an unparsable date gives `NaN` in JavaScript. The model takes the deadline as a number of milliseconds, so that case does not arise.
- The projection of recent submissions and upcoming assignments onto response fields (`.map` in the student dashboard): the model keeps whole records.
- The enrolment count of the student dashboard and the faculty id and name in the faculty dashboard response: database reads.
- `handleSave`'s POST, the success messages and the React rendering of the subject selector: I/O and presentation. `fetchSubjects` is an input.
- `formatDate` and `cn` in lib/utils.ts: formatting helpers outside the core.

=== FILE: ai_alerts.dfy ===
/** The faculty AI-detection alerts: detections of at least 50 % are joined
    with the faculty member's submissions, sorted by likelihood, bucketed by
    severity and counted. */
module AiAlerts {
  import opened Outcomes
  import opened Seqs
  import opened Sorting
  import opened Detections

  /** Only detection results at or above this likelihood are fetched. */
  const FlagThreshold: real := 50.0

  /** A submission with the student and assignment fields the query includes. */
  datatype Submission = Submission(
    submissionId: string, facultyId: string,
    studentId: string, studentName: string,
    assignmentType: string, assignmentMajor: string,
    submissionDate: int)

  /** A submission joined with its detection's likelihood. */
  datatype Flagged = Flagged(sub: Submission, aiLikelihood: real)

  datatype Severity = Critical | High | Medium

  datatype Alert = Alert(
    id: string, student: string, studentId: string, assignment: string,
    submittedAt: int, aiConfidence: int, severity: Severity)

  datatype Counts = Counts(critical: nat, high: nat, medium: nat)

  datatype AlertReport = AlertReport(counts: Counts, alerts: seq<Alert>)

  predicate IsFlagged(d: Detection) { d.aiLikelihood >= FlagThreshold }

  function IdOf(d: Detection): string { d.submissionId }

  function Key(f: Flagged): real { f.aiLikelihood }

  /** `detection ? detection.aiLikelihood : 0` */
  function Likelihood(flagged: seq<Detection>, s: Submission): real
  {
    match FirstDetection(flagged, s.submissionId)
    case Some(d) => d.aiLikelihood
    case None => 0.0
  }

  /** The faculty member's submissions whose id has a flagged detection. */
  function Mine(submissions: seq<Submission>, facultyId: string, ids: seq<string>): (mine: seq<Submission>)
    ensures forall s :: s in mine <==> s in submissions && s.facultyId == facultyId && s.submissionId in ids
  {
    Filter(submissions, (s: Submission) => s.facultyId == facultyId && s.submissionId in ids)
  }

  function Join(mine: seq<Submission>, flagged: seq<Detection>): (rows: seq<Flagged>)
    ensures |rows| == |mine|
    ensures forall i :: 0 <= i < |mine| ==> rows[i] == Flagged(mine[i], Likelihood(flagged, mine[i]))
  {
    Map(mine, (s: Submission) => Flagged(s, Likelihood(flagged, s)))
  }

  /** `submissionsWithAI`, before and after `sort((a, b) => b.aiLikelihood - a.aiLikelihood)`. */
  function Rows(detections: seq<Detection>, submissions: seq<Submission>, facultyId: string): (rows: seq<Flagged>)
    ensures |rows| == |Mine(submissions, facultyId, Map(Filter(detections, IsFlagged), IdOf))|
    ensures forall i, j :: 0 <= i < j < |rows| ==> rows[i].aiLikelihood >= rows[j].aiLikelihood
  {
    var flagged := Filter(detections, IsFlagged);
    var mine := Mine(submissions, facultyId, Map(flagged, IdOf));
    SortDesc(Join(mine, flagged), Key)
  }

  /** The bucket of a likelihood: critical from 90, high from 70, otherwise medium. */
  function SeverityOf(confidence: real): (s: Severity)
    ensures s == Critical <==> confidence >= 90.0
    ensures s == High <==> 70.0 <= confidence < 90.0
    ensures s == Medium <==> confidence < 70.0
  {
    if confidence >= 90.0 then Critical
    else if confidence >= 70.0 then High
    else Medium
  }

  function ToAlert(f: Flagged): (a: Alert)
    ensures a.id == f.sub.submissionId && a.studentId == f.sub.studentId && a.student == f.sub.studentName
    ensures a.assignment == f.sub.assignmentType + " - " + f.sub.assignmentMajor
    ensures a.submittedAt == f.sub.submissionDate
    ensures f.aiLikelihood - 0.5 < a.aiConfidence as real <= f.aiLikelihood + 0.5
    ensures a.severity == SeverityOf(f.aiLikelihood)
  {
    Alert(f.sub.submissionId, f.sub.studentName, f.sub.studentId,
          f.sub.assignmentType + " - " + f.sub.assignmentMajor,
          f.sub.submissionDate, RoundHalfUp(f.aiLikelihood), SeverityOf(f.aiLikelihood))
  }

  predicate IsCritical(f: Flagged) { f.aiLikelihood >= 90.0 }
  predicate IsHigh(f: Flagged) { f.aiLikelihood >= 70.0 && f.aiLikelihood < 90.0 }
  predicate IsMedium(f: Flagged) { f.aiLikelihood >= 50.0 && f.aiLikelihood < 70.0 }

  /** The route's response body. */
  function Report(detections: seq<Detection>, submissions: seq<Submission>, facultyId: string): (r: AlertReport)
    ensures var rows := Rows(detections, submissions, facultyId);
      && |r.alerts| == |rows|
      && (forall i :: 0 <= i < |rows| ==> r.alerts[i] == ToAlert(rows[i]))
      && r.counts == Counts(Count(rows, IsCritical), Count(rows, IsHigh), Count(rows, IsMedium))
  {
    var rows := Rows(detections, submissions, facultyId);
    AlertReport(Counts(Count(rows, IsCritical), Count(rows, IsHigh), Count(rows, IsMedium)), Map(rows, ToAlert))
  }

  /** Every row is one of this faculty member's submissions, and its
      likelihood is that of the first flagged detection for it, hence at
      least 50. */
  lemma RowsAreFlagged(detections: seq<Detection>, submissions: seq<Submission>, facultyId: string)
    ensures var rows := Rows(detections, submissions, facultyId);
      forall f :: f in rows ==>
        && f.sub in submissions && f.sub.facultyId == facultyId
        && FirstDetection(Filter(detections, IsFlagged), f.sub.submissionId) == Some(Detection(f.sub.submissionId, f.aiLikelihood))
        && f.aiLikelihood >= FlagThreshold
  {
    var flagged := Filter(detections, IsFlagged);
    var mine := Mine(submissions, facultyId, Map(flagged, IdOf));
    var joined := Join(mine, flagged);
    var rows := Rows(detections, submissions, facultyId);
    forall f | f in rows
      ensures f.sub in submissions && f.sub.facultyId == facultyId
      ensures FirstDetection(flagged, f.sub.submissionId) == Some(Detection(f.sub.submissionId, f.aiLikelihood))
      ensures f.aiLikelihood >= FlagThreshold
    {
      assert f in multiset(joined);
      var i :| 0 <= i < |joined| && joined[i] == f;
      JoinedRowFlagged(flagged, mine, submissions, facultyId, i);
    }
  }

  /** The `i`-th joined row carries the first flagged detection of its
      submission. */
  lemma JoinedRowFlagged(flagged: seq<Detection>, mine: seq<Submission>, submissions: seq<Submission>, facultyId: string, i: nat)
    requires forall d :: d in flagged ==> IsFlagged(d)
    requires mine == Mine(submissions, facultyId, Map(flagged, IdOf))
    requires i < |mine|
    ensures var f := Join(mine, flagged)[i];
      && f.sub in submissions && f.sub.facultyId == facultyId
      && FirstDetection(flagged, f.sub.submissionId) == Some(Detection(f.sub.submissionId, f.aiLikelihood))
      && f.aiLikelihood >= FlagThreshold
  {
    var ids := Map(flagged, IdOf);
    var s := mine[i];
    assert s in mine;
    assert s.submissionId in ids;
    var k :| 0 <= k < |ids| && ids[k] == s.submissionId;
    assert flagged[k].submissionId == s.submissionId;
    var d := FirstDetection(flagged, s.submissionId).value;
    assert d in flagged;
  }

  /** Alerts come out most likely first, and the sort is stable: rows with
      equal likelihood keep the order the submissions were fetched in. The
      rows are exactly the joined submissions, rearranged. */
  lemma RowsSorted(detections: seq<Detection>, submissions: seq<Submission>, facultyId: string, k: real)
    ensures var rows := Rows(detections, submissions, facultyId);
      var flagged := Filter(detections, IsFlagged);
      var joined := Join(Mine(submissions, facultyId, Map(flagged, IdOf)), flagged);
      && (forall i, j :: 0 <= i < j < |rows| ==> rows[i].aiLikelihood >= rows[j].aiLikelihood)
      && multiset(rows) == multiset(joined)
      && WithKey(rows, Key, k) == WithKey(joined, Key, k)
  {
    var flagged := Filter(detections, IsFlagged);
    SortDescStable(Join(Mine(submissions, facultyId, Map(flagged, IdOf)), flagged), Key, k);
  }

  /** One alert per submission of this faculty member that has a flagged
      detection. */
  lemma OneAlertPerFlaggedSubmission(detections: seq<Detection>, submissions: seq<Submission>, facultyId: string)
    ensures var flagged := Filter(detections, IsFlagged);
      |Report(detections, submissions, facultyId).alerts|
        == |Mine(submissions, facultyId, Map(flagged, IdOf))|
  {
  }

  /** The three counts add up to the number of alerts, and each count is the
      number of alerts carrying that severity. */
  lemma CountsMatchAlerts(detections: seq<Detection>, submissions: seq<Submission>, facultyId: string)
    ensures var r := Report(detections, submissions, facultyId);
      && r.counts.critical + r.counts.high + r.counts.medium == |r.alerts|
      && r.counts.critical == Count(r.alerts, (a: Alert) => a.severity == Critical)
      && r.counts.high == Count(r.alerts, (a: Alert) => a.severity == High)
      && r.counts.medium == Count(r.alerts, (a: Alert) => a.severity == Medium)
  {
    var rows := Rows(detections, submissions, facultyId);
    RowsAreFlagged(detections, submissions, facultyId);
    assert forall i :: 0 <= i < |rows| ==> rows[i] in rows;
    CountPartition3(rows, IsCritical, IsHigh, IsMedium);
    CountMap(rows, ToAlert, (a: Alert) => a.severity == Critical, IsCritical);
    CountMap(rows, ToAlert, (a: Alert) => a.severity == High, IsHigh);
    CountMap(rows, ToAlert, (a: Alert) => a.severity == Medium, IsMedium);
  }

  /** `aiConfidence` is `Math.round` of the likelihood, so it can cross a
      bucket boundary: 89.5 shows as 90 but is bucketed "high". */
  lemma SeverityUsesUnroundedLikelihood()
    ensures var a := ToAlert(Flagged(Submission("s", "f", "t", "n", "Essay", "CS", 0), 89.5));
      a.aiConfidence == 90 && a.severity == High
  {
  }
}

=== FILE: analysis.dfy ===
/** `GPT2PPL.analyze`: the response the detection service sends for a text.

    Texts of fewer than 30 words are refused. Texts of at most 600 words are
    scored whole; longer ones are cut into 600-word chunks whose scores are
    averaged, skipping chunks whose scoring failed. A failed analysis is not
    an error: it answers a neutral 50/50 "Unclear" report. */
module Analysis {
  import opened Outcomes
  import opened Seqs
  import opened Text
  import opened Likelihood
  import opened Perturbation
  import opened Scoring
  import opened Calibration

  const MinWords: nat := 30
  const ChunkWords: nat := 600
  const TooShortMessage: string := "Text too short. Please provide at least 30 words."
  const UnclearText: string := "Unclear - analysis error"

  /** `raw_metrics`: the spread of a scored text, or why there is none. */
  datatype RawMetrics =
    | Spread(diff: real, std: real)
    | SingleError(failure: Failure)
    | AllChunksFailed(totalChunks: nat)

  datatype Response =
    | TooShort(error: string, minWords: nat)
    | Report(score: real, aiLikelihood: int, humanLikelihood: int,
             confidence: string, verdict: string, raw: RawMetrics)

  /** `words[i:i + size]` for `i` in `range(0, len(words), size)`. */
  function Chunks<T>(xs: seq<T>, size: nat): (cs: seq<seq<T>>)
    requires size > 0
    ensures Flatten(cs) == xs
    ensures forall i :: 0 <= i < |cs| ==> 0 < |cs[i]| <= size
    ensures forall i :: 0 <= i < |cs| - 1 ==> |cs[i]| == size
    decreases |xs|
  {
    if |xs| == 0 then []
    else if |xs| <= size then
      assert Flatten([xs]) == xs + [];
      [xs]
    else
      var rest := Chunks(xs[size..], size);
      var cs := [xs[..size]] + rest;
      assert cs[1..] == rest;
      assert xs == xs[..size] + xs[size..];
      cs
  }

  /** There are `ceil(n / size)` chunks. */
  lemma {:induction false} ChunksCount<T>(xs: seq<T>, size: nat)
    requires size > 0
    ensures |Chunks(xs, size)| == CeilDiv(|xs|, size)
    decreases |xs|
  {
    if |xs| == 0 {
      CeilDivUnique(0, size, 0);
    } else if |xs| <= size {
      CeilDivUnique(|xs|, size, 1);
    } else {
      ChunksCount(xs[size..], size);
      CeilDivStep(|xs|, size);
    }
  }

  lemma CeilDivStep(n: nat, size: nat)
    requires 0 < size < n
    ensures CeilDiv(n, size) == 1 + CeilDiv(n - size, size)
  {
    var b := CeilDiv(n - size, size);
    assert (b + 1 - 1) * size < n <= (b + 1) * size;
    CeilDivUnique(n, size, b + 1);
  }

  /** The success report of a score. */
  function Scored(score: real, diff: real, std: real): (r: Response)
    ensures r.Report? && r.score == score && r.raw == Spread(diff, std)
    ensures r.aiLikelihood == AiLikelihood(score) && r.humanLikelihood == 100 - r.aiLikelihood
    ensures r.verdict == GetVerdict(score).verdict && r.confidence == GetVerdict(score).confidence
  {
    var tier := GetVerdict(score);
    var ai := AiLikelihood(score);
    Report(score, ai, 100 - ai, tier.confidence, tier.verdict, Spread(diff, std))
  }

  /** The neutral report a failed analysis answers. */
  function Unclear(raw: RawMetrics): (r: Response)
    ensures r.Report? && r.aiLikelihood == r.humanLikelihood == 50
    ensures r.score == 0.0 && r.confidence == "low" && r.verdict == UnclearText && r.raw == raw
  {
    Report(0.0, 50, 50, "low", UnclearText, raw)
  }

  /** The score of one chunk, absent when scoring it failed. */
  function ChunkScore(o: Oracle, rand: RandInt, sqrt: Sqrt, text: string): (r: Option<real>)
    ensures r.Some? <==> GetScore(o, rand, sqrt, text).Ok?
    ensures r.Some? ==> r.value == GetScore(o, rand, sqrt, text).value.score
  {
    match GetScore(o, rand, sqrt, text)
    case Ok(s) => Some(s.score)
    case Fail(_) => None
  }

  /** The texts of the chunks: `" ".join(words[i:i + 600])`. */
  function ChunkTexts(words: seq<string>): (ts: seq<string>)
    ensures |ts| == |Chunks(words, ChunkWords)|
  {
    Map(Chunks(words, ChunkWords), Join)
  }

  /** The scores of the chunks that scored; when every chunk scores they
      are the chunks' scores in chunk order. */
  function ChunkScores(o: Oracle, rand: RandInt, sqrt: Sqrt, words: seq<string>): (scores: seq<real>)
    ensures var ts := ChunkTexts(words);
      && |scores| <= |ts|
      && ((forall i :: 0 <= i < |ts| ==> ChunkScore(o, rand, sqrt, ts[i]).Some?) ==>
            |scores| == |ts| && forall i :: 0 <= i < |ts| ==> Some(scores[i]) == ChunkScore(o, rand, sqrt, ts[i]))
  {
    Successes(ChunkTexts(words), ChunkScorer(o, rand, sqrt))
  }

  /** `ChunkScore` as the function the chunk loop applies. */
  function ChunkScorer(o: Oracle, rand: RandInt, sqrt: Sqrt): string -> Option<real>
  {
    t => ChunkScore(o, rand, sqrt, t)
  }

  /** Under partial failure the averaged list holds the same values as the
      scores of the chunks that scored: every entry is some chunk's score, and
      every chunk that scored contributes its score. Order and multiplicity
      follow from `Seqs.SuccessesAppendOne`. */
  lemma ChunkScoresAreScoredChunks(o: Oracle, rand: RandInt, sqrt: Sqrt, words: seq<string>)
    ensures var ts := ChunkTexts(words);
      var scores := ChunkScores(o, rand, sqrt, words);
      && (forall j :: 0 <= j < |scores| ==>
            exists i :: 0 <= i < |ts| && ChunkScore(o, rand, sqrt, ts[i]) == Some(scores[j]))
      && (forall i :: 0 <= i < |ts| && ChunkScore(o, rand, sqrt, ts[i]).Some? ==>
            ChunkScore(o, rand, sqrt, ts[i]).value in scores)
  {
    var ts := ChunkTexts(words);
    var f := ChunkScorer(o, rand, sqrt);
    var scores := ChunkScores(o, rand, sqrt, words);
    assert scores == Successes(ts, f);
    forall j | 0 <= j < |scores|
      ensures exists i :: 0 <= i < |ts| && ChunkScore(o, rand, sqrt, ts[i]) == Some(scores[j])
    {
      SuccessesFromElements(ts, f, j);
      var i :| 0 <= i < |ts| && f(ts[i]) == Some(scores[j]);
      assert ChunkScore(o, rand, sqrt, ts[i]) == Some(scores[j]);
    }
    forall i | 0 <= i < |ts| && ChunkScore(o, rand, sqrt, ts[i]).Some?
      ensures ChunkScore(o, rand, sqrt, ts[i]).value in scores
    {
      assert f(ts[i]).Some?;
      ElementsInSuccesses(ts, f, i);
    }
  }

  /** The loop appends the last chunk's score last: when the last chunk
      scores, its score ends the list that is averaged. */
  lemma ChunkScoresEndWithLastChunk(o: Oracle, rand: RandInt, sqrt: Sqrt, words: seq<string>)
    requires |ChunkTexts(words)| > 0
    requires var ts := ChunkTexts(words); ChunkScore(o, rand, sqrt, ts[|ts| - 1]).Some?
    ensures var ts := ChunkTexts(words);
      var scores := ChunkScores(o, rand, sqrt, words);
      |scores| > 0 && Some(scores[|scores| - 1]) == ChunkScore(o, rand, sqrt, ts[|ts| - 1])
  {
    var ts := ChunkTexts(words);
    var f := ChunkScorer(o, rand, sqrt);
    SuccessesLast(ts, f);
  }

  /** `analyze(text)`. */
  function Analyze(o: Oracle, rand: RandInt, sqrt: Sqrt, text: string): (r: Response)
    ensures r.TooShort? <==> |Split(text)| < MinWords
    ensures r.TooShort? ==> r == TooShort(TooShortMessage, MinWords)
    ensures r.Report? ==> 0 <= r.aiLikelihood <= 100 && r.aiLikelihood + r.humanLikelihood == 100
    ensures r.Report? ==> (r.verdict == UnclearText <==> !r.raw.Spread?)
    ensures r.Report? && r.verdict == UnclearText ==>
      r.score == 0.0 && r.aiLikelihood == 50 && r.confidence == "low"
    ensures r.Report? && r.raw.Spread? ==>
      && r.aiLikelihood == AiLikelihood(r.score)
      && r.verdict == GetVerdict(r.score).verdict
      && r.confidence == GetVerdict(r.score).confidence
    ensures MinWords <= |Split(text)| <= ChunkWords ==>
      match GetScore(o, rand, sqrt, text)
      case Fail(f) => r.raw == SingleError(f)
      case Ok(s) => r.score == s.score && r.raw == Spread(s.diff, s.std)
    ensures |Split(text)| > ChunkWords ==>
      var scores := ChunkScores(o, rand, sqrt, Split(text));
      && (|scores| == 0 ==> r.raw == AllChunksFailed(|Chunks(Split(text), ChunkWords)|))
      && (|scores| > 0 ==> r.score == Mean(scores) && r.raw == Spread(0.0, 1.0))
  {
    var words := Split(text);
    if |words| < MinWords then TooShort(TooShortMessage, MinWords)
    else if |words| > ChunkWords then
      var scores := ChunkScores(o, rand, sqrt, words);
      if |scores| == 0 then Unclear(AllChunksFailed(|ChunkTexts(words)|))
      else Scored(Mean(scores), 0.0, 1.0)
    else
      match GetScore(o, rand, sqrt, text)
      case Fail(f) => Unclear(SingleError(f))
      case Ok(s) => Scored(s.score, s.diff, s.std)
  }

  /** 600 words make one chunk and 601 make two, the second of one word. */
  lemma ChunkCountExamples(words: seq<string>)
    ensures |words| == 600 ==> |Chunks(words, ChunkWords)| == 1
    ensures |words| == 601 ==> |Chunks(words, ChunkWords)| == 2 && |Chunks(words, ChunkWords)[1]| == 1
  {
    if |words| == 601 {
      assert Chunks(words, ChunkWords) == [words[..600]] + Chunks(words[600..], 600);
    }
  }

  /** The last chunk holds the remainder of the division by 600, or a full
      chunk when 600 divides the word count. */
  lemma {:induction false} LastChunkLength<T>(xs: seq<T>)
    requires |xs| > 0
    ensures var cs := Chunks(xs, ChunkWords);
      |cs[|cs| - 1]| == if |xs| % ChunkWords == 0 then ChunkWords else |xs| % ChunkWords
    decreases |xs|
  {
    if |xs| > ChunkWords {
      LastChunkLength(xs[ChunkWords..]);
      LastChunkOfRest(xs);
      RemainderAfterChunk(|xs|);
    }
  }

  lemma LastChunkOfRest<T>(xs: seq<T>)
    requires |xs| > ChunkWords
    ensures var cs := Chunks(xs, ChunkWords);
      var later := Chunks(xs[ChunkWords..], ChunkWords);
      |later| > 0 && cs[|cs| - 1] == later[|later| - 1]
  {
    var later := Chunks(xs[ChunkWords..], ChunkWords);
    assert Chunks(xs, ChunkWords) == [xs[..ChunkWords]] + later;
  }

  lemma RemainderAfterChunk(n: nat)
    requires n > ChunkWords
    ensures (n - ChunkWords) % ChunkWords == n % ChunkWords
  {
  }

  /** Every element of a chunk is an element of the whole. */
  lemma {:induction false} ChunkElementsOfFlatten<T>(cs: seq<seq<T>>, i: nat, x: T)
    requires i < |cs| && x in cs[i]
    ensures x in Flatten(cs)
  {
    if i > 0 {
      ChunkElementsOfFlatten(cs[1..], i - 1, x);
    }
  }

  /** A chunk of the words of a text is a list of words, so its text splits
      back into exactly those words. */
  lemma ChunkResplits(words: seq<string>, i: nat)
    requires AllWords(words)
    requires i < |Chunks(words, ChunkWords)|
    ensures Split(ChunkTexts(words)[i]) == Chunks(words, ChunkWords)[i]
  {
    var cs := Chunks(words, ChunkWords);
    forall k | 0 <= k < |cs[i]|
      ensures IsWord(cs[i][k])
    {
      ChunkElementsOfFlatten(cs, i, cs[i][k]);
    }
    SplitJoin(cs[i]);
  }

  /** A final chunk of at most ten words is too short to be perturbed, so it
      scores exactly 0.0 whenever it scores at all, and that 0.0 is the last
      of the chunk scores that are averaged. */
  lemma ShortLastChunkScoresZero(o: Oracle, rand: RandInt, sqrt: Sqrt, words: seq<string>)
    requires AllWords(words) && |words| > ChunkWords
    requires 0 < |words| % ChunkWords <= ShortText
    ensures var ts := ChunkTexts(words);
      ChunkScore(o, rand, sqrt, ts[|ts| - 1]) in {None, Some(0.0)}
    ensures var ts := ChunkTexts(words);
      var scores := ChunkScores(o, rand, sqrt, words);
      ChunkScore(o, rand, sqrt, ts[|ts| - 1]).Some? ==> |scores| > 0 && scores[|scores| - 1] == 0.0
  {
    var cs := Chunks(words, ChunkWords);
    LastChunkLength(words);
    ChunkResplits(words, |cs| - 1);
    var ts := ChunkTexts(words);
    if ChunkScore(o, rand, sqrt, ts[|ts| - 1]).Some? {
      ChunkScoresEndWithLastChunk(o, rand, sqrt, words);
    }
  }

  /** The averaged score of a long text lies between the lowest and the
      highest score of its chunks. */
  lemma ChunkedScoreWithinChunkScores(o: Oracle, rand: RandInt, sqrt: Sqrt, text: string, lo: real, hi: real)
    requires |Split(text)| > ChunkWords
    requires var scores := ChunkScores(o, rand, sqrt, Split(text));
      |scores| > 0 && forall i :: 0 <= i < |scores| ==> lo <= scores[i] <= hi
    ensures var r := Analyze(o, rand, sqrt, text);
      r.Report? && r.raw == Spread(0.0, 1.0) && lo <= r.score <= hi
  {
    MeanBounds(ChunkScores(o, rand, sqrt, Split(text)), lo, hi);
  }
}

=== FILE: calibration.dfy ===
/** The two calibration tables of the scorer, both read off the same final
    score: `getVerdict` (verdict text and confidence) and the aiLikelihood
    step table of `analyze`. Every comparison is strict (`score > bound`). */
module Calibration {

  const AiText: string := "Likely AI-generated or heavily AI-assisted"
  const MixedText: string := "Mixed human and AI content"
  const HumanText: string := "Primarily human-written"

  datatype Tier = Tier(verdict: string, confidence: string)

  /** `getVerdict(score)` */
  function GetVerdict(score: real): (t: Tier)
    ensures t.verdict in {AiText, MixedText, HumanText}
    ensures t.confidence in {"High", "Medium"}
    ensures t.verdict == AiText <==> score > 0.05
    ensures t.verdict == HumanText <==> score <= -0.15
    ensures t.confidence == "High" <==> score > 0.3 || score <= -0.5
  {
    if score > 0.7 then Tier(AiText, "High")
    else if score > 0.3 then Tier(AiText, "High")
    else if score > 0.05 then Tier(AiText, "Medium")
    else if score > -0.15 then Tier(MixedText, "Medium")
    else if score > -0.5 then Tier(HumanText, "Medium")
    else Tier(HumanText, "High")
  }

  /** The aiLikelihood percentage of `analyze`. */
  function AiLikelihood(score: real): (ai: int)
    ensures 0 <= ai <= 100
  {
    if score > 1.5 then 100
    else if score > 1.0 then 98
    else if score > 0.7 then 95
    else if score > 0.5 then 92
    else if score > 0.3 then 88
    else if score > 0.15 then 82
    else if score > 0.05 then 75
    else if score > 0.0 then 68
    else if score > -0.05 then 55
    else if score > -0.15 then 42
    else if score > -0.3 then 32
    else if score > -0.5 then 22
    else if score > -0.7 then 12
    else if score > -1.0 then 5
    else if score > -1.5 then 2
    else 0
  }

  /** A step of a threshold table: scores above `bound` get `value`, unless
      an earlier step already applied. */
  datatype Step = Step(bound: real, value: int)

  /** The first step whose bound the score exceeds, or `otherwise`. */
  function Lookup(table: seq<Step>, score: real, otherwise: int): (v: int)
    ensures (forall i :: 0 <= i < |table| ==> score <= table[i].bound) ==> v == otherwise
    ensures |table| > 0 && score > table[0].bound ==> v == table[0].value
  {
    if |table| == 0 then otherwise
    else if score > table[0].bound then table[0].value
    else Lookup(table[1..], score, otherwise)
  }

  /** The breakpoints as data, highest first. */
  const AiTable: seq<Step> := [
    Step(1.5, 100), Step(1.0, 98), Step(0.7, 95), Step(0.5, 92), Step(0.3, 88),
    Step(0.15, 82), Step(0.05, 75), Step(0.0, 68), Step(-0.05, 55), Step(-0.15, 42),
    Step(-0.3, 32), Step(-0.5, 22), Step(-0.7, 12), Step(-1.0, 5), Step(-1.5, 2)]

  /** Bounds strictly decrease and values do not increase down the table,
      and the fallback is below every value. */
  predicate WellOrdered(table: seq<Step>, otherwise: int)
  {
    && (forall i, j :: 0 <= i < j < |table| ==> table[j].bound < table[i].bound && table[j].value <= table[i].value)
    && (forall i :: 0 <= i < |table| ==> otherwise <= table[i].value)
  }

  /** The result of a lookup is one of the table's values or the fallback. */
  lemma {:induction false} LookupInRange(table: seq<Step>, score: real, otherwise: int)
    ensures Lookup(table, score, otherwise) == otherwise
         || exists i :: 0 <= i < |table| && Lookup(table, score, otherwise) == table[i].value
  {
    if |table| > 0 && !(score > table[0].bound) {
      LookupInRange(table[1..], score, otherwise);
      if Lookup(table, score, otherwise) != otherwise {
        var i :| 0 <= i < |table| - 1 && Lookup(table[1..], score, otherwise) == table[1..][i].value;
        assert table[i + 1].value == table[1..][i].value;
      }
    }
  }

  /** The lookup answers with the first step whose bound the score exceeds. */
  lemma {:induction false} LookupFirstAbove(table: seq<Step>, score: real, otherwise: int, k: nat)
    requires k < |table| && score > table[k].bound
    requires forall i :: 0 <= i < k ==> score <= table[i].bound
    ensures Lookup(table, score, otherwise) == table[k].value
  {
    if k > 0 {
      LookupFirstAbove(table[1..], score, otherwise, k - 1);
    }
  }

  /** In a well-ordered table, a score in the band `(bound[k], bound[k-1]]`
      gets the value of step `k`. */
  lemma LookupBand(table: seq<Step>, otherwise: int, score: real, k: nat)
    requires WellOrdered(table, otherwise)
    requires k < |table| && score > table[k].bound
    requires k > 0 ==> score <= table[k - 1].bound
    ensures Lookup(table, score, otherwise) == table[k].value
  {
    LookupFirstAbove(table, score, otherwise, k);
  }

  /** A score at or below every bound gets the fallback. */
  lemma {:induction false} LookupBelowAll(table: seq<Step>, score: real, otherwise: int)
    requires forall i :: 0 <= i < |table| ==> score <= table[i].bound
    ensures Lookup(table, score, otherwise) == otherwise
  {
    if |table| > 0 {
      LookupBelowAll(table[1..], score, otherwise);
    }
  }

  /** A well-ordered threshold table is a non-decreasing function of the score. */
  lemma {:induction false} LookupMonotone(table: seq<Step>, otherwise: int, a: real, b: real)
    requires WellOrdered(table, otherwise)
    requires a <= b
    ensures Lookup(table, a, otherwise) <= Lookup(table, b, otherwise)
  {
    if |table| > 0 {
      if a > table[0].bound {
        assert b > table[0].bound;
      } else if b > table[0].bound {
        LookupInRange(table[1..], a, otherwise);
        if Lookup(table[1..], a, otherwise) != otherwise {
          var i :| 0 <= i < |table| - 1 && Lookup(table[1..], a, otherwise) == table[1..][i].value;
          assert table[i + 1].value <= table[0].value;
        }
      } else {
        LookupMonotone(table[1..], otherwise, a, b);
      }
    }
  }

  /** Neighbouring steps are ordered, and the last value is above the fallback. */
  predicate NeighboursOrdered(table: seq<Step>, otherwise: int)
  {
    && (forall i :: 0 <= i < |table| - 1 ==> table[i + 1].bound < table[i].bound && table[i + 1].value <= table[i].value)
    && (|table| > 0 ==> otherwise <= table[|table| - 1].value)
  }

  /** Checking neighbours is enough: the orders are transitive. */
  lemma {:induction false} NeighboursOrderedIsWellOrdered(table: seq<Step>, otherwise: int)
    requires NeighboursOrdered(table, otherwise)
    ensures WellOrdered(table, otherwise)
  {
    if |table| > 1 {
      var rest := table[1..];
      assert NeighboursOrdered(rest, otherwise) by {
        forall i | 0 <= i < |rest| - 1
          ensures rest[i + 1].bound < rest[i].bound && rest[i + 1].value <= rest[i].value
        {
          assert rest[i] == table[i + 1] && rest[i + 1] == table[i + 2];
        }
      }
      NeighboursOrderedIsWellOrdered(rest, otherwise);
      forall i, j | 0 <= i < j < |table|
        ensures table[j].bound < table[i].bound && table[j].value <= table[i].value
      {
        if i > 0 {
          assert table[i] == rest[i - 1] && table[j] == rest[j - 1];
        } else if j > 1 {
          assert table[1] == rest[0] && table[j] == rest[j - 1];
        }
      }
      forall i | 0 <= i < |table|
        ensures otherwise <= table[i].value
      {
        if i > 0 {
          assert table[i] == rest[i - 1];
        } else {
          assert rest[0] == table[1];
        }
      }
    }
  }

  lemma AiTableWellOrdered()
    ensures WellOrdered(AiTable, 0)
  {
    var t := AiTable;
    assert |t| == 15;
    forall i | 0 <= i < 14
      ensures t[i + 1].bound < t[i].bound && t[i + 1].value <= t[i].value
    {
      if i < 7 {
        assert t[..8] == [Step(1.5, 100), Step(1.0, 98), Step(0.7, 95), Step(0.5, 92), Step(0.3, 88),
                          Step(0.15, 82), Step(0.05, 75), Step(0.0, 68)];
        assert t[i] == t[..8][i] && t[i + 1] == t[..8][i + 1];
      } else {
        assert t[7..] == [Step(0.0, 68), Step(-0.05, 55), Step(-0.15, 42),
                          Step(-0.3, 32), Step(-0.5, 22), Step(-0.7, 12), Step(-1.0, 5), Step(-1.5, 2)];
        assert t[i] == t[7..][i - 7] && t[i + 1] == t[7..][i + 1 - 7];
      }
    }
    NeighboursOrderedIsWellOrdered(t, 0);
  }

  lemma AiLikelihoodIsTableLookupHigh(score: real)
    requires WellOrdered(AiTable, 0)
    requires score > 0.3
    ensures AiLikelihood(score) == Lookup(AiTable, score, 0)
  {
    if score > 1.5 {
      LookupBand(AiTable, 0, score, 0);
    } else if score > 1.0 {
      LookupBand(AiTable, 0, score, 1);
    } else if score > 0.7 {
      LookupBand(AiTable, 0, score, 2);
    } else if score > 0.5 {
      LookupBand(AiTable, 0, score, 3);
    } else {
      LookupBand(AiTable, 0, score, 4);
    }
  }

  lemma AiLikelihoodIsTableLookupMiddle(score: real)
    requires WellOrdered(AiTable, 0)
    requires score <= 0.3 && score > -0.15
    ensures AiLikelihood(score) == Lookup(AiTable, score, 0)
  {
    if score > 0.15 {
      LookupBand(AiTable, 0, score, 5);
    } else if score > 0.05 {
      LookupBand(AiTable, 0, score, 6);
    } else if score > 0.0 {
      LookupBand(AiTable, 0, score, 7);
    } else if score > -0.05 {
      LookupBand(AiTable, 0, score, 8);
    } else {
      LookupBand(AiTable, 0, score, 9);
    }
  }

  lemma AiLikelihoodIsTableLookupLow(score: real)
    requires WellOrdered(AiTable, 0)
    requires score <= -0.15
    ensures AiLikelihood(score) == Lookup(AiTable, score, 0)
  {
    if score > -0.3 {
      LookupBand(AiTable, 0, score, 10);
    } else if score > -0.5 {
      LookupBand(AiTable, 0, score, 11);
    } else if score > -0.7 {
      LookupBand(AiTable, 0, score, 12);
    } else if score > -1.0 {
      LookupBand(AiTable, 0, score, 13);
    } else if score > -1.5 {
      LookupBand(AiTable, 0, score, 14);
    } else {
      LookupBelowAll(AiTable, score, 0);
    }
  }

  /** The if-chain of `analyze` and the breakpoint table agree on every score. */
  lemma AiLikelihoodIsTableLookup(score: real)
    ensures AiLikelihood(score) == Lookup(AiTable, score, 0)
  {
    AiTableWellOrdered();
    if score > 0.3 {
      AiLikelihoodIsTableLookupHigh(score);
    } else if score > -0.15 {
      AiLikelihoodIsTableLookupMiddle(score);
    } else {
      AiLikelihoodIsTableLookupLow(score);
    }
  }

  /** aiLikelihood is a non-decreasing step function of the score. */
  lemma AiLikelihoodMonotone(a: real, b: real)
    requires a <= b
    ensures AiLikelihood(a) <= AiLikelihood(b)
  {
    AiTableWellOrdered();
    AiLikelihoodIsTableLookup(a);
    AiLikelihoodIsTableLookup(b);
    LookupMonotone(AiTable, 0, a, b);
  }

  /** Every aiLikelihood is one of the sixteen table values, so it and
      `100 - aiLikelihood` are both percentages. */
  lemma AiLikelihoodValues(score: real)
    ensures AiLikelihood(score) in {0, 2, 5, 12, 22, 32, 42, 55, 68, 75, 82, 88, 92, 95, 98, 100}
    ensures 0 <= AiLikelihood(score) <= 100 && 0 <= 100 - AiLikelihood(score) <= 100
  {
  }

  /** The scenarios the design fixes: 0.0 falls in the `> -0.05` step
      because `0 > 0` is false. */
  lemma CalibrationExamples()
    ensures AiLikelihood(0.8) == 95 && GetVerdict(0.8) == Tier(AiText, "High")
    ensures AiLikelihood(-0.6) == 12 && GetVerdict(-0.6) == Tier(HumanText, "High")
    ensures AiLikelihood(0.0) == 55 && GetVerdict(0.0) == Tier(MixedText, "Medium")
  {
  }

  /** The two tables are independent but consistent: an AI verdict comes
      with aiLikelihood of at least 75, a human verdict with at most 32, and
      a mixed verdict with one of 42, 55 or 68. Confidence is high exactly
      in the outer bands, where aiLikelihood is at least 88 or at most 12. */
  lemma VerdictAgreesWithLikelihood(score: real)
    ensures GetVerdict(score).verdict == AiText ==> AiLikelihood(score) >= 75
    ensures GetVerdict(score).verdict == HumanText ==> AiLikelihood(score) <= 32
    ensures GetVerdict(score).verdict == MixedText ==> AiLikelihood(score) in {42, 55, 68}
    ensures GetVerdict(score).confidence == "High" <==> AiLikelihood(score) >= 88 || AiLikelihood(score) <= 12
  {
  }
}

=== FILE: csv_export.dfy ===
/** `convertToCSV` of the faculty export route: a header line and one line
    per record, fields separated by `,`, records by `\n`, and each data field
    quoted the way section 2 (rules 6 and 7) of RFC 4180 describes.

    The export is paired with a reader for the same format, and the main
    property is that reading an export back gives the header and the
    records' cells exactly. */
module CsvExport {
  import opened Outcomes
  import opened Seqs

  /** Whether `value.includes(",") || value.includes('"') || value.includes("\n")`. */
  predicate NeedsQuoting(value: string)
  {
    exists i :: 0 <= i < |value| && value[i] in {',', '"', '\n'}
  }

  /** `value.replace(/"/g, '""')` */
  function DoubleQuotes(value: string): (r: string)
    ensures |r| >= |value|
  {
    if |value| == 0 then ""
    else (if value[0] == '"' then "\"\"" else [value[0]]) + DoubleQuotes(value[1..])
  }

  /** `escapeCSV` */
  function EscapeCsv(value: string): (r: string)
    ensures !NeedsQuoting(value) <==> r == value
    ensures NeedsQuoting(value) ==> |r| >= 2 && r[0] == '"' && r[|r| - 1] == '"'
  {
    if NeedsQuoting(value) then "\"" + DoubleQuotes(value) + "\"" else value
  }

  /** `xs.join(sep)` */
  function JoinWith(xs: seq<string>, sep: char): (r: string)
    ensures |xs| > 1 ==> |r| > 0
    ensures |xs| == 0 ==> r == ""
    ensures |xs| > 0 ==> xs[0] <= r
  {
    if |xs| == 0 then ""
    else if |xs| == 1 then xs[0]
    else xs[0] + [sep] + JoinWith(xs[1..], sep)
  }

  /** One line: the escaped fields joined by commas. */
  function RenderRecord(fields: seq<string>): (line: string)
    ensures |fields| == 0 ==> line == ""
    ensures |fields| > 0 ==> EscapeCsv(fields[0]) <= line
  {
    JoinWith(Map(fields, EscapeCsv), ',')
  }

  // ---------------------------------------------------------------------
  // Reading the format back

  /** A field read from the front of the input, and the input after it. */
  datatype Cut = Cut(field: string, rest: string)

  /** The characters that end an unquoted field. */
  predicate AtStop(s: string)
  {
    |s| == 0 || s[0] == ',' || s[0] == '\n'
  }

  /** An unquoted field: everything up to the next `,` or `\n`. */
  function Unquoted(s: string): (c: Cut)
    ensures |c.rest| <= |s| && AtStop(c.rest)
  {
    if AtStop(s) then Cut("", s)
    else
      var c := Unquoted(s[1..]);
      Cut([s[0]] + c.field, c.rest)
  }

  /** The body of a quoted field, after its opening quote: `""` stands for
      one quote and a lone `"` closes the field. `None` when the input ends
      before the closing quote. */
  function Quoted(s: string): (r: Option<Cut>)
    ensures r.Some? ==> |r.value.rest| < |s|
  {
    if |s| == 0 then None
    else if s[0] == '"' then
      if |s| > 1 && s[1] == '"' then
        match Quoted(s[2..])
        case None => None
        case Some(c) => Some(Cut("\"" + c.field, c.rest))
      else Some(Cut("", s[1..]))
    else
      match Quoted(s[1..])
      case None => None
      case Some(c) => Some(Cut([s[0]] + c.field, c.rest))
  }

  function ReadField(s: string): (r: Option<Cut>)
    ensures r.Some? ==> |r.value.rest| <= |s|
  {
    if |s| > 0 && s[0] == '"' then Quoted(s[1..]) else Some(Unquoted(s))
  }

  /** The fields of one record and the input after it; `more` says whether
      a `\n` ended the record, so that another one follows. */
  datatype Line = Line(fields: seq<string>, rest: string, more: bool)

  function ReadRecord(s: string): (r: Option<Line>)
    ensures r.Some? ==> |r.value.fields| > 0
    ensures r.Some? && r.value.more ==> |r.value.rest| < |s|
    decreases |s|
  {
    match ReadField(s)
    case None => None
    case Some(c) =>
      if |c.rest| == 0 then Some(Line([c.field], "", false))
      else if c.rest[0] == '\n' then Some(Line([c.field], c.rest[1..], true))
      else if c.rest[0] == ',' then
        match ReadRecord(c.rest[1..])
        case None => None
        case Some(l) => Some(Line([c.field] + l.fields, l.rest, l.more))
      else None
  }

  function ReadRecords(s: string): (r: Option<seq<seq<string>>>)
    ensures r.Some? ==> |r.value| > 0
    decreases |s|
  {
    match ReadRecord(s)
    case None => None
    case Some(l) =>
      if !l.more then Some([l.fields])
      else
        match ReadRecords(l.rest)
        case None => None
        case Some(rs) => Some([l.fields] + rs)
  }

  /** The records of a CSV text; the empty text has none. */
  function ParseCsv(s: string): Option<seq<seq<string>>>
  {
    if |s| == 0 then Some([]) else ReadRecords(s)
  }

  lemma {:induction false} UnquotedOf(value: string, t: string)
    requires !NeedsQuoting(value) && AtStop(t)
    ensures Unquoted(value + t) == Cut(value, t)
  {
    if |value| == 0 {
      assert value + t == t;
    } else {
      assert (value + t)[1..] == value[1..] + t;
      assert !NeedsQuoting(value[1..]) by {
        forall i | 0 <= i < |value[1..]|
          ensures value[1..][i] !in {',', '"', '\n'}
        {
          assert value[1..][i] == value[i + 1];
        }
      }
      UnquotedOf(value[1..], t);
    }
  }

  lemma {:induction false} QuotedOf(value: string, t: string)
    requires |t| == 0 || t[0] != '"'
    ensures Quoted(DoubleQuotes(value) + "\"" + t) == Some(Cut(value, t))
  {
    var s := DoubleQuotes(value) + "\"" + t;
    if |value| == 0 {
      assert s == "\"" + t;
      assert s[1..] == t;
    } else {
      var head := if value[0] == '"' then "\"\"" else [value[0]];
      var rest := DoubleQuotes(value[1..]) + "\"" + t;
      assert s == head + rest;
      QuotedOf(value[1..], t);
      if value[0] == '"' {
        assert s[0] == '"' && s[1] == '"' && s[2..] == rest;
        assert Quoted(s) == Some(Cut("\"" + value[1..], t));
      } else {
        assert s[0] == value[0] && s[1..] == rest;
        assert Quoted(s) == Some(Cut([value[0]] + value[1..], t));
      }
      assert [value[0]] + value[1..] == value;
    }
  }

  /** Reading an escaped field back gives the field, whatever the value. */
  lemma ReadFieldOf(value: string, t: string)
    requires AtStop(t)
    ensures ReadField(EscapeCsv(value) + t) == Some(Cut(value, t))
  {
    if NeedsQuoting(value) {
      ReadQuotedFieldOf(value, t);
    } else {
      ReadPlainFieldOf(value, t);
    }
  }

  lemma ReadQuotedFieldOf(value: string, t: string)
    requires NeedsQuoting(value) && AtStop(t)
    ensures ReadField("\"" + DoubleQuotes(value) + "\"" + t) == Some(Cut(value, t))
  {
    var body := DoubleQuotes(value) + "\"" + t;
    assert "\"" + DoubleQuotes(value) + "\"" + t == "\"" + body;
    assert ("\"" + body)[1..] == body;
    QuotedOf(value, t);
  }

  lemma ReadPlainFieldOf(value: string, t: string)
    requires !NeedsQuoting(value) && AtStop(t)
    ensures ReadField(value + t) == Some(Cut(value, t))
  {
    UnquotedOf(value, t);
    if |value| == 0 {
      assert value + t == t;
    } else {
      assert value[0] !in {',', '"', '\n'};
      assert (value + t)[0] == value[0];
    }
  }

  /** A field followed by the end of the input or a `\n` ends the record. */
  lemma ReadRecordEnd(s: string, field: string, t: string)
    requires ReadField(s) == Some(Cut(field, t))
    requires |t| == 0 || t[0] == '\n'
    ensures ReadRecord(s) == Some(if |t| == 0 then Line([field], "", false) else Line([field], t[1..], true))
  {
  }

  /** A field followed by a `,` starts the rest of the record after it. */
  lemma ReadRecordComma(s: string, field: string, r: string, l: Line)
    requires ReadField(s) == Some(Cut(field, [','] + r))
    requires ReadRecord(r) == Some(l)
    ensures ReadRecord(s) == Some(Line([field] + l.fields, l.rest, l.more))
  {
    assert ([','] + r)[1..] == r;
  }

  lemma {:induction false} ReadRecordOf(fields: seq<string>, t: string)
    requires |fields| > 0
    requires |t| == 0 || t[0] == '\n'
    ensures ReadRecord(RenderRecord(fields) + t)
         == Some(if |t| == 0 then Line(fields, "", false) else Line(fields, t[1..], true))
  {
    if |fields| == 1 {
      ReadLastField(fields, t);
    } else {
      var head := EscapeCsv(fields[0]);
      var r := RenderRecord(fields[1..]) + t;
      RenderRecordCons(fields, t);
      ReadFieldOf(fields[0], [','] + r);
      ReadRecordOf(fields[1..], t);
      assert [fields[0]] + fields[1..] == fields;
      if |t| == 0 {
        ReadRecordComma(head + ([','] + r), fields[0], r, Line(fields[1..], "", false));
      } else {
        ReadRecordComma(head + ([','] + r), fields[0], r, Line(fields[1..], t[1..], true));
      }
    }
  }

  lemma ReadLastField(fields: seq<string>, t: string)
    requires |fields| == 1
    requires |t| == 0 || t[0] == '\n'
    ensures ReadRecord(RenderRecord(fields) + t)
         == Some(if |t| == 0 then Line(fields, "", false) else Line(fields, t[1..], true))
  {
    assert RenderRecord(fields) == EscapeCsv(fields[0]);
    ReadFieldOf(fields[0], t);
    ReadRecordEnd(EscapeCsv(fields[0]) + t, fields[0], t);
    assert fields == [fields[0]];
  }

  /** A line of several fields is the first escaped field, a comma and the
      line of the others. */
  lemma RenderRecordCons(fields: seq<string>, t: string)
    requires |fields| > 1
    ensures RenderRecord(fields) + t == EscapeCsv(fields[0]) + ([','] + (RenderRecord(fields[1..]) + t))
  {
    assert Map(fields[1..], EscapeCsv) == Map(fields, EscapeCsv)[1..];
    assert RenderRecord(fields) == EscapeCsv(fields[0]) + [','] + RenderRecord(fields[1..]);
  }

  /** The text of a list of records: one rendered line each, joined by `\n`. */
  function RenderRecords(records: seq<seq<string>>): (text: string)
    ensures |records| == 0 ==> text == ""
    ensures |records| > 0 ==> RenderRecord(records[0]) <= text
  {
    JoinWith(Map(records, RenderRecord), '\n')
  }

  lemma {:induction false} ReadRecordsOf(records: seq<seq<string>>)
    requires |records| > 0
    requires forall i :: 0 <= i < |records| ==> |records[i]| > 0
    ensures ReadRecords(RenderRecords(records)) == Some(records)
  {
    if |records| == 1 {
      assert RenderRecords(records) == RenderRecord(records[0]);
      ReadRecordOf(records[0], "");
      assert RenderRecord(records[0]) + "" == RenderRecord(records[0]);
      assert records == [records[0]];
    } else {
      var tail := RenderRecords(records[1..]);
      assert Map(records[1..], RenderRecord) == Map(records, RenderRecord)[1..];
      assert RenderRecords(records) == RenderRecord(records[0]) + (['\n'] + tail);
      ReadRecordOf(records[0], ['\n'] + tail);
      assert (['\n'] + tail)[1..] == tail;
      ReadRecordsOf(records[1..]);
      assert [records[0]] + records[1..] == records;
    }
  }

  /** Any records render to a text that reads back as exactly those
      records, as long as the text is not empty: quoting makes commas,
      quotes and newlines inside values harmless. */
  lemma RoundTrip(records: seq<seq<string>>)
    requires |records| > 0 && |records[0]| > 1
    requires forall i :: 0 <= i < |records| ==> |records[i]| > 0
    ensures ParseCsv(RenderRecords(records)) == Some(records)
  {
    ReadRecordsOf(records);
    var lines := Map(records, RenderRecord);
    assert |RenderRecord(records[0])| > 0;
    if |records| > 1 {
      assert RenderRecords(records) == lines[0] + ['\n'] + JoinWith(lines[1..], '\n');
    }
  }

  // ---------------------------------------------------------------------
  // The exported records

  /** Values already rendered by `toString`/`toISOString`; `None` is a
      null or undefined value. */
  datatype Student = Student(studentId: string, name: string, year: Option<string>, major: Option<string>,
                             firstGen: bool, gender: Option<string>, priorGpa: Option<string>)
  datatype Assignment = Assignment(assignmentType: Option<string>, major: Option<string>, aiAllowed: bool)
  datatype Reflection = Reflection(reflectionType: Option<string>, depthScore: Option<string>, words: Option<string>)
  datatype RubricEval = RubricEval(originality: Option<string>, effort: Option<string>,
                                   finalGrade: Option<string>, facultyAiIdentified: bool)

  /** The ten measurements both exports list after the student. */
  datatype Measures = Measures(usesAi: bool, aiAccessHours: Option<string>, draftScore: Option<string>,
                               finalScore: Option<string>, creativityScore: Option<string>, aiDetected: bool,
                               aiConfidence: Option<string>, timeHours: Option<string>,
                               criticalThinking: Option<string>, satisfaction: Option<string>)

  datatype Item =
    | SubmissionItem(submissionId: string, student: Student, assignment: Assignment,
                     submissionDate: Option<string>, measures: Measures,
                     reflection: Option<Reflection>, rubricEval: Option<RubricEval>)
    | AnalyticsItem(studentId: string, measures: Measures)

  const SubmissionHeaders: seq<string> := [
    "Submission ID", "Student ID", "Student Name", "Year", "Major", "First Gen", "Gender",
    "Prior GPA", "Assignment Type", "Department", "AI Allowed", "Submission Date", "Uses AI",
    "AI Access Hours", "Draft Score", "Final Score", "Creativity Score", "AI Detected",
    "AI Confidence", "Time Hours", "Critical Thinking", "Satisfaction", "Reflection Type",
    "Reflection Depth", "Reflection Words", "Faculty Originality", "Faculty Effort",
    "Final Grade", "Faculty AI Identified"]

  const AnalyticsHeaders: seq<string> := [
    "Student ID", "Uses AI", "AI Access Hours", "Draft Score", "Final Score", "Creativity Score",
    "AI Detected", "AI Confidence", "Time Hours", "Critical Thinking", "Satisfaction"]

  /** `flag ? "Yes" : "No"` */
  function YesNo(flag: bool): (r: string)
    ensures r in {"Yes", "No"} && (r == "Yes" <==> flag)
  {
    if flag then "Yes" else "No"
  }

  /** `value?.toString() || ""` */
  function OrEmpty(value: Option<string>): (r: string)
    ensures value.None? ==> r == ""
    ensures value.Some? ==> r == value.value
  {
    value.GetOr("")
  }

  function MeasureCells(m: Measures): (cells: seq<string>)
    ensures |cells| == 10
  {
    [YesNo(m.usesAi), OrEmpty(m.aiAccessHours), OrEmpty(m.draftScore), OrEmpty(m.finalScore),
     OrEmpty(m.creativityScore), YesNo(m.aiDetected), OrEmpty(m.aiConfidence), OrEmpty(m.timeHours),
     OrEmpty(m.criticalThinking), OrEmpty(m.satisfaction)]
  }

  /** The cells of one record, in header order. */
  function Cells(item: Item): (cells: seq<string>)
    ensures item.SubmissionItem? ==> |cells| == |SubmissionHeaders|
    ensures item.AnalyticsItem? ==> |cells| == |AnalyticsHeaders|
  {
    match item
    case SubmissionItem(id, s, a, date, m, reflection, rubric) =>
      [id, s.studentId, s.name, OrEmpty(s.year), OrEmpty(s.major), YesNo(s.firstGen), OrEmpty(s.gender),
       OrEmpty(s.priorGpa), OrEmpty(a.assignmentType), OrEmpty(a.major), YesNo(a.aiAllowed), OrEmpty(date)]
      + MeasureCells(m)
      + [if reflection.Some? then OrEmpty(reflection.value.reflectionType) else "",
         if reflection.Some? then OrEmpty(reflection.value.depthScore) else "",
         if reflection.Some? then OrEmpty(reflection.value.words) else "",
         if rubric.Some? then OrEmpty(rubric.value.originality) else "",
         if rubric.Some? then OrEmpty(rubric.value.effort) else "",
         if rubric.Some? then OrEmpty(rubric.value.finalGrade) else "",
         YesNo(rubric.Some? && rubric.value.facultyAiIdentified)]
    case AnalyticsItem(id, m) => [id] + MeasureCells(m)
  }

  /** The data handed to the serialiser matches the export type. */
  predicate WellTyped(exportType: string, data: seq<Item>)
  {
    && (exportType == "submissions" ==> forall i :: 0 <= i < |data| ==> data[i].SubmissionItem?)
    && (exportType == "analytics" ==> forall i :: 0 <= i < |data| ==> data[i].AnalyticsItem?)
  }

  function Headers(exportType: string): seq<string>
  {
    if exportType == "submissions" then SubmissionHeaders
    else if exportType == "analytics" then AnalyticsHeaders
    else []
  }

  /** `convertToCSV(data, type)`. An unknown type leaves both the header and
      the rows empty, so the text is the empty header line: "". */
  function ConvertToCsv(exportType: string, data: seq<Item>): (csv: string)
    requires WellTyped(exportType, data)
    ensures |data| == 0 ==> csv == ""
    ensures exportType !in {"submissions", "analytics"} ==> csv == ""
  {
    if |data| == 0 then ""
    else
      var rows := if exportType in {"submissions", "analytics"} then Map(data, Cells) else [];
      JoinWith([JoinWith(Headers(exportType), ',')] + Map(rows, RenderRecord), '\n')
  }

  /** No header contains a comma, a quote or a newline. */
  lemma SubmissionHeadersArePlain1()
    ensures !NeedsQuoting("Submission ID")
    ensures !NeedsQuoting("Student ID")
    ensures !NeedsQuoting("Student Name")
    ensures !NeedsQuoting("Year")
    ensures !NeedsQuoting("Major")
    ensures !NeedsQuoting("First Gen")
    ensures !NeedsQuoting("Gender")
    ensures !NeedsQuoting("Prior GPA")
    ensures !NeedsQuoting("Assignment Type")
    ensures !NeedsQuoting("Department")
  {
  }

  lemma SubmissionHeadersArePlain2()
    ensures !NeedsQuoting("AI Allowed")
    ensures !NeedsQuoting("Submission Date")
    ensures !NeedsQuoting("Uses AI")
    ensures !NeedsQuoting("AI Access Hours")
    ensures !NeedsQuoting("Draft Score")
    ensures !NeedsQuoting("Final Score")
    ensures !NeedsQuoting("Creativity Score")
    ensures !NeedsQuoting("AI Detected")
    ensures !NeedsQuoting("AI Confidence")
    ensures !NeedsQuoting("Time Hours")
  {
  }

  lemma SubmissionHeadersArePlain3()
    ensures !NeedsQuoting("Critical Thinking")
    ensures !NeedsQuoting("Satisfaction")
    ensures !NeedsQuoting("Reflection Type")
    ensures !NeedsQuoting("Reflection Depth")
    ensures !NeedsQuoting("Reflection Words")
    ensures !NeedsQuoting("Faculty Originality")
    ensures !NeedsQuoting("Faculty Effort")
    ensures !NeedsQuoting("Final Grade")
    ensures !NeedsQuoting("Faculty AI Identified")
  {
  }

  lemma AnalyticsHeadersArePlain()
    ensures !NeedsQuoting("Student ID")
    ensures !NeedsQuoting("Uses AI")
    ensures !NeedsQuoting("AI Access Hours")
    ensures !NeedsQuoting("Draft Score")
    ensures !NeedsQuoting("Final Score")
    ensures !NeedsQuoting("Creativity Score")
    ensures !NeedsQuoting("AI Detected")
    ensures !NeedsQuoting("AI Confidence")
    ensures !NeedsQuoting("Time Hours")
    ensures !NeedsQuoting("Critical Thinking")
    ensures !NeedsQuoting("Satisfaction")
  {
  }

  /** So escaping leaves the header line as the source writes it, unescaped. */
  lemma HeadersNeedNoQuoting(exportType: string)
    ensures Map(Headers(exportType), EscapeCsv) == Headers(exportType)
  {
    SubmissionHeadersArePlain1();
    SubmissionHeadersArePlain2();
    SubmissionHeadersArePlain3();
    AnalyticsHeadersArePlain();
    var hs := Headers(exportType);
    assert forall i :: 0 <= i < |hs| ==> !NeedsQuoting(hs[i]);
  }

  /** Every line has as many fields as the header: 29 for submissions and
      11 for analytics. */
  lemma RowWidths(exportType: string, data: seq<Item>)
    requires exportType in {"submissions", "analytics"}
    requires WellTyped(exportType, data)
    ensures |Headers(exportType)| == if exportType == "submissions" then 29 else 11
    ensures forall i :: 0 <= i < |data| ==> |Cells(data[i])| == |Headers(exportType)|
  {
  }

  lemma RenderRecordsCons(first: seq<string>, rows: seq<seq<string>>)
    ensures RenderRecords([first] + rows) == JoinWith([RenderRecord(first)] + Map(rows, RenderRecord), '\n')
  {
    assert Map([first] + rows, RenderRecord) == [RenderRecord(first)] + Map(rows, RenderRecord);
  }

  /** The export is the rendering of the header followed by the items' cells. */
  lemma ConvertToCsvRenders(exportType: string, data: seq<Item>)
    requires exportType in {"submissions", "analytics"}
    requires WellTyped(exportType, data) && |data| > 0
    ensures ConvertToCsv(exportType, data) == RenderRecords([Headers(exportType)] + Map(data, Cells))
  {
    var headers := Headers(exportType);
    var rows := Map(data, Cells);
    HeadersNeedNoQuoting(exportType);
    assert RenderRecord(headers) == JoinWith(headers, ',');
    RenderRecordsCons(headers, rows);
  }

  /** Reading an export back gives the header line and one record per item
      with exactly that item's cells. */
  lemma ConvertToCsvReadsBack(exportType: string, data: seq<Item>)
    requires exportType in {"submissions", "analytics"}
    requires WellTyped(exportType, data) && |data| > 0
    ensures ParseCsv(ConvertToCsv(exportType, data)) == Some([Headers(exportType)] + Map(data, Cells))
  {
    var rows := Map(data, Cells);
    var records := [Headers(exportType)] + rows;
    RowWidths(exportType, data);
    assert |records[0]| > 1;
    forall i | 0 <= i < |records|
      ensures |records[i]| > 0
    {
      if i > 0 {
        assert records[i] == rows[i - 1] == Cells(data[i - 1]);
      }
    }
    RoundTrip(records);
    ConvertToCsvRenders(exportType, data);
  }

  /** The analytics export of a student's measures is the submissions
      export's columns 13 to 22 behind the same student id. */
  lemma SharedMeasureColumns(s: Item)
    requires s.SubmissionItem?
    ensures Cells(s)[12..22] == Cells(AnalyticsItem(s.student.studentId, s.measures))[1..]
  {
  }
}

=== FILE: departments.dfy ===
/** The department/major tables: which student majors a faculty department
    may create assignments for, and the reverse lookup. */
module Departments {

  const FacultyDepartments: seq<string> := ["CS", "Sciences", "Arts", "Business"]

  const StudentMajors: seq<string> := [
    "Biology", "Business", "Chemistry", "CS", "Economics",
    "English", "History", "Math", "Physics", "Psychology"]

  /** `DEPARTMENT_TO_MAJORS` */
  const DepartmentToMajors: map<string, seq<string>> := map[
    "CS" := ["CS"],
    "Sciences" := ["Biology", "Chemistry", "Math", "Physics"],
    "Arts" := ["English", "History", "Psychology"],
    "Business" := ["Business", "Economics"]]

  /** `MAJOR_TO_DEPARTMENT` */
  const MajorToDepartment: map<string, string> := map[
    "CS" := "CS",
    "Biology" := "Sciences", "Chemistry" := "Sciences", "Math" := "Sciences", "Physics" := "Sciences",
    "English" := "Arts", "History" := "Arts", "Psychology" := "Arts",
    "Business" := "Business", "Economics" := "Business"]

  /** `getMajorsForDepartment`: the department's list, or `[]` for an unknown one. */
  function MajorsForDepartment(department: string): (majors: seq<string>)
    ensures department !in DepartmentToMajors ==> majors == []
    ensures forall m :: m in majors ==> m in StudentMajors
  {
    if department in DepartmentToMajors then DepartmentToMajors[department] else []
  }

  /** `getDepartmentForMajor`: the major's department, or `""` for an unknown one. */
  function DepartmentForMajor(major: string): (department: string)
    ensures major !in MajorToDepartment ==> department == ""
    ensures major in MajorToDepartment ==> department in FacultyDepartments
  {
    if major in MajorToDepartment then MajorToDepartment[major] else ""
  }

  /** `canTeachMajor`: the major is in the department's list, which for a
      known major means the reverse table names this department. */
  function CanTeachMajor(department: string, major: string): (ok: bool)
    ensures ok <==> major in MajorsForDepartment(department)
    ensures major in MajorToDepartment ==> (ok <==> MajorToDepartment[major] == department)
  {
    MajorsListedUnderTheirDepartment();
    ListedMajorsMapBack();
    major in MajorsForDepartment(department)
  }

  /** The keys of the forward table are the faculty departments and those
      of the reverse table are the student majors. */
  lemma TablesCoverTheLists()
    ensures forall d :: d in DepartmentToMajors <==> d in FacultyDepartments
    ensures forall m :: m in MajorToDepartment <==> m in StudentMajors
  {
  }

  /** Every major lies in its department's list. */
  lemma MajorsListedUnderTheirDepartment()
    ensures forall m :: m in MajorToDepartment ==>
      MajorToDepartment[m] in DepartmentToMajors && m in DepartmentToMajors[MajorToDepartment[m]]
  {
    forall m | m in MajorToDepartment
      ensures MajorToDepartment[m] in DepartmentToMajors && m in DepartmentToMajors[MajorToDepartment[m]]
    {
      assert m in StudentMajors;
    }
  }

  /** Every listed major maps back to the department listing it. */
  lemma ListedMajorsMapBack()
    ensures forall d, m :: d in DepartmentToMajors && m in DepartmentToMajors[d] ==>
      m in MajorToDepartment && MajorToDepartment[m] == d
  {
    forall d, m | d in DepartmentToMajors && m in DepartmentToMajors[d]
      ensures m in MajorToDepartment && MajorToDepartment[m] == d
    {
      if d == "CS" {
        assert m == "CS";
      } else if d == "Sciences" {
        assert m in ["Biology", "Chemistry", "Math", "Physics"];
      } else if d == "Arts" {
        assert m in ["English", "History", "Psychology"];
      } else {
        assert m in ["Business", "Economics"];
      }
    }
  }

  /** Each student major is listed under exactly one department. */
  lemma ListsPartitionMajors(m: string)
    requires m in StudentMajors
    ensures exists d :: d in DepartmentToMajors && m in DepartmentToMajors[d]
    ensures forall d1, d2 ::
      (d1 in DepartmentToMajors && d2 in DepartmentToMajors
       && m in DepartmentToMajors[d1] && m in DepartmentToMajors[d2]) ==> d1 == d2
  {
    MajorsListedUnderTheirDepartment();
    ListedMajorsMapBack();
    TablesCoverTheLists();
    assert m in DepartmentToMajors[MajorToDepartment[m]];
  }

  /** A department can teach a major exactly when the reverse table sends
      the major to that department; in particular every known major can be
      taught by its own department, and an unknown department teaches nothing. */
  lemma CanTeachIsReverseLookup(department: string, major: string)
    ensures CanTeachMajor(department, major) <==>
      major in MajorToDepartment && MajorToDepartment[major] == department
    ensures major in MajorToDepartment ==> CanTeachMajor(DepartmentForMajor(major), major)
    ensures department !in DepartmentToMajors ==> !CanTeachMajor(department, major)
  {
    MajorsListedUnderTheirDepartment();
    ListedMajorsMapBack();
  }
}

=== FILE: detections.dfy ===
/** AI-detection results as the routes read them back: one likelihood on
    the 0-100 scale per submission id, possibly several per submission. */
module Detections {
  import opened Outcomes

  datatype Detection = Detection(submissionId: string, aiLikelihood: real)

  /** The index of the first detection for `id` at or after `start`. */
  function FindFrom(ds: seq<Detection>, id: string, start: nat): (r: Option<nat>)
    ensures r.Some? ==> start <= r.value < |ds| && ds[r.value].submissionId == id
    ensures r.Some? ==> forall j :: start <= j < r.value ==> ds[j].submissionId != id
    ensures r.None? ==> forall j :: start <= j < |ds| ==> ds[j].submissionId != id
    decreases |ds| - start
  {
    if start >= |ds| then None
    else if ds[start].submissionId == id then Some(start)
    else FindFrom(ds, id, start + 1)
  }

  /** `detections.find(d => d.submissionId === id)`: the first match in
      result order. */
  function FirstDetection(ds: seq<Detection>, id: string): (r: Option<Detection>)
    ensures r.Some? <==> exists i :: 0 <= i < |ds| && ds[i].submissionId == id
    ensures r.Some? ==> exists i :: (0 <= i < |ds| && ds[i] == r.value && r.value.submissionId == id
      && forall j :: 0 <= j < i ==> ds[j].submissionId != id)
  {
    match FindFrom(ds, id, 0)
    case Some(i) => Some(ds[i])
    case None => None
  }
}

=== FILE: due_date.dfy ===
/** `getDueDateStatus`: a deadline classified against the current time, both
    given as milliseconds since the epoch. */
module DueDate {
  import opened Seqs
  import opened Text

  /** `1000 * 60 * 60 * 24` */
  const DayMs: int := 86400000

  datatype Status = Overdue | DueSoon | Upcoming

  datatype DueDateStatus = DueDateStatus(status: Status, color: string, text: string, daysRemaining: int)

  /** `day` or `days` after a count. */
  function Days(n: nat): (unit: string)
    ensures unit == " day" || unit == " days"
    ensures unit == " day" <==> n == 1
  {
    if n != 1 then " days" else " day"
  }

  /** `getDueDateStatus(due)` at time `now`. `Math.ceil` of a negative
      fraction above -1 is -0 in JavaScript, which is neither `< 0` nor
      different from `0`, so it lands in the "Due Today" branch like 0. */
  function GetDueDateStatus(due: int, now: int): (r: DueDateStatus)
    ensures r.daysRemaining == CeilDiv(due - now, DayMs)
    ensures r.status == Overdue <==> r.daysRemaining < 0
    ensures r.status == DueSoon <==> 0 <= r.daysRemaining <= 3
    ensures r.status == Upcoming <==> r.daysRemaining > 3
    ensures r.color == (if r.daysRemaining <= 0 then "text-red-600"
                        else if r.daysRemaining <= 3 then "text-orange-600" else "text-green-600")
    ensures r.daysRemaining < 0 ==> r.text == "Overdue by " + NatToString(-r.daysRemaining) + Days(-r.daysRemaining)
    ensures r.daysRemaining == 0 ==> r.text == "Due Today"
    ensures r.daysRemaining > 0 ==> r.text == "Due in " + NatToString(r.daysRemaining) + Days(r.daysRemaining)
  {
    var diffDays := CeilDiv(due - now, DayMs);
    if diffDays < 0 then
      DueDateStatus(Overdue, "text-red-600", "Overdue by " + NatToString(-diffDays) + Days(-diffDays), diffDays)
    else if diffDays == 0 then
      DueDateStatus(DueSoon, "text-red-600", "Due Today", 0)
    else if diffDays <= 3 then
      DueDateStatus(DueSoon, "text-orange-600", "Due in " + NatToString(diffDays) + Days(diffDays), diffDays)
    else
      DueDateStatus(Upcoming, "text-green-600", "Due in " + NatToString(diffDays) + " days", diffDays)
  }

  /** The buckets in milliseconds: overdue once a full day has passed since
      the deadline, "Due Today" from then until the deadline itself, due soon
      up to three days ahead and upcoming beyond. A deadline that passed less
      than 24 hours ago is still "Due Today". */
  lemma StatusByMilliseconds(due: int, now: int)
    ensures GetDueDateStatus(due, now).status == Overdue <==> due - now <= -DayMs
    ensures GetDueDateStatus(due, now).text == "Due Today" <==> -DayMs < due - now <= 0
    ensures GetDueDateStatus(due, now).status == DueSoon <==> -DayMs < due - now <= 3 * DayMs
    ensures GetDueDateStatus(due, now).status == Upcoming <==> due - now > 3 * DayMs
  {
    var d := GetDueDateStatus(due, now).daysRemaining;
    var x := due - now;
    assert (d - 1) * DayMs < x <= d * DayMs;
    if d <= -1 {
      assert d * DayMs <= -DayMs;
    } else if d == 0 {
    } else if d <= 3 {
      assert (d - 1) * DayMs >= 0;
      assert d * DayMs <= 3 * DayMs;
    } else {
      assert (d - 1) * DayMs >= 3 * DayMs;
    }
  }

  /** `text` is `prefix`, a count of `n` in decimal digits and its unit. */
  predicate CountPhrase(text: string, prefix: string, digits: string, unit: string, n: nat)
  {
    && text == prefix + digits + unit
    && (prefix == "Overdue by " || prefix == "Due in ")
    && (forall i :: 0 <= i < |digits| ==> '0' <= digits[i] <= '9')
    && DigitsValue(digits) == n
    && (unit == " day" <==> n == 1)
  }

  /** The count in the text reads back as the number of days, and the
      unit is singular exactly for one day. */
  lemma TextNamesTheDays(due: int, now: int)
    ensures var r := GetDueDateStatus(due, now);
      var n := if r.daysRemaining < 0 then -r.daysRemaining else r.daysRemaining;
      r.daysRemaining != 0 ==> exists prefix, digits, unit :: CountPhrase(r.text, prefix, digits, unit, n)
  {
    var r := GetDueDateStatus(due, now);
    var d := r.daysRemaining;
    if d < 0 {
      PhraseOf("Overdue by ", -d);
    } else if d > 0 {
      PhraseOf("Due in ", d);
    }
  }

  lemma PhraseOf(prefix: string, n: nat)
    requires prefix == "Overdue by " || prefix == "Due in "
    ensures CountPhrase(prefix + NatToString(n) + Days(n), prefix, NatToString(n), Days(n), n)
  {
    NatToStringRoundTrip(n);
  }

  /** One millisecond past the deadline is still "Due Today". */
  lemma JustPastIsDueToday()
    ensures GetDueDateStatus(0, 1).text == "Due Today"
  {
    CeilDivUnique(-1, DayMs, 0);
  }

  /** A full day past the deadline is "Overdue by 1 day". */
  lemma DayPastIsOverdue()
    ensures GetDueDateStatus(0, DayMs).status == Overdue
    ensures GetDueDateStatus(0, DayMs).text == "Overdue by 1 day"
  {
    CeilDivUnique(-DayMs, DayMs, -1);
    assert NatToString(1) == "1";
  }

  /** Two days and a millisecond ahead rounds up to "Due in 3 days", and
      four days ahead is upcoming. */
  lemma DaysAheadRoundUp()
    ensures GetDueDateStatus(2 * DayMs + 1, 0).text == "Due in 3 days"
    ensures GetDueDateStatus(4 * DayMs, 0).status == Upcoming
  {
    CeilDivUnique(2 * DayMs + 1, DayMs, 3);
    CeilDivUnique(4 * DayMs, DayMs, 4);
    assert NatToString(3) == "3";
  }
}

=== FILE: faculty_analytics.dfy ===
/** The faculty analytics figures: the average AI likelihood overall and
    for first-generation and continuing-generation students, and average
    creativity for low, medium and high AI use. */
module FacultyAnalytics {
  import opened Outcomes
  import opened Seqs
  import opened Statistics
  import opened Detections

  /** Likelihood bands: low up to 30, medium up to 60, high above. */
  const LowMax: real := 30.0
  const MediumMax: real := 60.0

  datatype Submission = Submission(submissionId: string, studentId: string, firstGen: bool, creativityScore: real)

  datatype AiLevel = Low | Medium | High

  datatype Analytics = Analytics(
    totalStudents: nat, avgAI: int, avgCreativity: real, totalSubmissions: nat,
    firstGenAI: int, continuingGenAI: int,
    lowCreativity: real, mediumCreativity: real, highCreativity: real)

  function SubmissionIdOf(s: Submission): string { s.submissionId }
  function StudentIdOf(s: Submission): string { s.studentId }
  function Creativity(s: Submission): real { s.creativityScore }
  function LikelihoodOf(d: Detection): real { d.aiLikelihood }
  predicate IsFirstGen(s: Submission) { s.firstGen }
  predicate IsContinuingGen(s: Submission) { !s.firstGen }

  /** The detections whose submission is one of `subs`. */
  function ResultsFor(ds: seq<Detection>, subs: seq<Submission>): (rs: seq<Detection>)
    ensures forall d :: d in rs <==> d in ds && d.submissionId in Map(subs, SubmissionIdOf)
    ensures |subs| == 0 ==> rs == []
  {
    var rs := Filter(ds, (d: Detection) => d.submissionId in Map(subs, SubmissionIdOf));
    assert |rs| > 0 ==> rs[0] in rs;
    rs
  }

  function LevelOf(likelihood: real): (l: AiLevel)
    ensures l == Low <==> likelihood <= LowMax
    ensures l == Medium <==> LowMax < likelihood <= MediumMax
    ensures l == High <==> likelihood > MediumMax
  {
    if likelihood <= LowMax then Low else if likelihood <= MediumMax then Medium else High
  }

  /** The band of the submission's first detection, if it has one. */
  function Level(ds: seq<Detection>, s: Submission): Option<AiLevel>
  {
    match FirstDetection(ds, s.submissionId)
    case None => None
    case Some(d) => Some(LevelOf(d.aiLikelihood))
  }

  function AtLevel(ds: seq<Detection>, l: AiLevel): Submission -> bool
  {
    (s: Submission) => Level(ds, s) == Some(l)
  }

  function HasDetection(ds: seq<Detection>): Submission -> bool
  {
    (s: Submission) => FirstDetection(ds, s.submissionId).Some?
  }

  /** Average positive creativity of the submissions in a band. */
  function CreativityAt(ds: seq<Detection>, subs: seq<Submission>, l: AiLevel): (c: real)
    ensures c >= 0.0
  {
    PositiveMean(Map(Filter(subs, AtLevel(ds, l)), Creativity))
  }

  /** The route's response, apart from the `toFixed` display rounding.
      `detections` are all stored results; those of the faculty member's
      submissions are selected first. */
  function Analyze(subs: seq<Submission>, detections: seq<Detection>): (a: Analytics)
    ensures a.totalSubmissions == |subs|
    ensures a.totalStudents <= a.totalSubmissions
    ensures a.avgAI <= 100 && a.firstGenAI <= 100 && a.continuingGenAI <= 100
    ensures |ResultsFor(detections, subs)| == 0 ==> a.avgAI == 0
    ensures |Filter(subs, IsFirstGen)| == 0 ==> a.firstGenAI == 0
    ensures |Filter(subs, IsContinuingGen)| == 0 ==> a.continuingGenAI == 0
    ensures a.avgCreativity >= 0.0 && a.lowCreativity >= 0.0 && a.mediumCreativity >= 0.0 && a.highCreativity >= 0.0
    ensures var ds := ResultsFor(detections, subs);
      && a.totalStudents == |Distinct(Map(subs, StudentIdOf))|
      && a.avgAI == CappedRoundedMean(Map(ds, LikelihoodOf))
      && a.avgCreativity == PositiveMean(Map(subs, Creativity))
      && a.firstGenAI == CappedRoundedMean(Map(ResultsFor(ds, Filter(subs, IsFirstGen)), LikelihoodOf))
      && a.continuingGenAI == CappedRoundedMean(Map(ResultsFor(ds, Filter(subs, IsContinuingGen)), LikelihoodOf))
      && a.lowCreativity == CreativityAt(ds, subs, Low)
      && a.mediumCreativity == CreativityAt(ds, subs, Medium)
      && a.highCreativity == CreativityAt(ds, subs, High)
  {
    var ds := ResultsFor(detections, subs);
    var firstGen := Filter(subs, IsFirstGen);
    var continuing := Filter(subs, IsContinuingGen);
    DistinctAtMostLength(Map(subs, StudentIdOf));
    Analytics(
      |Distinct(Map(subs, StudentIdOf))|,
      CappedRoundedMean(Map(ds, LikelihoodOf)),
      PositiveMean(Map(subs, Creativity)),
      |subs|,
      CappedRoundedMean(Map(ResultsFor(ds, firstGen), LikelihoodOf)),
      CappedRoundedMean(Map(ResultsFor(ds, continuing), LikelihoodOf)),
      CreativityAt(ds, subs, Low),
      CreativityAt(ds, subs, Medium),
      CreativityAt(ds, subs, High))
  }

  /** Every submission with a detection falls in exactly one of the three
      bands, so the bands split the submissions that have a detection. */
  lemma LevelsPartition(ds: seq<Detection>, subs: seq<Submission>)
    ensures Count(subs, AtLevel(ds, Low)) + Count(subs, AtLevel(ds, Medium)) + Count(subs, AtLevel(ds, High))
         == Count(subs, HasDetection(ds))
  {
    CountSplit3(subs, AtLevel(ds, Low), AtLevel(ds, Medium), AtLevel(ds, High), HasDetection(ds));
  }

  /** First-generation and continuing-generation submissions split the
      submissions. */
  lemma GenerationsPartition(subs: seq<Submission>)
    ensures |Filter(subs, IsFirstGen)| + |Filter(subs, IsContinuingGen)| == |subs|
  {
    CountComplement(subs, IsFirstGen, IsContinuingGen);
  }

  /** A submission id names one submission, so one first-generation flag;
      then every detection of the faculty member's submissions is averaged
      into exactly one of the two generation figures. */
  lemma GenerationResultsPartition(ds: seq<Detection>, subs: seq<Submission>)
    requires forall i, j ::
      (0 <= i < |subs| && 0 <= j < |subs| && subs[i].submissionId == subs[j].submissionId) ==>
        subs[i].firstGen == subs[j].firstGen
    ensures var rs := ResultsFor(ds, subs);
      |ResultsFor(rs, Filter(subs, IsFirstGen))| + |ResultsFor(rs, Filter(subs, IsContinuingGen))| == |rs|
  {
    var rs := ResultsFor(ds, subs);
    var firstIds := Map(Filter(subs, IsFirstGen), SubmissionIdOf);
    var contIds := Map(Filter(subs, IsContinuingGen), SubmissionIdOf);
    var allIds := Map(subs, SubmissionIdOf);
    forall i | 0 <= i < |rs|
      ensures (rs[i].submissionId in contIds <==> !(rs[i].submissionId in firstIds))
    {
      var id := rs[i].submissionId;
      assert rs[i] in rs;
      var k :| 0 <= k < |allIds| && allIds[k] == id;
      GroupOfId(subs, k, IsFirstGen, true);
      GroupOfId(subs, k, IsContinuingGen, false);
    }
    CountComplement(rs, (d: Detection) => d.submissionId in firstIds, (d: Detection) => d.submissionId in contIds);
  }

  /** With one flag per submission id, the id of `subs[k]` is among the ids
      of a generation group exactly when `subs[k]` is in that group. */
  lemma GroupOfId(subs: seq<Submission>, k: nat, inGroup: Submission -> bool, flag: bool)
    requires k < |subs|
    requires forall s :: inGroup(s) <==> s.firstGen == flag
    requires forall i, j ::
      (0 <= i < |subs| && 0 <= j < |subs| && subs[i].submissionId == subs[j].submissionId) ==>
        subs[i].firstGen == subs[j].firstGen
    ensures subs[k].submissionId in Map(Filter(subs, inGroup), SubmissionIdOf) <==> subs[k].firstGen == flag
  {
    var group := Filter(subs, inGroup);
    var ids := Map(group, SubmissionIdOf);
    var id := subs[k].submissionId;
    if subs[k].firstGen == flag {
      assert subs[k] in group;
      assert ids[IndexOf(group, subs[k])] == id;
    }
    if id in ids {
      var m :| 0 <= m < |ids| && ids[m] == id;
      assert group[m] in subs;
      var j := IndexOf(subs, group[m]);
      assert subs[j].firstGen == flag;
    }
  }

  function IndexOf(xs: seq<Submission>, x: Submission): (i: nat)
    requires x in xs
    ensures i < |xs| && xs[i] == x
  {
    if xs[0] == x then 0 else 1 + IndexOf(xs[1..], x)
  }

  /** On the 0-100 scale the first-generation figure is the mean likelihood
      of that group's detections rounded half up, never capped; the
      continuing-generation figure likewise. */
  lemma GenerationAiIsRoundedMean(subs: seq<Submission>, detections: seq<Detection>, firstGen: bool)
    requires forall i :: 0 <= i < |detections| ==> 0.0 <= detections[i].aiLikelihood <= 100.0
    requires var group := Filter(subs, if firstGen then IsFirstGen else IsContinuingGen);
      |ResultsFor(ResultsFor(detections, subs), group)| > 0
    ensures var group := Filter(subs, if firstGen then IsFirstGen else IsContinuingGen);
      var ls := Map(ResultsFor(ResultsFor(detections, subs), group), LikelihoodOf);
      var figure := if firstGen then Analyze(subs, detections).firstGenAI else Analyze(subs, detections).continuingGenAI;
      0 <= figure <= 100 && Mean(ls) - 0.5 < figure as real <= Mean(ls) + 0.5
  {
    var group := Filter(subs, if firstGen then IsFirstGen else IsContinuingGen);
    var rs := ResultsFor(ResultsFor(detections, subs), group);
    var ls := Map(rs, LikelihoodOf);
    forall i | 0 <= i < |ls| ensures 0.0 <= ls[i] <= 100.0 {
      assert rs[i] in detections;
    }
    CappedRoundedMeanOfPercentages(ls);
  }

  /** On the 0-100 scale the overall average AI likelihood is the mean
      rounded half up, never capped. */
  lemma AverageAiIsRoundedMean(subs: seq<Submission>, detections: seq<Detection>)
    requires forall i :: 0 <= i < |detections| ==> 0.0 <= detections[i].aiLikelihood <= 100.0
    requires |ResultsFor(detections, subs)| > 0
    ensures var ls := Map(ResultsFor(detections, subs), LikelihoodOf);
      0 <= Analyze(subs, detections).avgAI <= 100
      && Mean(ls) - 0.5 < Analyze(subs, detections).avgAI as real <= Mean(ls) + 0.5
  {
    var rs := ResultsFor(detections, subs);
    var ls := Map(rs, LikelihoodOf);
    forall i | 0 <= i < |ls| ensures 0.0 <= ls[i] <= 100.0 {
      assert rs[i] in detections;
    }
    CappedRoundedMeanOfPercentages(ls);
  }
}

=== FILE: faculty_dashboard.dfy ===
/** The faculty dashboard figures over the submissions to a faculty member's
    assignments: distinct students, pending and graded counts, submissions
    pending on assignments due within a week, and the averages. */
module FacultyDashboard {
  import opened Outcomes
  import opened Seqs
  import opened Statistics

  const WeekMs: int := 7 * 86400000

  datatype Assignment = Assignment(assignmentId: string, dueDate: int)

  datatype Submission = Submission(
    studentId: string, assignmentId: string, status: string,
    creativityScore: real, usesAi: bool, finalScore: real)

  datatype Stats = Stats(
    totalStudents: nat, totalCourses: nat, pendingReviews: nat, dueThisWeek: nat,
    avgCreativity: real, aiUsageRate: int, gradedSubmissions: nat, avgGrade: real,
    totalSubmissions: nat)

  function AssignmentIdOf(a: Assignment): string { a.assignmentId }
  function StudentIdOf(s: Submission): string { s.studentId }
  function Creativity(s: Submission): real { s.creativityScore }
  function Grade(s: Submission): real { s.finalScore }
  predicate UsesAi(s: Submission) { s.usesAi }
  predicate IsPending(s: Submission) { s.status == "Submitted" }
  predicate IsGraded(s: Submission) { s.status == "Graded" }

  /** The submissions to one of the given assignments (`assignmentId: { in: ... }`). */
  function ForAssignments(all: seq<Submission>, assignments: seq<Assignment>): (subs: seq<Submission>)
    ensures forall s :: s in subs <==> s in all && s.assignmentId in Map(assignments, AssignmentIdOf)
  {
    Filter(all, (s: Submission) => s.assignmentId in Map(assignments, AssignmentIdOf))
  }

  /** `assignments.find(a => a.assignmentId === id)` */
  function FindAssignment(assignments: seq<Assignment>, id: string): (r: Option<Assignment>)
    ensures r.Some? ==> r.value in assignments && r.value.assignmentId == id
    ensures r.None? ==> forall a :: a in assignments ==> a.assignmentId != id
  {
    if |assignments| == 0 then None
    else if assignments[0].assignmentId == id then Some(assignments[0])
    else FindAssignment(assignments[1..], id)
  }

  /** A pending submission whose assignment is due in (now, now + 7 days]. */
  function DueSoon(assignments: seq<Assignment>, now: int): Submission -> bool
  {
    (s: Submission) =>
      match FindAssignment(assignments, s.assignmentId)
      case None => false
      case Some(a) => s.status == "Submitted" && now < a.dueDate <= now + WeekMs
  }

  /** The route's response, apart from the faculty id and name and the
      `toFixed` display rounding. */
  function Dashboard(assignments: seq<Assignment>, all: seq<Submission>, now: int): (st: Stats)
    ensures st.totalSubmissions == |ForAssignments(all, assignments)|
    ensures st.totalCourses == |assignments|
    ensures st.totalStudents <= st.totalSubmissions
    ensures st.dueThisWeek <= st.pendingReviews
    ensures st.pendingReviews + st.gradedSubmissions <= st.totalSubmissions
    ensures 0 <= st.aiUsageRate <= 100
    ensures st.totalSubmissions == 0 ==> st.aiUsageRate == 0 && st.totalStudents == 0
    ensures var subs := ForAssignments(all, assignments);
      && st.totalStudents == |Distinct(Map(subs, StudentIdOf))|
      && st.pendingReviews == Count(subs, IsPending)
      && st.gradedSubmissions == Count(subs, IsGraded)
      && st.dueThisWeek == Count(subs, DueSoon(assignments, now))
      && st.aiUsageRate == Percentage(Count(subs, UsesAi), |subs|)
      && st.avgCreativity == PositiveMean(Map(subs, Creativity))
      && st.avgGrade == PositiveMean(Map(subs, Grade))
  {
    var subs := ForAssignments(all, assignments);
    DistinctAtMostLength(Map(subs, StudentIdOf));
    CountMonotone(subs, DueSoon(assignments, now), IsPending);
    CountDisjoint(subs, IsPending, IsGraded);
    Stats(
      |Distinct(Map(subs, StudentIdOf))|,
      |assignments|,
      Count(subs, IsPending),
      Count(subs, DueSoon(assignments, now)),
      PositiveMean(Map(subs, Creativity)),
      Percentage(Count(subs, UsesAi), |subs|),
      Count(subs, IsGraded),
      PositiveMean(Map(subs, Grade)),
      |subs|)
  }

  /** Every submission fetched belongs to one of the faculty member's
      assignments, so the due-this-week test is exactly "pending, with its
      assignment due in the coming week". */
  lemma DueThisWeekFindsAssignment(assignments: seq<Assignment>, all: seq<Submission>, now: int, s: Submission)
    requires s in ForAssignments(all, assignments)
    ensures FindAssignment(assignments, s.assignmentId).Some?
    ensures var due := FindAssignment(assignments, s.assignmentId).value.dueDate;
      DueSoon(assignments, now)(s) <==> IsPending(s) && now < due <= now + WeekMs
  {
    var ids := Map(assignments, AssignmentIdOf);
    assert s.assignmentId in ids;
    var i :| 0 <= i < |ids| && ids[i] == s.assignmentId;
    assert assignments[i] in assignments;
  }

  /** The student count is the number of distinct ids: it grows by one with
      a new student and not at all with a further submission by a known one. */
  lemma StudentCountCountsDistinctIds(subs: seq<Submission>, s: Submission)
    ensures |Distinct(Map(subs + [s], StudentIdOf))| ==
      |Distinct(Map(subs, StudentIdOf))| + (if s.studentId in Map(subs, StudentIdOf) then 0 else 1)
  {
    var before := Distinct(Map(subs, StudentIdOf));
    assert Map(subs + [s], StudentIdOf) == Map(subs, StudentIdOf) + [s.studentId];
    assert Distinct(Map(subs + [s], StudentIdOf)) == before + {s.studentId};
  }
}

=== FILE: hybrid.dfy ===
/** The AI-detection route: the local heuristic score computed from feature
    counts (the tail of `performLocalAnalysis`) and the hybrid decision that
    merges it with the external detector's percentage (`POST`). */
module HybridDetection {
  import opened Outcomes
  import opened Seqs

  /** The counts the regular expressions of `performLocalAnalysis` extract. */
  datatype Features = Features(
    words: nat,              // whitespace-separated words
    sentences: nat,          // non-blank pieces between `.`, `!`, `?`
    markers: nat,            // AI marker patterns that match at least once
    repetitiveStarters: nat, // two-word sentence openings used more than twice
    variation: real,         // coefficient of variation of sentence lengths
    pronouns: nat,           // matches of i/me/my/mine/myself
    conversational: nat,     // matches of the conversational patterns
    informal: nat,           // matches of the informal spellings
    vocabRichness: real,     // distinct lower-cased words / words
    listLines: nat,          // lines that start like a list item
    colons: nat)             // `:` characters

  /** The fields of the analysis the combiner reads or rewrites. */
  datatype Analysis = Analysis(
    aiLikelihood: int,
    humanLikelihood: int,
    confidence: string,
    wordCount: nat,
    sentenceCount: nat,
    hasAIMarkers: bool,
    aiMarkerCount: nat,
    formalityLevel: string,
    hasPersonalTouch: bool,
    verdict: string)

  const MinWords: nat := 10
  const TooShortVerdict: string := "Too short to analyze"
  const HighlyLikelyAi: string := "Highly likely AI-generated"
  const LikelyAi: string := "Likely AI-generated"
  const MixedSignals: string := "Mixed signals - possibly AI-assisted"
  const LikelyHuman: string := "Likely human-written"
  const PossiblyAssisted: string := "Possibly AI-assisted"

  const FallbackMethod: string := "Local Heuristic Analysis (Fallback)"
  const MaxMethod: string := "Hybrid Analysis (Max Score)"
  const MinMethod: string := "Hybrid Analysis (Confirmed Human)"
  const AverageMethod: string := "Hybrid Analysis (Average)"

  /** Points for the number of distinct AI markers found. */
  function MarkerPoints(markers: nat): (p: int)
    ensures p in {0, 15, 25, 35, 50}
    ensures p == 0 <==> markers == 0
    ensures p == 15 <==> markers == 1
    ensures p == 25 <==> markers == 2
    ensures p == 35 <==> 3 <= markers < 5
    ensures p == 50 <==> markers >= 5
  {
    if markers >= 5 then 50
    else if markers >= 3 then 35
    else if markers >= 2 then 25
    else if markers >= 1 then 15
    else 0
  }

  predicate UniformLength(f: Features)
  {
    f.variation < 0.25 && f.sentences > 5
  }

  predicate StrongPersonalTouch(f: Features)
  {
    f.pronouns > 3
  }

  predicate HasLists(f: Features)
  {
    f.listLines > 3
  }

  predicate ExcessiveColons(f: Features)
  {
    f.colons as real > f.sentences as real * 0.3
  }

  predicate LowVocabulary(f: Features)
  {
    f.vocabRichness < 0.5 && f.words > 100
  }

  predicate HighVocabulary(f: Features)
  {
    f.vocabRichness > 0.7
  }

  function If(b: bool, points: int): int
  {
    if b then points else 0
  }

  /** The signals that raise the score. */
  function AiSignals(f: Features): (s: int)
    ensures s >= 0
  {
    MarkerPoints(f.markers) + If(UniformLength(f), 15) + f.repetitiveStarters * 8
    + If(HasLists(f), 10) + If(ExcessiveColons(f), 8) + If(LowVocabulary(f), 12)
  }

  /** The signals that lower the score. */
  function HumanSignals(f: Features): (s: int)
    ensures s >= 0
  {
    If(StrongPersonalTouch(f), 25) + f.conversational * 10 + f.informal * 15 + If(HighVocabulary(f), 10)
  }

  /** `Math.max(0, Math.min(100, x))` */
  function Clamp(x: int): (r: int)
    ensures 0 <= r <= 100
    ensures 0 <= x <= 100 ==> r == x
    ensures x < 0 ==> r == 0
    ensures x > 100 ==> r == 100
  {
    Max(0, Min(100, x))
  }

  /** The local AI score before rounding (every contribution is an integer,
      so `Math.round` leaves it as it is). */
  function LocalScore(f: Features): (score: int)
    ensures 0 <= score <= 100
  {
    Clamp(AiSignals(f) - HumanSignals(f))
  }

  function LocalConfidence(markers: nat, score: int, words: nat): (c: string)
    ensures c in {"high", "low", "medium"}
  {
    if markers >= 4 || score >= 70 then "high"
    else if markers == 0 && score < 20 then "high"
    else if words < 50 then "low"
    else "medium"
  }

  function LocalVerdict(score: int): (v: string)
    ensures v in {HighlyLikelyAi, LikelyAi, MixedSignals, LikelyHuman}
  {
    if score >= 70 then HighlyLikelyAi
    else if score >= 50 then LikelyAi
    else if score >= 30 then MixedSignals
    else LikelyHuman
  }

  /** The writing style: informal as soon as either informal count passes 2,
      formal only otherwise and with at least 3 markers. */
  function Formality(f: Features): (level: string)
    ensures level in {"Informal", "Formal", "Moderate"}
    ensures level == "Informal" <==> f.informal > 2 || f.conversational > 2
    ensures level == "Formal" <==> f.informal <= 2 && f.conversational <= 2 && f.markers >= 3
  {
    if f.informal > 2 || f.conversational > 2 then "Informal"
    else if f.markers >= 3 then "Formal"
    else "Moderate"
  }

  /** `performLocalAnalysis` from the feature counts. */
  function LocalAnalysis(f: Features): (a: Analysis)
    ensures a.aiLikelihood + a.humanLikelihood == 100
    ensures 0 <= a.aiLikelihood <= 100
    ensures a.wordCount == f.words && a.sentenceCount == f.sentences
    ensures f.words < MinWords ==>
      a.aiLikelihood == 0 && a.confidence == "low" && a.verdict == TooShortVerdict
      && a.formalityLevel == "Unknown" && a.aiMarkerCount == 0 && !a.hasAIMarkers
      && !a.hasPersonalTouch
    ensures f.words >= MinWords ==>
      && a.aiLikelihood == LocalScore(f)
      && a.confidence == LocalConfidence(f.markers, a.aiLikelihood, f.words)
      && a.verdict == LocalVerdict(a.aiLikelihood)
      && a.aiMarkerCount == f.markers && (a.hasAIMarkers <==> f.markers > 0)
      && a.hasPersonalTouch == StrongPersonalTouch(f)
      && a.formalityLevel == Formality(f)
  {
    if f.words < MinWords then
      Analysis(0, 100, "low", f.words, f.sentences, false, 0, "Unknown", false, TooShortVerdict)
    else
      var score := LocalScore(f);
      Analysis(score, 100 - score, LocalConfidence(f.markers, score, f.words), f.words, f.sentences,
               f.markers > 0, f.markers, Formality(f), StrongPersonalTouch(f), LocalVerdict(score))
  }

  lemma MarkerPointsMonotone(a: nat, b: nat)
    requires a <= b
    ensures MarkerPoints(a) <= MarkerPoints(b)
  {
  }

  /** Finding one more AI marker never lowers the local score, and neither
      does one fewer informal spelling or conversational phrase. */
  lemma LocalScoreMonotone(f: Features, g: Features)
    requires g == f.(markers := g.markers, informal := g.informal, conversational := g.conversational)
    requires f.markers <= g.markers && g.informal <= f.informal && g.conversational <= f.conversational
    ensures LocalScore(f) <= LocalScore(g)
  {
    MarkerPointsMonotone(f.markers, g.markers);
    assert AiSignals(f) <= AiSignals(g);
    assert HumanSignals(g) <= HumanSignals(f);
  }

  /** Confidence is "high" exactly when the text has at least four markers,
      scores at least 70, or has no marker and scores under 20; otherwise it
      is "low" for fewer than 50 words and "medium" from 50 words on. */
  lemma LocalConfidencePrecedence(markers: nat, score: int, words: nat)
    ensures LocalConfidence(markers, score, words) == "high" <==>
      markers >= 4 || score >= 70 || (markers == 0 && score < 20)
    ensures LocalConfidence(markers, score, words) == "low" <==>
      !(markers >= 4 || score >= 70 || (markers == 0 && score < 20)) && words < 50
  {
  }

  /** The verdict tiers cut the score range at 30, 50 and 70. */
  lemma LocalVerdictTiers(score: int)
    ensures LocalVerdict(score) == HighlyLikelyAi <==> score >= 70
    ensures LocalVerdict(score) == LikelyAi <==> 50 <= score < 70
    ensures LocalVerdict(score) == MixedSignals <==> 30 <= score < 50
    ensures LocalVerdict(score) == LikelyHuman <==> score < 30
  {
  }

  /** The response of the route: the final analysis and how it was reached. */
  datatype Decision = Decision(analysis: Analysis, detectionMethod: string)

  /** `Math.round((e + l) / 2)` */
  function RoundedAverage(e: int, l: int): (avg: int)
    ensures Min(e, l) <= avg <= Max(e, l)
    ensures 2 * avg == e + l || 2 * avg == e + l + 1
  {
    RoundHalfUp((e + l) as real / 2.0)
  }

  /** The hybrid decision of `POST`. `external` is the detector's
      aiLikelihood, or `None` when the call to the detection service threw. */
  function Combine(local: Analysis, external: Option<int>): (d: Decision)
    ensures external.None? ==> d == Decision(local, FallbackMethod)
    ensures external.Some? ==>
      var e, l := external.value, local.aiLikelihood;
      && Min(e, l) <= d.analysis.aiLikelihood <= Max(e, l)
      && d.analysis.aiLikelihood + d.analysis.humanLikelihood == 100
      && d.analysis == local.(aiLikelihood := d.analysis.aiLikelihood,
                              humanLikelihood := d.analysis.humanLikelihood,
                              verdict := d.analysis.verdict)
      && (d.detectionMethod == MaxMethod <==> Max(e, l) >= 60)
      && (d.detectionMethod == MinMethod <==> Max(e, l) < 60 && e < 30 && l < 30)
      && (d.detectionMethod == AverageMethod <==> Max(e, l) < 60 && (e >= 30 || l >= 30))
      && (d.detectionMethod == MaxMethod ==>
            && d.analysis.aiLikelihood == Max(e, l)
            && (d.analysis.verdict == HighlyLikelyAi <==> Max(e, l) >= 70)
            && (d.analysis.verdict != HighlyLikelyAi ==> d.analysis.verdict == LikelyAi))
      && (d.detectionMethod == MinMethod ==>
            && d.analysis.aiLikelihood == Min(e, l)
            && d.analysis.verdict == local.verdict)
      && (d.detectionMethod == AverageMethod ==>
            && 2 * d.analysis.aiLikelihood - (e + l) in {0, 1}
            && (d.analysis.verdict == LikelyAi <==> d.analysis.aiLikelihood >= 50)
            && (d.analysis.verdict != LikelyAi ==> d.analysis.verdict == PossiblyAssisted))
  {
    match external
    case None => Decision(local, FallbackMethod)
    case Some(e) =>
      var l := local.aiLikelihood;
      var maxAi := Max(e, l);
      var avgAi := RoundedAverage(e, l);
      if maxAi >= 60 then
        var verdict := if maxAi >= 70 then HighlyLikelyAi else LikelyAi;
        Decision(local.(aiLikelihood := maxAi, humanLikelihood := 100 - maxAi, verdict := verdict), MaxMethod)
      else if e < 30 && l < 30 then
        var minAi := Min(e, l);
        Decision(local.(aiLikelihood := minAi, humanLikelihood := 100 - minAi), MinMethod)
      else
        var verdict := if avgAi >= 50 then LikelyAi else PossiblyAssisted;
        Decision(local.(aiLikelihood := avgAi, humanLikelihood := 100 - avgAi, verdict := verdict), AverageMethod)
  }

  /** The combined percentage depends only on the two input percentages, not
      on which detector produced which: swapping them changes nothing. */
  lemma CombineSymmetric(local: Analysis, e: int)
    ensures Combine(local, Some(e)).analysis.aiLikelihood
         == Combine(local.(aiLikelihood := e), Some(local.aiLikelihood)).analysis.aiLikelihood
  {
  }

  /** Both detectors in [0, 100] give a combined percentage in [0, 100],
      and the local confidence always survives. */
  lemma CombineIsPercentage(local: Analysis, e: int)
    requires 0 <= e <= 100 && 0 <= local.aiLikelihood <= 100
    ensures var d := Combine(local, Some(e));
      0 <= d.analysis.aiLikelihood <= 100 && 0 <= d.analysis.humanLikelihood <= 100
      && d.analysis.confidence == local.confidence
  {
  }

  /** A too-short text scores 0 locally, so a detector percentage under 30
      confirms it human and one of at least 60 takes over. */
  lemma CombineShortText(f: Features, e: int)
    requires f.words < MinWords
    ensures var d := Combine(LocalAnalysis(f), Some(e));
      && (e < 30 ==> d.detectionMethod == MinMethod && d.analysis.aiLikelihood == Min(e, 0))
      && (e >= 60 ==> d.detectionMethod == MaxMethod && d.analysis.aiLikelihood == e)
  {
  }
}

=== FILE: likelihood.dfy ===
/** The windowed log-likelihood estimator of `GPT2PPL.getLogLikelihood`.

    The text is tokenized once. Windows of at most `maxLength` tokens start at
    0, 512, 1024, ...; the loss of each window counts only the tokens that the
    previous window did not already reach (the earlier ones are labelled -100),
    and the walk stops at the first window that reaches the end of the
    sequence. The result is the negated mean of the per-window losses.

    The language model is an oracle: `tokenize` turns text into tokens and
    `loss(window, masked)` is the mean loss of the window whose first `masked`
    labels are ignored, or `None` when the model call raises. */
module Likelihood {
  import opened Outcomes
  import opened Seqs

  type Token = int

  datatype Oracle = Oracle(
    tokenize: string -> seq<Token>,
    loss: (seq<Token>, nat) -> Option<real>,
    /** `model.config.n_positions`: 1024 for GPT-2 */
    maxLength: nat)

  /** Why an estimate could not be produced: `torch.stack([])` on an empty
      token sequence, or an exception from the model call. */
  datatype Failure = EmptyInput | OracleError

  datatype Fallible<T> = Ok(value: T) | Fail(failure: Failure)

  /** `self.stride` */
  const Stride: nat := 512

  /** One pass of the stride loop: the window is `tokens[begin..end]` and
      `target` is `trg_len = end_loc - prev_end_loc`. */
  datatype Window = Window(begin: nat, end: nat, target: int)

  /** Length of Python's `xs[:stop]` for a list of length `n`. */
  function PrefixLength(n: nat, stop: int): (k: nat)
    ensures k <= n
    ensures 0 <= stop ==> k == Min(stop, n)
    ensures stop < 0 ==> k == Max(0, n + stop)
  {
    if stop >= 0 then Min(stop, n) else Max(0, n + stop)
  }

  /** Number of labels set to -100 by `target_ids[:, :-trg_len] = -100`. */
  function Masked(w: Window): nat
    requires w.begin <= w.end
  {
    PrefixLength(w.end - w.begin, -w.target)
  }

  /** First token whose label the window scores. */
  function ScoredFrom(w: Window): int
  {
    w.end - w.target
  }

  /** Token `t` contributes to the loss of window `w`. */
  predicate Scores(w: Window, t: int)
  {
    ScoredFrom(w) <= t < w.end
  }

  /** The loop `for begin_loc in range(begin, seqLen, Stride)` entered with
      `prev_end_loc = prevEnd`, including its `break` at the first window
      whose end is `seqLen`. */
  function WindowsFrom(seqLen: nat, maxLength: nat, begin: nat, prevEnd: nat): (ws: seq<Window>)
    ensures begin < seqLen <==> |ws| > 0
    ensures forall i :: 0 <= i < |ws| ==> ws[i].begin == begin + i * Stride
    ensures forall i :: 0 <= i < |ws| ==>
      ws[i].begin < seqLen && ws[i].begin <= ws[i].end <= seqLen && ws[i].end == Min(ws[i].begin + maxLength, seqLen)
    ensures forall i :: 0 <= i < |ws| - 1 ==> ws[i].end < seqLen
    ensures |ws| > 0 ==> ScoredFrom(ws[0]) == prevEnd
    ensures forall i :: 0 < i < |ws| ==> ScoredFrom(ws[i]) == ws[i - 1].end
    decreases seqLen - begin
  {
    if begin >= seqLen then []
    else
      var end := Min(begin + maxLength, seqLen);
      var w := Window(begin, end, end - prevEnd);
      if end == seqLen then [w]
      else
        var rest := WindowsFrom(seqLen, maxLength, begin + Stride, end);
        var ws := [w] + rest;
        assert forall i :: 0 < i < |ws| ==> ws[i] == rest[i - 1];
        ws
  }

  /** The walk stops either at the `break` (the last window reaches the end)
      or because `range` has no further start below `seqLen`. */
  lemma {:induction false} WindowsFromLast(seqLen: nat, maxLength: nat, begin: nat, prevEnd: nat)
    requires begin < seqLen
    ensures var ws := WindowsFrom(seqLen, maxLength, begin, prevEnd);
      ws[|ws| - 1].end == seqLen || ws[|ws| - 1].begin + Stride >= seqLen
    decreases seqLen - begin
  {
    var end := Min(begin + maxLength, seqLen);
    if end < seqLen && begin + Stride < seqLen {
      WindowsFromLast(seqLen, maxLength, begin + Stride, end);
    }
  }

  /** The windows of a sequence of `seqLen` tokens. */
  function Windows(seqLen: nat, maxLength: nat): (ws: seq<Window>)
    ensures seqLen == 0 <==> |ws| == 0
    ensures forall i :: 0 <= i < |ws| ==> ws[i].begin == i * Stride
    ensures |ws| > 0 ==> ScoredFrom(ws[0]) == 0
  {
    WindowsFrom(seqLen, maxLength, 0, 0)
  }

  /** Each window scores what the one before it stopped at. */
  predicate Contiguous(ws: seq<Window>)
  {
    forall i :: 0 < i < |ws| ==> ScoredFrom(ws[i]) == ws[i - 1].end
  }

  /** Some window scores token `t`. */
  predicate Covered(ws: seq<Window>, t: int)
  {
    exists i :: 0 <= i < |ws| && Scores(ws[i], t)
  }

  /** Sum of the `trg_len` values. */
  function TargetTotal(ws: seq<Window>): int
  {
    if |ws| == 0 then 0 else ws[0].target + TargetTotal(ws[1..])
  }

  /** Contiguous scored ranges add up to the span from the first to the last. */
  lemma {:induction false} TargetTotalTelescopes(ws: seq<Window>)
    requires |ws| > 0
    requires Contiguous(ws)
    ensures TargetTotal(ws) == ws[|ws| - 1].end - ScoredFrom(ws[0])
  {
    if |ws| > 1 {
      assert Contiguous(ws[1..]) by {
        forall i | 0 < i < |ws| - 1
          ensures ScoredFrom(ws[1..][i]) == ws[1..][i - 1].end
        {
          assert ScoredFrom(ws[i + 1]) == ws[i].end;
        }
      }
      TargetTotalTelescopes(ws[1..]);
      assert ScoredFrom(ws[1]) == ws[0].end;
    }
  }

  /** Contiguous scored ranges leave no token between the first and the last uncovered. */
  lemma {:induction false} ContiguousCovers(ws: seq<Window>, t: int)
    requires |ws| > 0
    requires Contiguous(ws)
    requires ScoredFrom(ws[0]) <= t < ws[|ws| - 1].end
    ensures Covered(ws, t)
  {
    if t < ws[0].end {
      assert Scores(ws[0], t);
    } else {
      assert Contiguous(ws[1..]) by {
        forall i | 0 < i < |ws| - 1
          ensures ScoredFrom(ws[1..][i]) == ws[1..][i - 1].end
        {
          assert ScoredFrom(ws[i + 1]) == ws[i].end;
        }
      }
      assert ScoredFrom(ws[1]) == ws[0].end;
      ContiguousCovers(ws[1..], t);
      var k :| 0 <= k < |ws| - 1 && Scores(ws[1..][k], t);
      assert Scores(ws[k + 1], t);
    }
  }

  /** With a stride no larger than the window, every window scores between
      one token and its whole width, and its masked prefix is exactly what
      earlier windows already scored. */
  lemma WindowTargets(seqLen: nat, maxLength: nat)
    requires Stride <= maxLength
    ensures var ws := Windows(seqLen, maxLength);
      forall i :: 0 <= i < |ws| ==>
        && 1 <= ws[i].target <= ws[i].end - ws[i].begin
        && Masked(ws[i]) == ScoredFrom(ws[i]) - ws[i].begin
  {
    var ws := Windows(seqLen, maxLength);
    forall i | 0 <= i < |ws|
      ensures 1 <= ws[i].target <= ws[i].end - ws[i].begin
    {
      if i > 0 {
        assert ws[i - 1].end == ws[i - 1].begin + maxLength;
      }
    }
  }

  /** Ends only grow, so a window ends no later than any later window starts scoring. */
  lemma WindowsOrdered(seqLen: nat, maxLength: nat)
    ensures var ws := Windows(seqLen, maxLength);
      forall i, j :: 0 <= i < j < |ws| ==> ws[i].end <= ScoredFrom(ws[j])
  {
    var ws := Windows(seqLen, maxLength);
    forall i, j | 0 <= i < j < |ws|
      ensures ws[i].end <= ScoredFrom(ws[j])
    {
      assert ScoredFrom(ws[j]) == ws[j - 1].end;
      assert ws[i].begin <= ws[j - 1].begin;
    }
  }

  /** The loop always leaves through its `break`: with a stride no larger
      than the window, `range(0, seqLen, Stride)` is never exhausted first,
      so the last window ends exactly at the end of the sequence. */
  lemma LoopEndsByBreak(seqLen: nat, maxLength: nat)
    requires Stride <= maxLength
    requires seqLen > 0
    ensures var ws := Windows(seqLen, maxLength);
      |ws| > 0 && ws[|ws| - 1].end == seqLen
  {
    var ws := Windows(seqLen, maxLength);
    WindowsFromLast(seqLen, maxLength, 0, 0);
    var last := ws[|ws| - 1];
    assert last.end == Min(last.begin + maxLength, seqLen);
  }

  /** The window protocol. With a stride no larger than the window, the walk
      starts at token 0 and stops exactly at the end of the sequence, the
      scored ranges are contiguous and add up to the sequence length, and
      every token is scored by exactly one window. An empty sequence has no
      windows. */
  lemma WindowProtocol(seqLen: nat, maxLength: nat)
    requires Stride <= maxLength
    ensures var ws := Windows(seqLen, maxLength);
      && (seqLen == 0 <==> |ws| == 0)
      && (seqLen > 0 ==> ws[0].begin == 0 && ScoredFrom(ws[0]) == 0 && ws[|ws| - 1].end == seqLen)
      && Contiguous(ws)
      && TargetTotal(ws) == seqLen
      && (forall t :: 0 <= t < seqLen ==> Covered(ws, t))
      && (forall t, i, j :: 0 <= i < |ws| && 0 <= j < |ws| && Scores(ws[i], t) && Scores(ws[j], t) ==> i == j)
  {
    var ws := Windows(seqLen, maxLength);
    WindowsOrdered(seqLen, maxLength);
    if seqLen > 0 {
      LoopEndsByBreak(seqLen, maxLength);
      TargetTotalTelescopes(ws);
      forall t | 0 <= t < seqLen
        ensures Covered(ws, t)
      {
        ContiguousCovers(ws, t);
      }
    }
    forall t, i, j | 0 <= i < |ws| && 0 <= j < |ws| && Scores(ws[i], t) && Scores(ws[j], t)
      ensures i == j
    {
    }
  }

  /** The oracle's loss of every window in order, or `None` as soon as one
      model call raises. */
  function WindowLosses(o: Oracle, tokens: seq<Token>, ws: seq<Window>): (r: Option<seq<real>>)
    requires forall i :: 0 <= i < |ws| ==> ws[i].begin <= ws[i].end <= |tokens|
    ensures r.Some? <==> OracleAnswers(o, tokens, ws)
    ensures r.Some? ==> |r.value| == |ws|
    ensures r.Some? ==>
      forall i :: 0 <= i < |ws| ==> Some(r.value[i]) == o.loss(tokens[ws[i].begin..ws[i].end], Masked(ws[i]))
  {
    if |ws| == 0 then Some([])
    else
      match o.loss(tokens[ws[0].begin..ws[0].end], Masked(ws[0]))
      case None => None
      case Some(l) =>
        match WindowLosses(o, tokens, ws[1..])
        case None => None
        case Some(ls) => Some([l] + ls)
  }

  /** Every model call of the walk returns a loss. */
  predicate OracleAnswers(o: Oracle, tokens: seq<Token>, ws: seq<Window>)
    requires forall i :: 0 <= i < |ws| ==> ws[i].begin <= ws[i].end <= |tokens|
  {
    forall i :: 0 <= i < |ws| ==> o.loss(tokens[ws[i].begin..ws[i].end], Masked(ws[i])).Some?
  }

  /** `getLogLikelihood(text)`: fails on an empty token sequence and when a
      model call raises, and otherwise succeeds; `LogLikelihoodIsNegatedMeanLoss`
      gives the value. */
  function LogLikelihood(o: Oracle, text: string): (r: Fallible<real>)
    ensures r == Fail(EmptyInput) <==> |o.tokenize(text)| == 0
    ensures r.Ok? <==>
      var tokens := o.tokenize(text);
      |tokens| > 0 && OracleAnswers(o, tokens, Windows(|tokens|, o.maxLength))
  {
    var tokens := o.tokenize(text);
    var ws := Windows(|tokens|, o.maxLength);
    match WindowLosses(o, tokens, ws)
    case None => Fail(OracleError)
    case Some(losses) => if |losses| == 0 then Fail(EmptyInput) else Ok(-Mean(losses))
  }

  /** Every model call of the walk returns a loss within `[lo, hi]`. */
  predicate LossesWithin(o: Oracle, tokens: seq<Token>, ws: seq<Window>, lo: real, hi: real)
    requires forall i :: 0 <= i < |ws| ==> ws[i].begin <= ws[i].end <= |tokens|
  {
    forall i :: 0 <= i < |ws| ==>
      var l := o.loss(tokens[ws[i].begin..ws[i].end], Masked(ws[i]));
      l.Some? && lo <= l.value <= hi
  }

  /** A successful estimate is minus the unweighted mean of the window
      losses: times the number of windows, it is minus their sum. */
  lemma LogLikelihoodIsNegatedMeanLoss(o: Oracle, text: string)
    requires LogLikelihood(o, text).Ok?
    ensures var tokens := o.tokenize(text);
      var ls := WindowLosses(o, tokens, Windows(|tokens|, o.maxLength));
      && ls.Some? && |ls.value| > 0
      && LogLikelihood(o, text).value * (|ls.value| as real) == -Sum(ls.value)
  {
    var tokens := o.tokenize(text);
    var ls := WindowLosses(o, tokens, Windows(|tokens|, o.maxLength)).value;
    assert |ls| > 0;
    assert LogLikelihood(o, text).value == -Mean(ls);
  }

  /** Being a negated average, the estimate stays within the window losses:
      when every loss lies in `[lo, hi]`, the log-likelihood lies in
      `[-hi, -lo]`. */
  lemma LogLikelihoodWithinLossBounds(o: Oracle, text: string, lo: real, hi: real)
    requires |o.tokenize(text)| > 0
    requires LossesWithin(o, o.tokenize(text), Windows(|o.tokenize(text)|, o.maxLength), lo, hi)
    ensures LogLikelihood(o, text).Ok?
    ensures -hi <= LogLikelihood(o, text).value <= -lo
  {
    var tokens := o.tokenize(text);
    var ws := Windows(|tokens|, o.maxLength);
    var losses := WindowLosses(o, tokens, ws).value;
    assert |losses| > 0;
    forall i | 0 <= i < |losses|
      ensures lo <= losses[i] <= hi
    {
      assert Some(losses[i]) == o.loss(tokens[ws[i].begin..ws[i].end], Masked(ws[i]));
    }
    MeanBounds(losses, lo, hi);
  }
}

=== FILE: outcomes.dfy ===
/** Optional values, used wherever the source has a nullable field, a missing
    lookup or a call that may raise. */
module Outcomes {

  datatype Option<+T> = None | Some(value: T) {

    /** The value, or `default` when absent (JavaScript's `x || default`). */
    function GetOr(default: T): T {
      match this
      case Some(v) => v
      case None => default
    }
  }
}

=== FILE: perturbation.dfy ===
/** The word-drop perturbation sampler of `GPT2PPL.getScore` (the path taken
    because `use_t5` is false).

    A text of more than 10 words gets between 15 and 30 perturbations. The
    i-th reseeds numpy's generator with `42 + i` and removes the single word
    at `randint(1, n - 1)`, an index that is never the first or last word. */
module Perturbation {
  import opened Seqs

  /** numpy's generator reseeded with `seed`, then `randint(lo, hi)`: an
      integer in `[lo, hi)`. Only the range is known; the value is opaque. */
  ghost predicate IsRandInt(f: (int, int, int) -> int)
  {
    forall seed, lo, hi :: lo < hi ==> lo <= f(seed, lo, hi) < hi
  }

  type RandInt = f: (int, int, int) -> int | IsRandInt(f)
    witness (seed: int, lo: int, hi: int) => lo

  /** `np.random.seed(42 + i)` */
  const BaseSeed: int := 42

  /** Texts of at most this many words get no perturbations. */
  const ShortText: nat := 10

  /** `min(30, max(15, n // 4))` for `n > 10` words, otherwise none. */
  function PerturbationCount(n: nat): (c: nat)
    ensures n <= ShortText ==> c == 0
    ensures n > ShortText ==> 15 <= c <= 30
    ensures n > ShortText && 15 <= n / 4 <= 30 ==> c == n / 4
    ensures n > ShortText && n / 4 < 15 ==> c == 15
    ensures n / 4 > 30 ==> c == 30
  {
    if n <= ShortText then 0 else Min(30, Max(15, n / 4))
  }

  lemma PerturbationCountExamples()
    ensures PerturbationCount(8) == 0
    ensures PerturbationCount(10) == 0
    ensures PerturbationCount(11) == 15
    ensures PerturbationCount(40) == 15
    ensures PerturbationCount(80) == 20
    ensures PerturbationCount(200) == 30
  {
  }

  /** `words` with the element at `k` removed (`list.pop(k)`). */
  function Remove<T>(words: seq<T>, k: nat): (r: seq<T>)
    requires k < |words|
    ensures |r| == |words| - 1
    ensures forall j :: 0 <= j < k ==> r[j] == words[j]
    ensures forall j :: k <= j < |r| ==> r[j] == words[j + 1]
  {
    words[..k] + words[k + 1..]
  }

  /** The word `randint(1, n - 1)` drops after reseeding with `seed`. */
  function DropIndex(n: nat, seed: int, rand: RandInt): (k: nat)
    requires n > 2
    ensures 1 <= k <= n - 2
  {
    rand(seed, 1, n - 1)
  }

  /** One perturbation: a copy of the words, minus one inner word when there
      are more than five. */
  function Perturb(words: seq<string>, seed: int, rand: RandInt): (p: seq<string>)
    ensures |words| <= 5 ==> p == words
    ensures |words| > 5 ==> |p| == |words| - 1
  {
    if |words| > 5 then Remove(words, DropIndex(|words|, seed, rand)) else words
  }

  /** The perturbations of a word list, in generation order; the i-th is
      drawn from seed `42 + i` alone. */
  function Perturbations(words: seq<string>, rand: RandInt): (ps: seq<seq<string>>)
    ensures |ps| == PerturbationCount(|words|)
    ensures forall i :: 0 <= i < |ps| ==> ps[i] == Perturb(words, BaseSeed + i, rand)
  {
    seq(PerturbationCount(|words|), i requires 0 <= i => Perturb(words, BaseSeed + i, rand))
  }

  /** Every perturbation of a text long enough to be perturbed removes
      exactly one word at an index in `[1, n - 2]`: the first and last words
      stay, and the others keep their relative order. */
  lemma PerturbationDropsOneInnerWord(words: seq<string>, rand: RandInt, i: nat)
    requires |words| > ShortText
    requires i < PerturbationCount(|words|)
    ensures var p := Perturbations(words, rand)[i];
      && |p| == |words| - 1
      && p[0] == words[0]
      && p[|p| - 1] == words[|words| - 1]
      && exists k :: 1 <= k <= |words| - 2 && p == words[..k] + words[k + 1..]
  {
    var k := DropIndex(|words|, BaseSeed + i, rand);
    var p := Perturbations(words, rand)[i];
    assert p == Remove(words, k);
  }
}

=== FILE: scoring.dfy ===
/** The z-score of `GPT2PPL.getScore`: the log-likelihood of the text minus
    the mean log-likelihood of its perturbations, divided by their population
    standard deviation plus 1e-10. Texts of at most 10 words get the neutral
    triple (0.0, 0.0, 1.0). Any failure of the estimator propagates. */
module Scoring {
  import opened Seqs
  import opened Text
  import opened Likelihood
  import opened Perturbation

  /** `1e-10`, added to the deviation so that the division is defined. */
  const Epsilon: real := 0.0000000001

  ghost predicate IsNonNegative(f: real -> real)
  {
    forall x :: f(x) >= 0.0
  }

  /** The square root inside `np.std`; only that it is non-negative is modelled. */
  type Sqrt = f: real -> real | IsNonNegative(f) witness (x: real) => 0.0

  /** `(score, diff, std)` */
  datatype ScoreResult = ScoreResult(score: real, diff: real, std: real)

  /** What a text too short to perturb scores. */
  const Neutral: ScoreResult := ScoreResult(0.0, 0.0, 1.0)

  function SquaredDeviations(xs: seq<real>, m: real): (ds: seq<real>)
    ensures |ds| == |xs|
    ensures forall i :: 0 <= i < |xs| ==> ds[i] == (xs[i] - m) * (xs[i] - m)
  {
    seq(|xs|, i requires 0 <= i < |xs| => (xs[i] - m) * (xs[i] - m))
  }

  /** Population variance (`ddof = 0`, numpy's default). */
  function Variance(xs: seq<real>): real
    requires |xs| > 0
  {
    Mean(SquaredDeviations(xs, Mean(xs)))
  }

  /** `np.std(xs)` */
  function StdDev(xs: seq<real>, sqrt: Sqrt): (sd: real)
    requires |xs| > 0
    ensures sd >= 0.0
  {
    sqrt(Variance(xs))
  }

  /** The statistic from the original log-likelihood and the perturbed ones:
      `diff` is the drop to the perturbed mean, and `score` is `diff` in
      units of (deviation + epsilon), so it has the sign of `diff`. */
  function Normalise(ll: real, lls: seq<real>, sqrt: Sqrt): (r: ScoreResult)
    requires |lls| > 0
    ensures r.diff == ll - Mean(lls)
    ensures r.std == StdDev(lls, sqrt)
    ensures r.score * (r.std + Epsilon) == r.diff
    ensures r.score > 0.0 <==> ll > Mean(lls)
    ensures r.score < 0.0 <==> ll < Mean(lls)
  {
    var sd := StdDev(lls, sqrt);
    var diff := ll - Mean(lls);
    var d := sd + Epsilon;
    var score := diff / d;
    assert score * d == diff;
    assert score > 0.0 <==> diff > 0.0 by {
      if score <= 0.0 { assert score * d <= 0.0; }
      if score > 0.0 { assert score * d > 0.0; }
    }
    assert score < 0.0 <==> diff < 0.0 by {
      if score >= 0.0 { assert score * d >= 0.0; }
      if score < 0.0 { assert score * d < 0.0; }
    }
    ScoreResult(score, diff, sd)
  }

  /** Log-likelihoods of several texts in order; the first failure stops the walk. */
  function LikelihoodsOf(o: Oracle, texts: seq<string>): (r: Fallible<seq<real>>)
    ensures r.Ok? <==> forall i :: 0 <= i < |texts| ==> LogLikelihood(o, texts[i]).Ok?
    ensures r.Ok? ==> |r.value| == |texts|
    ensures r.Ok? ==> forall i :: 0 <= i < |texts| ==> LogLikelihood(o, texts[i]) == Ok(r.value[i])
  {
    if |texts| == 0 then Ok([])
    else
      match LogLikelihood(o, texts[0])
      case Fail(f) => Fail(f)
      case Ok(l) =>
        match LikelihoodsOf(o, texts[1..])
        case Fail(f) => Fail(f)
        case Ok(ls) => Ok([l] + ls)
  }

  /** The texts whose log-likelihoods are compared with the original. */
  function PerturbedTexts(words: seq<string>, rand: RandInt): (ts: seq<string>)
    ensures |ts| == PerturbationCount(|words|)
  {
    Map(Perturbations(words, rand), Join)
  }

  /** `getScore(text)`. The original text is scored first, so its failure
      wins; a text of at most 10 words is neutral; otherwise every
      perturbation must be scored too. */
  function GetScore(o: Oracle, rand: RandInt, sqrt: Sqrt, text: string): (r: Fallible<ScoreResult>)
    ensures LogLikelihood(o, text).Fail? ==> r == Fail(LogLikelihood(o, text).failure)
    ensures |Split(text)| <= ShortText ==> (r.Ok? <==> LogLikelihood(o, text).Ok?)
    ensures |Split(text)| <= ShortText && r.Ok? ==> r.value == Neutral
    ensures |Split(text)| > ShortText ==>
      (r.Ok? <==> LogLikelihood(o, text).Ok? && LikelihoodsOf(o, PerturbedTexts(Split(text), rand)).Ok?)
    ensures |Split(text)| > ShortText && r.Ok? ==>
      r.value.std >= 0.0 && (r.value.score > 0.0 <==> r.value.diff > 0.0)
  {
    match LogLikelihood(o, text)
    case Fail(f) => Fail(f)
    case Ok(ll) =>
      var words := Split(text);
      if |words| > ShortText then
        match LikelihoodsOf(o, PerturbedTexts(words, rand))
        case Fail(f) => Fail(f)
        case Ok(lls) => Ok(Normalise(ll, lls, sqrt))
      else Ok(Neutral)
  }

  /** For a text of more than 10 words, `diff` is the original
      log-likelihood minus the mean over its 15 to 30 perturbations. */
  lemma GetScoreCompares(o: Oracle, rand: RandInt, sqrt: Sqrt, text: string)
    requires |Split(text)| > ShortText
    requires GetScore(o, rand, sqrt, text).Ok?
    ensures var lls := LikelihoodsOf(o, PerturbedTexts(Split(text), rand)).value;
      && 15 <= |lls| <= 30
      && GetScore(o, rand, sqrt, text).value.diff == LogLikelihood(o, text).value - Mean(lls)
  {
  }

  /** For a text of more than 10 words the result is `Normalise` of the
      original log-likelihood and the perturbed ones: `std` is their
      population deviation and `score` is `diff / (std + 1e-10)`. */
  lemma GetScoreIsNormalised(o: Oracle, rand: RandInt, sqrt: Sqrt, text: string)
    requires |Split(text)| > ShortText
    requires GetScore(o, rand, sqrt, text).Ok?
    ensures LikelihoodsOf(o, PerturbedTexts(Split(text), rand)).Ok?
    ensures GetScore(o, rand, sqrt, text).value ==
      Normalise(LogLikelihood(o, text).value, LikelihoodsOf(o, PerturbedTexts(Split(text), rand)).value, sqrt)
  {
  }

  function Shift(xs: seq<real>, c: real): (ys: seq<real>)
    ensures |ys| == |xs|
    ensures forall i :: 0 <= i < |xs| ==> ys[i] == xs[i] + c
  {
    seq(|xs|, i requires 0 <= i < |xs| => xs[i] + c)
  }

  lemma {:induction false} SumShift(xs: seq<real>, c: real)
    ensures Sum(Shift(xs, c)) == Sum(xs) + (|xs| as real) * c
  {
    if |xs| > 0 {
      SumShift(xs[1..], c);
      assert Shift(xs, c)[1..] == Shift(xs[1..], c);
    }
  }

  lemma MeanShift(xs: seq<real>, c: real)
    requires |xs| > 0
    ensures Mean(Shift(xs, c)) == Mean(xs) + c
  {
    var n := |xs| as real;
    SumShift(xs, c);
    assert Sum(Shift(xs, c)) / n == Sum(xs) / n + (n * c) / n;
  }

  lemma VarianceShift(xs: seq<real>, c: real)
    requires |xs| > 0
    ensures Variance(Shift(xs, c)) == Variance(xs)
  {
    MeanShift(xs, c);
    var m := Mean(xs);
    forall i | 0 <= i < |xs|
      ensures SquaredDeviations(Shift(xs, c), m + c)[i] == SquaredDeviations(xs, m)[i]
    {
      assert Shift(xs, c)[i] - (m + c) == xs[i] - m;
    }
    assert SquaredDeviations(Shift(xs, c), m + c) == SquaredDeviations(xs, m);
  }

  /** The statistic depends only on likelihood differences: adding the same
      constant to the original and to every perturbed log-likelihood leaves
      `score`, `diff` and `std` unchanged. */
  lemma NormaliseShiftInvariant(ll: real, lls: seq<real>, c: real, sqrt: Sqrt)
    requires |lls| > 0
    ensures Normalise(ll + c, Shift(lls, c), sqrt) == Normalise(ll, lls, sqrt)
  {
    MeanShift(lls, c);
    VarianceShift(lls, c);
    var a := Normalise(ll + c, Shift(lls, c), sqrt);
    var b := Normalise(ll, lls, sqrt);
    assert a.diff == b.diff;
    assert a.std == b.std;
    assert a.score == a.diff / (a.std + Epsilon);
  }
}

=== FILE: sentences.dfy ===
/** The sentence-level detection route: each sentence is typed "ai", "human"
    or "unknown", using the detection service's reply when it is usable and
    the keyword heuristic `analyzeSentenceHeuristic` otherwise. */
module SentenceDetection {
  import opened Outcomes
  import opened Seqs
  import opened Text

  /** A trimmed, non-blank piece of the text, with the facts the route's
      regular expressions establish about it. */
  datatype Sentence = Sentence(
    text: string,
    words: nat,            // `sentence.split(/\s+/).length`
    punctuationOnly: bool, // matches `^[.!?\s]+$`
    pronoun: bool,         // contains the word i, me, my, we, us or our
    casual: bool,          // contains like, kinda, sorta, lol, tbh, imo, actually or basically
    technical: bool)       // contains technology, artificial intelligence, demonstrates, ...

  /** What the detection service answered for one sentence, when the call
      returned an ok response. `methodName` is the reply's `method` key (a
      Dafny keyword). */
  datatype Reply = Reply(aiLikelihood: int, score: real, methodName: string, confidence: string)

  datatype Kind = Ai | Human | Unknown

  /** Where a sentence's percentage came from. */
  datatype Source = TooShort | Service(score: real) | Heuristic

  datatype Analyzed = Analyzed(text: string, aiLikelihood: int, kind: Kind, confidence: string, source: Source)

  const MinWords: nat := 5
  const MaxServiceWords: nat := 150

  const AiMarkers: seq<string> := [
    "it is important to note", "furthermore", "moreover", "in conclusion", "delve into",
    "dive into", "intricate", "multifaceted", "comprehensive", "crucial", "essential",
    "fundamental", "paramount", "demonstrates", "illustrates", "exemplifies", "highlighting",
    "showcases", "reimagined", "breakthrough", "innovative"]

  const FormalWords: seq<string> := [
    "utilize", "facilitate", "implement", "leverage", "paradigm", "synergy",
    "demonstrates", "showcases", "enhances", "optimizes", "transforms",
    "alongside", "reimagined", "breakthrough", "innovations"]

  /** `s.includes(pattern)` */
  predicate Contains(s: string, pattern: string)
    decreases |s|
  {
    if |s| < |pattern| then false
    else s[..|pattern|] == pattern || Contains(s[1..], pattern)
  }

  /** `pattern` occurs in `s` starting at index `i`. */
  predicate OccursAt(s: string, pattern: string, i: nat)
  {
    i + |pattern| <= |s| && s[i..i + |pattern|] == pattern
  }

  lemma {:induction false} ContainsAt(s: string, pattern: string, i: nat)
    requires OccursAt(s, pattern, i)
    ensures Contains(s, pattern)
    decreases i
  {
    if i > 0 {
      assert s[1..][i - 1..i - 1 + |pattern|] == s[i..i + |pattern|];
      ContainsAt(s[1..], pattern, i - 1);
    }
  }

  /** Conversely, `includes` finds an actual occurrence. */
  lemma {:induction false} ContainsWitness(s: string, pattern: string)
    requires Contains(s, pattern)
    ensures exists i: nat :: OccursAt(s, pattern, i)
    decreases |s|
  {
    if s[..|pattern|] != pattern {
      ContainsWitness(s[1..], pattern);
      var i: nat :| OccursAt(s[1..], pattern, i);
      assert s[i + 1..i + 1 + |pattern|] == s[1..][i..i + |pattern|];
      assert OccursAt(s, pattern, i + 1);
    } else {
      assert OccursAt(s, pattern, 0);
    }
  }

  /** How many of `patterns` occur in `s`. */
  function Hits(s: string, patterns: seq<string>): (n: nat)
    ensures n <= |patterns|
  {
    if |patterns| == 0 then 0
    else (if Contains(s, patterns[0]) then 1 else 0) + Hits(s, patterns[1..])
  }

  /** A sentence gets some bonus from a list exactly when one of its
      patterns occurs in it. */
  lemma {:induction false} HitsPositive(s: string, patterns: seq<string>)
    ensures Hits(s, patterns) > 0 <==> exists i :: 0 <= i < |patterns| && Contains(s, patterns[i])
  {
    if |patterns| > 0 {
      HitsPositive(s, patterns[1..]);
      if Hits(s, patterns[1..]) > 0 {
        var i :| 0 <= i < |patterns[1..]| && Contains(s, patterns[1..][i]);
        assert Contains(s, patterns[i + 1]);
      }
      if exists i :: 0 <= i < |patterns| && Contains(s, patterns[i]) {
        var i :| 0 <= i < |patterns| && Contains(s, patterns[i]);
        if i > 0 {
          assert Contains(s, patterns[1..][i - 1]);
        }
      }
    }
  }

  function Bonus(b: bool, points: int): int
  {
    if b then points else 0
  }

  /** The heuristic's score before the final clamp: 40 plus bonuses. */
  function HeuristicRaw(s: Sentence): (raw: int)
    ensures raw >= 40
  {
    var lower := ToLower(s.text);
    40 + 12 * Hits(lower, AiMarkers)
    + Bonus(s.words > 20, 8) + Bonus(s.words > 30, 12)
    + 8 * Hits(lower, FormalWords)
    + Bonus(!s.pronoun, 10)
    + Bonus(s.words > 15 && !s.casual, 8)
    + Bonus(s.technical, 10)
  }

  /** `analyzeSentenceHeuristic`: `Math.min(Math.max(raw, 30), 95)`. */
  function HeuristicScore(s: Sentence): (score: int)
    ensures 40 <= score <= 95
    ensures !s.pronoun ==> score >= 50
  {
    Min(Max(HeuristicRaw(s), 30), 95)
  }

  /** The score only ever grows from 40, so it lies in [40, 95] and the lower
      clamp at 30 never applies; a sentence without a first-person pronoun
      scores at least 50. */
  lemma HeuristicRange(s: Sentence)
    ensures 40 <= HeuristicScore(s) <= 95
    ensures HeuristicScore(s) == Min(HeuristicRaw(s), 95)
    ensures !s.pronoun ==> HeuristicScore(s) >= 50
  {
  }

  /** Whether a reply may be used: not the service's error fallback and not
      its neutral 50 % at score 0. */
  predicate Usable(r: Reply)
  {
    !(r.methodName == "Error Fallback" || (r.aiLikelihood == 50 && r.score == 0.0))
  }

  function KindOf(aiLikelihood: int): (k: Kind)
    ensures k != Unknown
    ensures k == Ai <==> aiLikelihood >= 50
  {
    if aiLikelihood >= 50 then Ai else Human
  }

  /** One iteration of the loop for a sentence that is not punctuation only.
      `service` is the detection service's reply, `None` when the call threw
      or returned an error status. */
  function Classify(s: Sentence, service: string -> Option<Reply>): (a: Analyzed)
    ensures a.text == s.text
    ensures a.kind == Unknown <==> s.words < MinWords
    ensures a.kind == Unknown ==> a.aiLikelihood == 50 && a.confidence == "low" && a.source == TooShort
    ensures a.source == TooShort <==> s.words < MinWords
    ensures a.kind != Unknown ==> (a.kind == Ai <==> a.aiLikelihood >= 50)
    ensures a.source.Service? <==>
      MinWords <= s.words <= MaxServiceWords && service(s.text).Some? && Usable(service(s.text).value)
    ensures a.source.Service? ==>
      a.aiLikelihood == service(s.text).value.aiLikelihood && a.source.score == service(s.text).value.score
      && a.confidence == ToLower(service(s.text).value.confidence)
    ensures a.source.Heuristic? ==>
      a.aiLikelihood == HeuristicScore(s) && a.confidence == "medium" && 40 <= a.aiLikelihood <= 95
  {
    if s.words < MinWords then Analyzed(s.text, 50, Unknown, "low", TooShort)
    else if s.words <= MaxServiceWords && service(s.text).Some? && Usable(service(s.text).value) then
      var r := service(s.text).value;
      Analyzed(s.text, r.aiLikelihood, KindOf(r.aiLikelihood), ToLower(r.confidence), Service(r.score))
    else
      HeuristicRange(s);
      var h := HeuristicScore(s);
      Analyzed(s.text, h, KindOf(h), "medium", Heuristic)
  }

  predicate Kept(s: Sentence)
  {
    !s.punctuationOnly
  }

  predicate IsAi(a: Analyzed) { a.kind == Ai }
  predicate IsHuman(a: Analyzed) { a.kind == Human }
  predicate IsUnknown(a: Analyzed) { a.kind == Unknown }

  /** One loop iteration as a function of the sentence. */
  function ClassifyWith(service: string -> Option<Reply>): Sentence -> Analyzed
  {
    (s: Sentence) => Classify(s, service)
  }

  /** `analyzedSentences`: the loop over the sentences, skipping
      punctuation-only pieces with `continue`. */
  function ClassifyAll(ss: seq<Sentence>, service: string -> Option<Reply>): (as_: seq<Analyzed>)
    ensures |as_| == Count(ss, Kept)
  {
    if |ss| == 0 then []
    else if Kept(ss[0]) then [Classify(ss[0], service)] + ClassifyAll(ss[1..], service)
    else ClassifyAll(ss[1..], service)
  }

  /** The loop classifies exactly the sentences that are not punctuation
      only, each once and in order: it is the filter followed by the map. */
  lemma {:induction false} ClassifyAllIsFilterThenClassify(ss: seq<Sentence>, service: string -> Option<Reply>)
    ensures ClassifyAll(ss, service) == Map(Filter(ss, Kept), ClassifyWith(service))
  {
    if |ss| > 0 {
      ClassifyAllIsFilterThenClassify(ss[1..], service);
      var rest := Filter(ss[1..], Kept);
      if Kept(ss[0]) {
        assert Filter(ss, Kept) == [ss[0]] + rest;
        MapCons(ss[0], rest, ClassifyWith(service));
      } else {
        assert Filter(ss, Kept) == rest;
      }
    }
  }

  /** Hence every analysed sentence is the classification of a kept
      sentence, and every kept sentence is classified. */
  lemma ClassifiedSentences(ss: seq<Sentence>, service: string -> Option<Reply>)
    ensures forall a :: a in ClassifyAll(ss, service) ==> exists s :: s in ss && Kept(s) && a == Classify(s, service)
    ensures forall s :: s in ss && Kept(s) ==> Classify(s, service) in ClassifyAll(ss, service)
  {
    ClassifyAllIsFilterThenClassify(ss, service);
    var kept := Filter(ss, Kept);
    var as_ := ClassifyAll(ss, service);
    forall a | a in as_
      ensures exists s :: s in ss && Kept(s) && a == Classify(s, service)
    {
      var i :| 0 <= i < |as_| && as_[i] == a;
      assert kept[i] in ss && Kept(kept[i]);
    }
    forall s | s in ss && Kept(s)
      ensures Classify(s, service) in as_
    {
      var i :| 0 <= i < |kept| && kept[i] == s;
      assert as_[i] == Classify(s, service);
    }
  }

  /** The counts of the response. */
  datatype Totals = Totals(totalSentences: nat, aiSentences: nat, humanSentences: nat)

  function Tally(as_: seq<Analyzed>): (t: Totals)
    ensures t.totalSentences == |as_|
    ensures t.aiSentences + t.humanSentences + Count(as_, IsUnknown) == t.totalSentences
  {
    CountPartition3(as_, IsAi, IsHuman, IsUnknown);
    Totals(|as_|, Count(as_, IsAi), Count(as_, IsHuman))
  }

  /** Every analysed sentence is counted once: as "ai", as "human" or as an
      unknown short sentence. */
  lemma TallyPartitions(as_: seq<Analyzed>)
    ensures Tally(as_).aiSentences + Tally(as_).humanSentences + Count(as_, IsUnknown)
         == Tally(as_).totalSentences
  {
    CountPartition3(as_, IsAi, IsHuman, IsUnknown);
  }
}

=== FILE: seqs.dfy ===
/** Sequence and number helpers shared by the route handlers and the scorer:
    sums and means over reals, `Array.prototype.filter` and its length,
    prefixes (`slice(0, n)`), distinct-value counts (`new Set(...).size`), and
    the rounding functions of JavaScript (`Math.round`, `Math.ceil`). */
module Seqs {
  import opened Outcomes

  function Min(a: int, b: int): (r: int)
    ensures r <= a && r <= b && (r == a || r == b)
  {
    if a <= b then a else b
  }

  function Max(a: int, b: int): (r: int)
    ensures r >= a && r >= b && (r == a || r == b)
  {
    if a >= b then a else b
  }

  /** Left-to-right sum, as Python's `sum` and JavaScript's `reduce((a, b) => a + b, 0)`. */
  function Sum(xs: seq<real>): real
  {
    if |xs| == 0 then 0.0 else xs[0] + Sum(xs[1..])
  }

  /** Arithmetic mean of a non-empty sample (`np.mean`, `sum / length`). */
  function Mean(xs: seq<real>): real
    requires |xs| > 0
  {
    Sum(xs) / (|xs| as real)
  }

  lemma {:induction false} SumBounds(xs: seq<real>, lo: real, hi: real)
    requires forall i :: 0 <= i < |xs| ==> lo <= xs[i] <= hi
    ensures lo * (|xs| as real) <= Sum(xs) <= hi * (|xs| as real)
  {
    if |xs| > 0 {
      SumBounds(xs[1..], lo, hi);
      var n := (|xs| - 1) as real;
      assert lo * (n + 1.0) == lo * n + lo;
      assert hi * (n + 1.0) == hi * n + hi;
    }
  }

  /** A mean lies between any bounds of its sample. */
  lemma MeanBounds(xs: seq<real>, lo: real, hi: real)
    requires |xs| > 0
    requires forall i :: 0 <= i < |xs| ==> lo <= xs[i] <= hi
    ensures lo <= Mean(xs) <= hi
  {
    SumBounds(xs, lo, hi);
    var n := |xs| as real;
    assert Sum(xs) / n >= lo by {
      assert lo * n <= Sum(xs);
    }
    assert Sum(xs) / n <= hi by {
      assert Sum(xs) <= hi * n;
    }
  }

  /** A sample of strictly positive values has a strictly positive sum. */
  lemma {:induction false} SumPositive(xs: seq<real>)
    requires |xs| > 0
    requires forall i :: 0 <= i < |xs| ==> xs[i] > 0.0
    ensures Sum(xs) > 0.0
  {
    if |xs| > 1 {
      SumPositive(xs[1..]);
    }
  }

  lemma MeanPositive(xs: seq<real>)
    requires |xs| > 0
    requires forall i :: 0 <= i < |xs| ==> xs[i] > 0.0
    ensures Mean(xs) > 0.0
  {
    SumPositive(xs);
  }

  /** `xs.filter(p)`: the elements satisfying `p`, in order. */
  function Filter<T>(xs: seq<T>, p: T -> bool): (ys: seq<T>)
    ensures |ys| <= |xs|
    ensures forall i :: 0 <= i < |ys| ==> p(ys[i])
    ensures forall y :: y in ys ==> y in xs
    ensures forall i :: 0 <= i < |xs| && p(xs[i]) ==> xs[i] in ys
  {
    if |xs| == 0 then []
    else (if p(xs[0]) then [xs[0]] else []) + Filter(xs[1..], p)
  }

  /** `xs.filter(p).length` */
  function Count<T>(xs: seq<T>, p: T -> bool): nat
  {
    |Filter(xs, p)|
  }

  /** A filter that accepts every element keeps the sequence. */
  lemma {:induction false} FilterAll<T>(xs: seq<T>, p: T -> bool)
    requires forall i :: 0 <= i < |xs| ==> p(xs[i])
    ensures Filter(xs, p) == xs
  {
    if |xs| > 0 {
      FilterAll(xs[1..], p);
    }
  }

  /** Filtering distributes over appending one element. */
  lemma {:induction false} FilterAppendOne<T>(xs: seq<T>, v: T, p: T -> bool)
    ensures Filter(xs + [v], p) == Filter(xs, p) + (if p(v) then [v] else [])
    decreases |xs|
  {
    if |xs| > 0 {
      assert (xs + [v])[1..] == xs[1..] + [v];
      FilterAppendOne(xs[1..], v, p);
    } else {
      assert xs + [v] == [v];
    }
  }

  /** `xs.map(f)` */
  function Map<T, U>(xs: seq<T>, f: T -> U): (ys: seq<U>)
    ensures |ys| == |xs|
    ensures forall i :: 0 <= i < |xs| ==> ys[i] == f(xs[i])
  {
    seq(|xs|, i requires 0 <= i < |xs| => f(xs[i]))
  }

  /** Mapping distributes over putting one element in front. */
  lemma MapCons<T, U>(x: T, xs: seq<T>, f: T -> U)
    ensures Map([x] + xs, f) == [f(x)] + Map(xs, f)
  {
    assert Map([x] + xs, f)[0] == f(x);
    assert forall i :: 1 <= i <= |xs| ==> Map([x] + xs, f)[i] == Map(xs, f)[i - 1];
  }

  /** A stronger filter keeps no more elements than a weaker one. */
  lemma {:induction false} CountMonotone<T>(xs: seq<T>, p: T -> bool, q: T -> bool)
    requires forall i :: 0 <= i < |xs| && p(xs[i]) ==> q(xs[i])
    ensures Count(xs, p) <= Count(xs, q)
  {
    if |xs| > 0 {
      CountMonotone(xs[1..], p, q);
    }
  }

  /** Two filters that never accept the same element together keep at most
      every element once. */
  lemma {:induction false} CountDisjoint<T>(xs: seq<T>, p: T -> bool, q: T -> bool)
    requires forall i :: 0 <= i < |xs| ==> !(p(xs[i]) && q(xs[i]))
    ensures Count(xs, p) + Count(xs, q) <= |xs|
  {
    if |xs| > 0 {
      CountDisjoint(xs[1..], p, q);
    }
  }

  /** A filter and its complement split the sequence. */
  lemma {:induction false} CountComplement<T>(xs: seq<T>, p: T -> bool, q: T -> bool)
    requires forall i :: 0 <= i < |xs| ==> (q(xs[i]) <==> !p(xs[i]))
    ensures Count(xs, p) + Count(xs, q) == |xs|
  {
    if |xs| > 0 {
      CountComplement(xs[1..], p, q);
    }
  }

  /** Three pairwise exclusive, jointly exhaustive filters split the sequence. */
  lemma {:induction false} CountPartition3<T>(xs: seq<T>, p: T -> bool, q: T -> bool, r: T -> bool)
    requires forall i :: 0 <= i < |xs| ==>
      (p(xs[i]) || q(xs[i]) || r(xs[i])) && !(p(xs[i]) && q(xs[i])) && !(p(xs[i]) && r(xs[i])) && !(q(xs[i]) && r(xs[i]))
    ensures Count(xs, p) + Count(xs, q) + Count(xs, r) == |xs|
  {
    if |xs| > 0 {
      CountPartition3(xs[1..], p, q, r);
    }
  }

  /** Three pairwise exclusive filters whose union is a fourth split what
      the fourth keeps. */
  lemma {:induction false} CountSplit3<T>(xs: seq<T>, p: T -> bool, q: T -> bool, r: T -> bool, h: T -> bool)
    requires forall i :: 0 <= i < |xs| ==>
      (h(xs[i]) <==> p(xs[i]) || q(xs[i]) || r(xs[i])) && !(p(xs[i]) && q(xs[i])) && !(p(xs[i]) && r(xs[i])) && !(q(xs[i]) && r(xs[i]))
    ensures Count(xs, p) + Count(xs, q) + Count(xs, r) == Count(xs, h)
  {
    if |xs| > 0 {
      CountSplit3(xs[1..], p, q, r, h);
    }
  }

  /** Counting over a mapped sequence is counting the originals by the
      composed test. */
  lemma {:induction false} CountMap<T, U>(xs: seq<T>, f: T -> U, p: U -> bool, q: T -> bool)
    requires forall i :: 0 <= i < |xs| ==> (p(f(xs[i])) <==> q(xs[i]))
    ensures Count(Map(xs, f), p) == Count(xs, q)
  {
    if |xs| > 0 {
      CountMap(xs[1..], f, p, q);
      assert Map(xs, f)[1..] == Map(xs[1..], f);
    }
  }

  /** `xs.slice(0, n)` */
  function Take<T>(xs: seq<T>, n: nat): (ys: seq<T>)
    ensures |ys| == Min(n, |xs|)
    ensures ys == xs[..|ys|]
  {
    if |xs| <= n then xs else xs[..n]
  }

  /** The values of a sequence as a set (`new Set(xs)`). */
  function Distinct<T>(xs: seq<T>): set<T>
  {
    set x | x in xs
  }

  lemma {:induction false} DistinctAtMostLength<T>(xs: seq<T>)
    ensures |Distinct(xs)| <= |xs|
  {
    if |xs| > 0 {
      DistinctAtMostLength(xs[1..]);
      assert Distinct(xs) == {xs[0]} + Distinct(xs[1..]);
    }
  }

  /** JavaScript's `Math.round`: halves round towards positive infinity. */
  function RoundHalfUp(x: real): (r: int)
    ensures x - 0.5 < r as real <= x + 0.5
  {
    (x + 0.5).Floor
  }

  /** `Math.ceil(a / b)` for integers and a positive divisor. A negative
      quotient above -1 gives -0 in JavaScript, which compares equal to 0. */
  function CeilDiv(a: int, b: int): (r: int)
    requires b > 0
    ensures (r - 1) * b < a <= r * b
  {
    var q := (-a) / b;
    var m := (-a) % b;
    assert -a == q * b + m && 0 <= m < b;
    -q
  }

  lemma MulCancelLess(x: int, y: int, b: int)
    requires b > 0 && x * b < y * b
    ensures x < y
  {
    assert (y - x) * b == y * b - x * b;
  }

  /** `CeilDiv` is the only integer with its defining bounds. */
  lemma CeilDivUnique(a: int, b: int, r: int)
    requires b > 0
    requires (r - 1) * b < a <= r * b
    ensures r == CeilDiv(a, b)
  {
    var c := CeilDiv(a, b);
    MulCancelLess(c - 1, r, b);
    MulCancelLess(r - 1, c, b);
  }

  /** The present values of `f` over `xs`, in order: an element whose `f`
      is absent is skipped (a `try`/`continue` loop that appends on success). */
  function Successes<T, U>(xs: seq<T>, f: T -> Option<U>): (ys: seq<U>)
    ensures |ys| == Count(xs, x => f(x).Some?)
    ensures (forall i :: 0 <= i < |xs| ==> f(xs[i]).Some?) ==>
      |ys| == |xs| && forall i :: 0 <= i < |xs| ==> ys[i] == f(xs[i]).value
  {
    if |xs| == 0 then []
    else
      var rest := Successes(xs[1..], f);
      assert forall i :: 1 <= i < |xs| ==> xs[1..][i - 1] == xs[i];
      if f(xs[0]).Some? then
        [f(xs[0]).value] + rest
      else rest
  }

  /** Every kept value is the value of some element. */
  lemma {:induction false} SuccessesFromElements<T, U>(xs: seq<T>, f: T -> Option<U>, j: nat)
    requires j < |Successes(xs, f)|
    ensures exists i :: 0 <= i < |xs| && f(xs[i]) == Some(Successes(xs, f)[j])
    decreases |xs|
  {
    var rest := Successes(xs[1..], f);
    if f(xs[0]).Some? {
      assert Successes(xs, f) == [f(xs[0]).value] + rest;
      if j == 0 {
        assert f(xs[0]) == Some(Successes(xs, f)[j]);
      } else {
        SuccessesFromElements(xs[1..], f, j - 1);
        var k :| 0 <= k < |xs[1..]| && f(xs[1..][k]) == Some(rest[j - 1]);
        assert f(xs[k + 1]) == Some(Successes(xs, f)[j]);
      }
    } else {
      assert Successes(xs, f) == rest;
      SuccessesFromElements(xs[1..], f, j);
      var k :| 0 <= k < |xs[1..]| && f(xs[1..][k]) == Some(rest[j]);
      assert f(xs[k + 1]) == Some(Successes(xs, f)[j]);
    }
  }

  /** Every element whose value is present contributes it. */
  lemma {:induction false} ElementsInSuccesses<T, U>(xs: seq<T>, f: T -> Option<U>, i: nat)
    requires i < |xs| && f(xs[i]).Some?
    ensures f(xs[i]).value in Successes(xs, f)
    decreases |xs|
  {
    if i > 0 {
      ElementsInSuccesses(xs[1..], f, i - 1);
      assert xs[1..][i - 1] == xs[i];
    }
  }

  /** The loop view: scoring one more element appends its value when it is
      present and nothing otherwise. */
  lemma {:induction false} SuccessesAppendOne<T, U>(xs: seq<T>, x: T, f: T -> Option<U>)
    ensures Successes(xs + [x], f) ==
      Successes(xs, f) + (if f(x).Some? then [f(x).value] else [])
    decreases |xs|
  {
    if |xs| == 0 {
      assert xs + [x] == [x];
    } else {
      assert (xs + [x])[1..] == xs[1..] + [x];
      SuccessesAppendOne(xs[1..], x, f);
    }
  }

  /** When the last element's value is present, it is the last value kept. */
  lemma SuccessesLast<T, U>(xs: seq<T>, f: T -> Option<U>)
    requires |xs| > 0 && f(xs[|xs| - 1]).Some?
    ensures var ys := Successes(xs, f);
      |ys| > 0 && ys[|ys| - 1] == f(xs[|xs| - 1]).value
  {
    var n := |xs| - 1;
    assert xs == xs[..n] + [xs[n]];
    SuccessesAppendOne(xs[..n], xs[n], f);
  }

  /** The elements of a sequence of sequences, in order. */
  function Flatten<T>(xss: seq<seq<T>>): seq<T>
  {
    if |xss| == 0 then [] else xss[0] + Flatten(xss[1..])
  }
}

=== FILE: sorting.dfy ===
/** `Array.prototype.sort` with a numeric comparator, which is stable: the
    elements are ordered by a key, largest first, and elements with equal keys
    keep their original relative order. An ascending sort (`a.x - b.x`) is the
    descending sort on the negated key. */
module Sorting {
  import opened Seqs

  predicate SortedDesc<T>(xs: seq<T>, key: T -> real)
  {
    forall i, j :: 0 <= i < j < |xs| ==> key(xs[i]) >= key(xs[j])
  }

  /** The elements of `xs` whose key is `k`, in order. */
  function WithKey<T>(xs: seq<T>, key: T -> real, k: real): (ys: seq<T>)
  {
    if |xs| == 0 then []
    else (if key(xs[0]) == k then [xs[0]] else []) + WithKey(xs[1..], key, k)
  }

  lemma WithKeyCons<T>(x: T, ys: seq<T>, key: T -> real, k: real)
    ensures WithKey([x] + ys, key, k) == (if key(x) == k then [x] else []) + WithKey(ys, key, k)
  {
    assert ([x] + ys)[1..] == ys;
  }

  /** `x` placed before the first element whose key is not larger than its own. */
  function Insert<T>(x: T, ys: seq<T>, key: T -> real): (zs: seq<T>)
    ensures |zs| == |ys| + 1
    ensures multiset(zs) == multiset(ys) + multiset{x}
    ensures zs[0] == x || (|ys| > 0 && zs[0] == ys[0])
  {
    if |ys| == 0 || key(x) >= key(ys[0]) then [x] + ys
    else
      var rest := Insert(x, ys[1..], key);
      assert ys == [ys[0]] + ys[1..];
      [ys[0]] + rest
  }

  lemma {:induction false} InsertSorted<T>(x: T, ys: seq<T>, key: T -> real)
    requires SortedDesc(ys, key)
    ensures SortedDesc(Insert(x, ys, key), key)
  {
    if |ys| > 0 && key(x) < key(ys[0]) {
      var rest := Insert(x, ys[1..], key);
      InsertSorted(x, ys[1..], key);
      assert key(rest[0]) <= key(ys[0]);
      var zs := [ys[0]] + rest;
      forall i, j | 0 <= i < j < |zs|
        ensures key(zs[i]) >= key(zs[j])
      {
        if i == 0 {
          assert key(zs[j]) <= key(rest[0]);
        } else {
          assert zs[i] == rest[i - 1] && zs[j] == rest[j - 1];
        }
      }
    }
  }

  /** `xs.sort((a, b) => key(b) - key(a))` */
  function SortDesc<T>(xs: seq<T>, key: T -> real): (ys: seq<T>)
    ensures |ys| == |xs|
    ensures multiset(ys) == multiset(xs)
    ensures SortedDesc(ys, key)
  {
    if |xs| == 0 then []
    else
      assert xs == [xs[0]] + xs[1..];
      InsertSorted(xs[0], SortDesc(xs[1..], key), key);
      Insert(xs[0], SortDesc(xs[1..], key), key)
  }

  /** Inserting `x` puts it in front of every element with the same key. */
  lemma {:induction false} InsertKeepsTies<T>(x: T, ys: seq<T>, key: T -> real, k: real)
    ensures WithKey(Insert(x, ys, key), key, k) ==
      (if key(x) == k then [x] else []) + WithKey(ys, key, k)
  {
    if |ys| == 0 || key(x) >= key(ys[0]) {
      WithKeyCons(x, ys, key, k);
    } else {
      var rest := Insert(x, ys[1..], key);
      assert Insert(x, ys, key) == [ys[0]] + rest;
      assert ys == [ys[0]] + ys[1..];
      var a := if key(ys[0]) == k then [ys[0]] else [];
      var b := if key(x) == k then [x] else [];
      var w := WithKey(ys[1..], key, k);
      InsertKeepsTies(x, ys[1..], key, k);
      WithKeyCons(ys[0], rest, key, k);
      WithKeyCons(ys[0], ys[1..], key, k);
      // x and ys[0] have different keys here, so at most one of them is kept.
      SwapAroundEmpty(a, b, w);
    }
  }

  lemma SwapAroundEmpty<T>(a: seq<T>, b: seq<T>, w: seq<T>)
    requires a == [] || b == []
    ensures a + (b + w) == b + (a + w)
  {
    if a == [] {
      assert a + (b + w) == b + w;
      assert a + w == w;
    } else {
      assert b + w == w;
      assert b + (a + w) == a + w;
    }
  }

  /** Stability: for every key, the elements carrying it appear in the sorted
      sequence in the same order as in the input. */
  lemma {:induction false} SortDescStable<T>(xs: seq<T>, key: T -> real, k: real)
    ensures WithKey(SortDesc(xs, key), key, k) == WithKey(xs, key, k)
  {
    if |xs| > 0 {
      SortDescStable(xs[1..], key, k);
      InsertKeepsTies(xs[0], SortDesc(xs[1..], key), key, k);
      WithKeyCons(xs[0], xs[1..], key, k);
      assert xs == [xs[0]] + xs[1..];
    }
  }

  /** A sorted input is returned unchanged. */
  lemma {:induction false} SortDescOfSorted<T>(xs: seq<T>, key: T -> real)
    requires SortedDesc(xs, key)
    ensures SortDesc(xs, key) == xs
  {
    if |xs| > 0 {
      assert SortedDesc(xs[1..], key);
      SortDescOfSorted(xs[1..], key);
    }
  }

  /** Every element `sort(...).slice(0, n)` keeps comes from the input. */
  lemma TopKMembers<T>(xs: seq<T>, key: T -> real, n: nat)
    ensures forall y :: y in Take(SortDesc(xs, key), n) ==> y in xs
  {
    var top := Take(SortDesc(xs, key), n);
    TopK(xs, key, n);
    forall y | y in top
      ensures y in xs
    {
      assert y in multiset(top);
    }
  }

  /** `sort(...).slice(0, n)` keeps the `n` largest: the kept elements are
      taken from the input, in order, and none of the dropped ones has a
      larger key than a kept one. */
  lemma TopK<T>(xs: seq<T>, key: T -> real, n: nat)
    ensures var top := Take(SortDesc(xs, key), n);
      && |top| == Min(n, |xs|)
      && multiset(top) <= multiset(xs)
      && SortedDesc(top, key)
      && (|xs| <= n ==> multiset(top) == multiset(xs))
      && forall y, x :: y in top && x in multiset(xs) - multiset(top) ==> key(y) >= key(x)
  {
    var sorted := SortDesc(xs, key);
    var top := Take(sorted, n);
    var rest := sorted[|top|..];
    SplitSorted(sorted, |top|, key);
    assert sorted == top + rest;
    assert multiset(sorted) == multiset(top) + multiset(rest);
    assert multiset(xs) - multiset(top) == multiset(rest);
  }

  /** In a sorted sequence every element of a prefix dominates every
      element after it. */
  lemma SplitSorted<T>(sorted: seq<T>, k: nat, key: T -> real)
    requires SortedDesc(sorted, key) && k <= |sorted|
    ensures SortedDesc(sorted[..k], key)
    ensures forall y, x :: y in sorted[..k] && x in multiset(sorted[k..]) ==> key(y) >= key(x)
  {
    forall y, x | y in sorted[..k] && x in multiset(sorted[k..])
      ensures key(y) >= key(x)
    {
      var j :| 0 <= j < |sorted[k..]| && sorted[k..][j] == x;
      var i :| 0 <= i < k && sorted[..k][i] == y;
      assert sorted[i] == y && sorted[k + j] == x;
    }
  }
}

=== FILE: statistics.dfy ===
/** The summary figures the dashboard and analytics routes compute the same
    way: averages over strictly positive scores, percentages of a count, and
    rounded averages capped at 100. */
module Statistics {
  import opened Seqs

  predicate Positive(x: real) { x > 0.0 }

  predicate SomePositive(xs: seq<real>)
  {
    exists i :: 0 <= i < |xs| && xs[i] > 0.0
  }

  /** `scores.filter(x => x > 0)`, averaged, or 0 when nothing is left. */
  function PositiveMean(xs: seq<real>): (m: real)
    ensures m >= 0.0
    ensures m > 0.0 <==> SomePositive(xs)
  {
    var ps := Filter(xs, Positive);
    if |ps| > 0 then
      assert ps[0] in xs;
      MeanPositive(ps);
      Mean(ps)
    else
      0.0
  }

  /** The average lies below any upper bound of the scores. */
  lemma PositiveMeanAtMost(xs: seq<real>, hi: real)
    requires forall i :: 0 <= i < |xs| ==> xs[i] <= hi
    ensures PositiveMean(xs) <= hi || PositiveMean(xs) == 0.0
  {
    var ps := Filter(xs, Positive);
    if |ps| > 0 {
      assert forall i :: 0 <= i < |ps| ==> 0.0 <= ps[i] <= hi by {
        forall i | 0 <= i < |ps| ensures 0.0 <= ps[i] <= hi {
          assert ps[i] in xs;
        }
      }
      MeanBounds(ps, 0.0, hi);
    }
  }

  /** A zero or missing score does not move the average. */
  lemma PositiveMeanIgnoresNonPositive(xs: seq<real>, v: real)
    requires v <= 0.0
    ensures PositiveMean(xs + [v]) == PositiveMean(xs)
  {
    FilterAppendOne(xs, v, Positive);
    assert Filter(xs + [v], Positive) == Filter(xs, Positive);
  }

  /** When every score is positive the average is the plain mean. */
  lemma PositiveMeanOfPositives(xs: seq<real>)
    requires |xs| > 0
    requires forall i :: 0 <= i < |xs| ==> xs[i] > 0.0
    ensures PositiveMean(xs) == Mean(xs)
  {
    FilterAll(xs, Positive);
  }

  /** `whole > 0 ? Math.min(100, Math.round((part / whole) * 100)) : 0` */
  function Percentage(part: nat, whole: nat): (r: int)
    ensures whole == 0 ==> r == 0
    ensures r <= 100
    ensures part <= whole ==> 0 <= r
  {
    if whole > 0 then Min(100, RoundHalfUp((part as real / whole as real) * 100.0)) else 0
  }

  /** For a part of the whole, the cap never applies: the percentage is
      within one half of the exact ratio. */
  lemma PercentageIsRoundedRatio(part: nat, whole: nat)
    requires 0 < whole && part <= whole
    ensures var exact := (part as real / whole as real) * 100.0;
      exact - 0.5 < Percentage(part, whole) as real <= exact + 0.5
  {
    var q := part as real / whole as real;
    assert q <= 1.0 by {
      assert q * (whole as real) == part as real;
    }
  }

  /** A larger part never gives a smaller percentage. */
  lemma PercentageMonotone(a: nat, b: nat, whole: nat)
    requires a <= b
    ensures Percentage(a, whole) <= Percentage(b, whole)
  {
    if whole > 0 {
      var w := whole as real;
      assert a as real / w <= b as real / w;
      assert (a as real / w) * 100.0 <= (b as real / w) * 100.0;
    }
  }

  /** `xs.length > 0 ? Math.min(100, Math.round(sum / xs.length)) : 0` */
  function CappedRoundedMean(xs: seq<real>): (r: int)
    ensures |xs| == 0 ==> r == 0
    ensures r <= 100
  {
    if |xs| > 0 then Min(100, RoundHalfUp(Mean(xs))) else 0
  }

  /** For likelihoods on the 0-100 scale the cap never applies and the
      result is the mean rounded half up, itself within [0, 100]. */
  lemma CappedRoundedMeanOfPercentages(xs: seq<real>)
    requires |xs| > 0
    requires forall i :: 0 <= i < |xs| ==> 0.0 <= xs[i] <= 100.0
    ensures 0 <= CappedRoundedMean(xs) <= 100
    ensures Mean(xs) - 0.5 < CappedRoundedMean(xs) as real <= Mean(xs) + 0.5
  {
    MeanBounds(xs, 0.0, 100.0);
  }
}

=== FILE: student_dashboard.dfy ===
/** The student dashboard figures: recent submissions, upcoming and active
    assignments, completion and reflection counts, averages over positive
    scores, the AI-usage percentage and AI hours per week. Times are
    milliseconds since the epoch and `now` is a parameter. */
module StudentDashboard {
  import opened Outcomes
  import opened Seqs
  import opened Sorting
  import opened Statistics

  const DayMs: int := 86400000
  const WeekMs: int := 7 * DayMs
  /** Submissions newer than six weeks are "recent". */
  const RecentWindowMs: int := 42 * DayMs
  /** Both lists are cut to six entries. */
  const ListLength: nat := 6
  /** The last-resort assignment query takes at most this many. */
  const FallbackAssignments: nat := 20

  /** A submission with its assignment's title; `submissionDate` may be null. */
  datatype Submission = Submission(
    submissionId: string, assignmentId: string, title: string, status: string,
    finalScore: real, timeHours: real, submissionDate: Option<int>,
    creativityScore: real, usesAi: bool, aiAccessHours: real, hasReflection: bool)

  datatype Assignment = Assignment(
    assignmentId: string, title: string, kind: string, dueDate: int, aiAllowed: bool,
    year: int, major: string)

  datatype Stats = Stats(
    activeAssignments: nat, dueThisWeek: nat, completedAssignments: nat,
    avgCreativity: real, aiUsagePercent: int, totalAiHours: real, aiHoursPerWeek: real,
    reflectionsCount: nat, avgGrade: real, totalSubmissions: nat,
    recentSubmissions: seq<Submission>, upcomingAssignments: seq<Assignment>)

  /** The assignments shown to a student: those of their year and major,
      else those of their major, else the first 20 of all. */
  function ChooseAssignments(all: seq<Assignment>, year: int, major: string): (chosen: seq<Assignment>)
    ensures forall a :: a in chosen ==> a in all
    ensures |chosen| <= |all|
    ensures |chosen| > 0 <==> |all| > 0
    ensures (exists a :: a in all && a.year == year && a.major == major) ==>
      forall a :: a in all ==> (a in chosen <==> a.year == year && a.major == major)
    ensures (exists a :: a in all && a.major == major) ==> forall a :: a in chosen ==> a.major == major
    ensures !(exists a :: a in all && a.year == year && a.major == major) && (exists a :: a in all && a.major == major) ==>
      forall a :: a in all ==> (a in chosen <==> a.major == major)
    ensures !(exists a :: a in all && a.major == major) ==> chosen == all[..Min(|all|, FallbackAssignments)]
  {
    var exact := Filter(all, (a: Assignment) => a.year == year && a.major == major);
    var byMajor := Filter(all, (a: Assignment) => a.major == major);
    if |exact| > 0 then
      assert exact[0] in exact;
      exact
    else if |byMajor| > 0 then
      assert byMajor[0] in byMajor;
      byMajor
    else Take(all, FallbackAssignments)
  }

  function InWindow(now: int): Submission -> bool
  {
    (s: Submission) => s.submissionDate.Some? && s.submissionDate.value > now - RecentWindowMs
  }

  function DateKey(s: Submission): real
  {
    if s.submissionDate.Some? then s.submissionDate.value as real else 0.0
  }

  /** `recentSubmissions`, before the projection onto the response fields. */
  function Recent(submissions: seq<Submission>, now: int): (recent: seq<Submission>)
    ensures |recent| <= ListLength
    ensures forall s :: s in recent ==> s in submissions && InWindow(now)(s)
    ensures forall i, j :: 0 <= i < j < |recent| ==> DateKey(recent[i]) >= DateKey(recent[j])
  {
    TopKMembers(Filter(submissions, InWindow(now)), DateKey, ListLength);
    Take(SortDesc(Filter(submissions, InWindow(now)), DateKey), ListLength)
  }

  function Future(now: int): Assignment -> bool
  {
    (a: Assignment) => a.dueDate > now
  }

  function DueWithinWeek(now: int): Assignment -> bool
  {
    (a: Assignment) => now < a.dueDate <= now + WeekMs
  }

  /** Sorting soonest first is sorting by the negated due date, largest first. */
  function SoonestKey(a: Assignment): real
  {
    -(a.dueDate as real)
  }

  /** `upcomingAssignments`, before the projection onto the response fields. */
  function Upcoming(assignments: seq<Assignment>, now: int): (upcoming: seq<Assignment>)
    ensures |upcoming| <= ListLength
    ensures forall a :: a in upcoming ==> a in assignments && a.dueDate > now
    ensures forall i, j :: 0 <= i < j < |upcoming| ==> upcoming[i].dueDate <= upcoming[j].dueDate
  {
    TopKMembers(Filter(assignments, Future(now)), SoonestKey, ListLength);
    Take(SortDesc(Filter(assignments, Future(now)), SoonestKey), ListLength)
  }

  predicate IsCompleted(s: Submission)
  {
    s.status == "Submitted" || s.status == "Graded" || s.status == "completed"
  }

  predicate UsesAi(s: Submission) { s.usesAi }
  predicate HasReflection(s: Submission) { s.hasReflection }
  function Creativity(s: Submission): real { s.creativityScore }
  function Grade(s: Submission): real { s.finalScore }
  function AiHours(s: Submission): real { s.aiAccessHours }
  function DateOf(s: Submission): Option<int> { s.submissionDate }

  /** `Math.min(...xs)` of a non-empty list. */
  function MinOf(xs: seq<int>): (m: int)
    requires |xs| > 0
    ensures m in xs
    ensures forall i :: 0 <= i < |xs| ==> m <= xs[i]
  {
    if |xs| == 1 then xs[0] else Min(xs[0], MinOf(xs[1..]))
  }

  /** Whole weeks (rounded up, at least one) from the earliest dated
      submission to `now`, or `None` when no submission is dated. */
  function WeeksActive(submissions: seq<Submission>, now: int): (weeks: Option<int>)
    ensures weeks.Some? ==> weeks.value >= 1
    ensures weeks.Some? <==> exists i :: 0 <= i < |submissions| && submissions[i].submissionDate.Some?
  {
    var dated := Successes(submissions, DateOf);
    CountPositive(submissions, DateOf);
    if |dated| > 0 then Some(Max(1, CeilDiv(now - MinOf(dated), WeekMs))) else None
  }

  /** `Math.max(1, Math.ceil((now - earliest) / week))`: the weeks cover the
      time since every dated submission, and with more than one week the
      week before would not cover the earliest one. */
  lemma WeeksActiveIsElapsedWeeks(submissions: seq<Submission>, now: int)
    requires WeeksActive(submissions, now).Some?
    ensures var w := WeeksActive(submissions, now).value;
      forall i :: 0 <= i < |submissions| && submissions[i].submissionDate.Some? ==>
        now - submissions[i].submissionDate.value <= w * WeekMs
    ensures var w := WeeksActive(submissions, now).value;
      w == 1 || exists i :: DatedBeforeLastWeek(submissions, i, now, w)
  {
    var dated := Successes(submissions, DateOf);
    CountPositive(submissions, DateOf);
    var earliest := MinOf(dated);
    var w := WeeksActive(submissions, now).value;
    WeeksCoverElapsed(now - earliest, w);
    forall i | 0 <= i < |submissions| && submissions[i].submissionDate.Some?
      ensures now - submissions[i].submissionDate.value <= w * WeekMs
    {
      EarliestIsEarliest(submissions, i);
    }
    if w != 1 {
      var k :| 0 <= k < |dated| && dated[k] == earliest;
      SuccessesFromElements(submissions, DateOf, k);
      var i :| 0 <= i < |submissions| && DateOf(submissions[i]) == Some(dated[k]);
      assert DatedBeforeLastWeek(submissions, i, now, w);
    }
  }

  /** `Math.max(1, Math.ceil(elapsed / week))` weeks cover `elapsed`, and
      one week fewer would not unless it is the minimum of one. */
  lemma WeeksCoverElapsed(elapsed: int, w: int)
    requires w == Max(1, CeilDiv(elapsed, WeekMs))
    ensures elapsed <= w * WeekMs
    ensures w == 1 || (w - 1) * WeekMs < elapsed
  {
    var c := CeilDiv(elapsed, WeekMs);
    if c < 1 {
      assert c * WeekMs <= 1 * WeekMs;
    }
  }

  /** Submission `i` is dated more than `weeks - 1` weeks before `now`, so
      fewer than `weeks` weeks would not cover it. */
  predicate DatedBeforeLastWeek(submissions: seq<Submission>, i: int, now: int, weeks: int)
  {
    && 0 <= i < |submissions| && submissions[i].submissionDate.Some?
    && (weeks - 1) * WeekMs < now - submissions[i].submissionDate.value
  }

  /** No dated submission precedes the earliest date. */
  lemma EarliestIsEarliest(submissions: seq<Submission>, i: nat)
    requires i < |submissions| && submissions[i].submissionDate.Some?
    ensures var dated := Successes(submissions, DateOf);
      |dated| > 0 && MinOf(dated) <= submissions[i].submissionDate.value
  {
    assert DateOf(submissions[i]).Some?;
    ElementsInSuccesses(submissions, DateOf, i);
  }

  lemma {:induction false} CountPositive<T, U>(xs: seq<T>, f: T -> Option<U>)
    ensures Count(xs, x => f(x).Some?) > 0 <==> exists i :: 0 <= i < |xs| && f(xs[i]).Some?
  {
    if |xs| > 0 {
      CountPositive(xs[1..], f);
      if f(xs[0]).None? && exists i :: 0 <= i < |xs| && f(xs[i]).Some? {
        var i :| 0 <= i < |xs| && f(xs[i]).Some?;
        assert xs[1..][i - 1] == xs[i];
      }
    }
  }

  /** `aiHoursPerWeek` */
  function AiHoursPerWeek(submissions: seq<Submission>, now: int): (perWeek: real)
    ensures var total := Sum(Map(submissions, AiHours));
      (|submissions| == 0 || total <= 0.0 || WeeksActive(submissions, now).None?) ==> perWeek == 0.0
    ensures var total := Sum(Map(submissions, AiHours));
      (|submissions| > 0 && total > 0.0 && WeeksActive(submissions, now).Some?) ==>
        perWeek * (WeeksActive(submissions, now).value as real) == total && 0.0 < perWeek <= total
  {
    var hours := Map(submissions, AiHours);
    var total := Sum(hours);
    var weeks := WeeksActive(submissions, now);
    if |submissions| > 0 && total > 0.0 && weeks.Some? then PerWeek(total, weeks.value)
    else 0.0
  }

  /** A positive total spread over at least one week. */
  function PerWeek(total: real, weeks: int): (perWeek: real)
    requires total > 0.0 && weeks >= 1
    ensures perWeek * (weeks as real) == total && 0.0 < perWeek <= total
  {
    DivAtMost(total, weeks as real);
    total / (weeks as real)
  }

  /** Dividing a non-negative total by at least one never increases it. */
  lemma DivAtMost(t: real, w: real)
    requires t >= 0.0 && w >= 1.0
    ensures t / w * w == t && t / w <= t
    ensures t > 0.0 ==> t / w > 0.0
  {
    var q := t / w;
    assert q * w == t;
    if q < 0.0 {
      assert q * w < 0.0;
    }
    assert q * (w - 1.0) >= 0.0;
  }

  /** The route's response, apart from `studentId`, the enrolment count and
      the `toFixed` display rounding. `all` is every assignment, of which
      the student's year and major select the ones counted. */
  function Dashboard(submissions: seq<Submission>, all: seq<Assignment>, year: int, major: string, now: int): (st: Stats)
    ensures st.totalSubmissions == |submissions|
    ensures st.dueThisWeek <= st.activeAssignments <= |all|
    ensures st.completedAssignments <= st.totalSubmissions
    ensures st.reflectionsCount <= st.totalSubmissions
    ensures 0 <= st.aiUsagePercent <= 100
    ensures st.totalSubmissions == 0 ==> st.aiUsagePercent == 0 && st.aiHoursPerWeek == 0.0
    ensures st.avgCreativity >= 0.0 && (st.avgCreativity > 0.0 <==> SomePositive(Map(submissions, Creativity)))
    ensures st.avgGrade >= 0.0 && (st.avgGrade > 0.0 <==> SomePositive(Map(submissions, Grade)))
    ensures |st.recentSubmissions| <= ListLength && |st.upcomingAssignments| <= ListLength
    ensures forall a :: a in st.upcomingAssignments ==> a in all && a.dueDate > now
    ensures var assignments := ChooseAssignments(all, year, major);
      && st.activeAssignments == Count(assignments, Future(now))
      && st.dueThisWeek == Count(assignments, DueWithinWeek(now))
      && st.upcomingAssignments == Upcoming(assignments, now)
    ensures st.completedAssignments == Count(submissions, IsCompleted)
    ensures st.reflectionsCount == Count(submissions, HasReflection)
    ensures st.aiUsagePercent == Percentage(Count(submissions, UsesAi), |submissions|)
    ensures st.avgCreativity == PositiveMean(Map(submissions, Creativity))
    ensures st.avgGrade == PositiveMean(Map(submissions, Grade))
    ensures st.totalAiHours == Sum(Map(submissions, AiHours))
    ensures st.aiHoursPerWeek == AiHoursPerWeek(submissions, now)
    ensures st.recentSubmissions == Recent(submissions, now)
  {
    var assignments := ChooseAssignments(all, year, major);
    CountMonotone(assignments, DueWithinWeek(now), Future(now));
    UpcomingInFuture(assignments, now);
    Stats(
      Count(assignments, Future(now)),
      Count(assignments, DueWithinWeek(now)),
      Count(submissions, IsCompleted),
      PositiveMean(Map(submissions, Creativity)),
      Percentage(Count(submissions, UsesAi), |submissions|),
      Sum(Map(submissions, AiHours)),
      AiHoursPerWeek(submissions, now),
      Count(submissions, HasReflection),
      PositiveMean(Map(submissions, Grade)),
      |submissions|,
      Recent(submissions, now),
      Upcoming(assignments, now))
  }

  /** Recent submissions are submissions dated within the last six weeks,
      at most six of them: all of the window when it holds six or fewer. */
  lemma RecentInWindow(submissions: seq<Submission>, now: int)
    ensures |Recent(submissions, now)| == Min(ListLength, Count(submissions, InWindow(now)))
    ensures forall s :: s in Recent(submissions, now) ==>
      (s in submissions && s.submissionDate.Some? && s.submissionDate.value > now - RecentWindowMs)
  {
    var window := Filter(submissions, InWindow(now));
    TopK(window, DateKey, ListLength);
    var recent := Recent(submissions, now);
    forall s | s in recent
      ensures s in window
    {
      assert s in multiset(recent);
    }
  }

  /** Recent submissions come newest first. */
  lemma RecentNewestFirst(submissions: seq<Submission>, now: int)
    ensures var recent := Recent(submissions, now);
      forall i, j :: 0 <= i < j < |recent| ==>
        (recent[i].submissionDate.Some? && recent[j].submissionDate.Some?
         && recent[i].submissionDate.value >= recent[j].submissionDate.value)
  {
    var window := Filter(submissions, InWindow(now));
    TopK(window, DateKey, ListLength);
    RecentInWindow(submissions, now);
  }

  /** No submission of the window that was cut off is newer than one that
      was kept. */
  lemma RecentKeepsNewest(submissions: seq<Submission>, now: int)
    ensures var recent := Recent(submissions, now);
      var window := Filter(submissions, InWindow(now));
      forall s, t :: s in recent && t in multiset(window) - multiset(recent) ==>
        (s.submissionDate.Some? && t.submissionDate.Some?
         && s.submissionDate.value >= t.submissionDate.value)
  {
    var window := Filter(submissions, InWindow(now));
    var recent := Recent(submissions, now);
    TopK(window, DateKey, ListLength);
    RecentInWindow(submissions, now);
    forall t | t in multiset(window) - multiset(recent)
      ensures t in window
    {
    }
  }

  /** Upcoming assignments are due after `now`, at most six of them: all of
      the future ones when there are six or fewer. */
  lemma UpcomingInFuture(assignments: seq<Assignment>, now: int)
    ensures |Upcoming(assignments, now)| == Min(ListLength, Count(assignments, Future(now)))
    ensures forall a :: a in Upcoming(assignments, now) ==> a in assignments && a.dueDate > now
  {
    var future := Filter(assignments, Future(now));
    TopK(future, SoonestKey, ListLength);
    var upcoming := Upcoming(assignments, now);
    forall a | a in upcoming
      ensures a in future
    {
      assert a in multiset(upcoming);
    }
  }

  /** Upcoming assignments come soonest first, and none that was cut off is
      due sooner than one that was kept. */
  lemma UpcomingSoonestFirst(assignments: seq<Assignment>, now: int)
    ensures var upcoming := Upcoming(assignments, now);
      var future := Filter(assignments, Future(now));
      && (forall i, j :: 0 <= i < j < |upcoming| ==> upcoming[i].dueDate <= upcoming[j].dueDate)
      && (forall a, b :: a in upcoming && b in multiset(future) - multiset(upcoming) ==> a.dueDate <= b.dueDate)
  {
    var future := Filter(assignments, Future(now));
    TopK(future, SoonestKey, ListLength);
  }

  /** Every assignment due this week is active, and the number of active
      assignments is the number of future due dates however they are split
      at the one-week mark. */
  lemma DueThisWeekIsActive(assignments: seq<Assignment>, now: int)
    ensures Count(assignments, DueWithinWeek(now)) + Count(assignments, (a: Assignment) => a.dueDate > now + WeekMs)
         == Count(assignments, Future(now))
  {
    var later := (a: Assignment) => a.dueDate > now + WeekMs;
    var notFuture := (a: Assignment) => a.dueDate <= now;
    CountPartition3(assignments, DueWithinWeek(now), later, notFuture);
    CountComplement(assignments, Future(now), notFuture);
  }
}

=== FILE: subject_selector.dfy ===
/** The subject selector's state logic: toggling a subject in the selection,
    validating the selection before it is saved, and the department filter. */
module SubjectSelector {
  import opened Outcomes
  import opened Seqs
  import opened Text

  /** The component's defaults for `maxSubjects` and `minSubjects`. */
  const DefaultMaxSubjects: nat := 4
  const DefaultMinSubjects: nat := 1

  /** The department filter value that shows every subject. */
  const AllDepartments: string := "all"

  datatype Subject = Subject(id: string, department: string)

  /** The selection and the error message after a toggle (`""` for none). */
  datatype Selection = Selection(selected: seq<string>, error: string)

  function TooManyMessage(maxSubjects: nat): string
  {
    "You can only select up to " + NatToString(maxSubjects) + " subjects"
  }

  function TooFewMessage(minSubjects: nat): string
  {
    "Please select at least " + NatToString(minSubjects) + " subject(s)"
  }

  predicate NoDuplicates<T(==)>(xs: seq<T>)
  {
    forall i, j :: 0 <= i < j < |xs| ==> xs[i] != xs[j]
  }

  function Other(id: string): string -> bool
  {
    (x: string) => x != id
  }

  /** `handleSubjectToggle`: a selected id is removed, keeping the others in
      order; a new id is appended while there is room, and otherwise the
      selection stays as it is and the limit is reported. */
  function Toggle(prev: seq<string>, id: string, maxSubjects: nat): (r: Selection)
    ensures id in prev ==> r.selected == Filter(prev, Other(id)) && id !in r.selected && r.error == ""
    ensures id in prev ==> forall x :: x in r.selected <==> x in prev && x != id
    ensures id !in prev && |prev| < maxSubjects ==> r.selected == prev + [id] && r.error == ""
    ensures id !in prev && |prev| >= maxSubjects ==> r.selected == prev && r.error == TooManyMessage(maxSubjects)
  {
    if id in prev then Selection(Filter(prev, Other(id)), "")
    else if |prev| >= maxSubjects then Selection(prev, TooManyMessage(maxSubjects))
    else Selection(prev + [id], "")
  }

  lemma {:induction false} FilterKeepsNoDuplicates(xs: seq<string>, p: string -> bool)
    requires NoDuplicates(xs)
    ensures NoDuplicates(Filter(xs, p))
  {
    if |xs| > 0 {
      FilterKeepsNoDuplicates(xs[1..], p);
      assert NoDuplicates(xs[1..]);
      assert xs[0] !in xs[1..];
    }
  }

  /** Removing an id that occurs once shortens the selection by one. */
  lemma {:induction false} RemoveOnce(xs: seq<string>, id: string)
    requires NoDuplicates(xs) && id in xs
    ensures |Filter(xs, Other(id))| == |xs| - 1
  {
    if xs[0] == id {
      assert NoDuplicates(xs[1..]);
      assert forall i :: 0 <= i < |xs[1..]| ==> Other(id)(xs[1..][i]);
      FilterAll(xs[1..], Other(id));
    } else {
      assert NoDuplicates(xs[1..]);
      RemoveOnce(xs[1..], id);
    }
  }

  /** The invariant of the selection: duplicate-free and within the limit. */
  predicate Valid(selected: seq<string>, maxSubjects: nat)
  {
    NoDuplicates(selected) && |selected| <= maxSubjects
  }

  lemma ToggleKeepsValid(prev: seq<string>, id: string, maxSubjects: nat)
    requires Valid(prev, maxSubjects)
    ensures Valid(Toggle(prev, id, maxSubjects).selected, maxSubjects)
    ensures id in prev ==> |Toggle(prev, id, maxSubjects).selected| == |prev| - 1
  {
    if id in prev {
      FilterKeepsNoDuplicates(prev, Other(id));
      RemoveOnce(prev, id);
    }
  }

  /** A sequence of clicks, one toggle per id. */
  function ToggleAll(prev: seq<string>, clicks: seq<string>, maxSubjects: nat): (selected: seq<string>)
    decreases |clicks|
  {
    if |clicks| == 0 then prev
    else ToggleAll(Toggle(prev, clicks[0], maxSubjects).selected, clicks[1..], maxSubjects)
  }

  /** Whatever the clicks, a valid selection stays duplicate-free and within
      the limit. */
  lemma {:induction false} ToggleAllKeepsValid(prev: seq<string>, clicks: seq<string>, maxSubjects: nat)
    requires Valid(prev, maxSubjects)
    ensures Valid(ToggleAll(prev, clicks, maxSubjects), maxSubjects)
    decreases |clicks|
  {
    if |clicks| > 0 {
      ToggleKeepsValid(prev, clicks[0], maxSubjects);
      ToggleAllKeepsValid(Toggle(prev, clicks[0], maxSubjects).selected, clicks[1..], maxSubjects);
    }
  }

  /** Toggling a new id twice, with room for it, restores the selection. */
  lemma ToggleTwiceRestores(prev: seq<string>, id: string, maxSubjects: nat)
    requires id !in prev && |prev| < maxSubjects
    ensures Toggle(Toggle(prev, id, maxSubjects).selected, id, maxSubjects).selected == prev
  {
    FilterAppendOne(prev, id, Other(id));
    FilterAll(prev, Other(id));
  }

  /** `handleSave`'s checks: the error message that stops the save, or
      `None` when the selection may be sent. */
  function SaveError(selected: seq<string>, minSubjects: nat, maxSubjects: nat): (e: Option<string>)
    ensures e.None? <==> minSubjects <= |selected| <= maxSubjects
    ensures |selected| < minSubjects ==> e == Some(TooFewMessage(minSubjects))
    ensures minSubjects <= |selected| && |selected| > maxSubjects ==> e == Some(TooManyMessage(maxSubjects))
  {
    if |selected| < minSubjects then Some(TooFewMessage(minSubjects))
    else if |selected| > maxSubjects then Some(TooManyMessage(maxSubjects))
    else None
  }

  /** A selection built by clicking from a valid start never trips the upper
      check on save: it can be saved exactly when it is large enough. With
      the defaults that is one to four subjects. */
  lemma ToggledSelectionSaves(prev: seq<string>, clicks: seq<string>, minSubjects: nat, maxSubjects: nat)
    requires Valid(prev, maxSubjects)
    ensures var s := ToggleAll(prev, clicks, maxSubjects);
      SaveError(s, minSubjects, maxSubjects).None? <==> |s| >= minSubjects
  {
    ToggleAllKeepsValid(prev, clicks, maxSubjects);
  }

  function DepartmentIs(department: string): Subject -> bool
  {
    (s: Subject) => s.department == department
  }

  /** `filteredSubjects` */
  function Filtered(subjects: seq<Subject>, filter: string): (shown: seq<Subject>)
    ensures filter == AllDepartments ==> shown == subjects
    ensures filter != AllDepartments ==> forall s :: s in shown <==> s in subjects && s.department == filter
    ensures |shown| <= |subjects|
  {
    if filter == AllDepartments then subjects else Filter(subjects, DepartmentIs(filter))
  }

  /** `Array.from(new Set(xs))`: each value not already `seen` once, the
      first new value first. */
  function Dedup(xs: seq<string>, seen: set<string>): (ys: seq<string>)
    ensures NoDuplicates(ys)
    ensures forall y :: y in ys <==> y in xs && y !in seen
    ensures |xs| > 0 && xs[0] !in seen ==> |ys| > 0 && ys[0] == xs[0]
    decreases |xs|
  {
    if |xs| == 0 then []
    else if xs[0] in seen then Dedup(xs[1..], seen)
    else
      var rest := Dedup(xs[1..], seen + {xs[0]});
      assert xs[0] !in rest;
      assert forall y :: y in xs ==> y == xs[0] || y in xs[1..];
      [xs[0]] + rest
  }

  function DepartmentOf(s: Subject): string { s.department }

  /** The filter buttons: every department of the subjects, once each. */
  function Departments(subjects: seq<Subject>): (ds: seq<string>)
    ensures NoDuplicates(ds)
    ensures forall d :: d in ds <==> exists s :: s in subjects && s.department == d
  {
    var ds := Dedup(Map(subjects, DepartmentOf), {});
    assert forall d :: d in Map(subjects, DepartmentOf) <==> exists s :: s in subjects && s.department == d by {
      forall d | d in Map(subjects, DepartmentOf)
        ensures exists s :: s in subjects && s.department == d
      {
        var i :| 0 <= i < |subjects| && Map(subjects, DepartmentOf)[i] == d;
        assert subjects[i] in subjects;
      }
    }
    ds
  }

  /** Choosing a department button shows a subject exactly when the
      subject belongs to it, and the subjects shown under the buttons
      together are all the subjects. */
  lemma DepartmentButtonsCoverSubjects(subjects: seq<Subject>, s: Subject)
    requires s in subjects
    ensures exists d :: d in Departments(subjects) && s in Filtered(subjects, d)
  {
    var d := s.department;
    assert d in Departments(subjects);
    assert s in Filtered(subjects, d);
  }
}

=== FILE: text.dfy ===
/** Strings as the source handles them: Python's `str.split()` (runs of
    whitespace separate words, leading and trailing whitespace is dropped),
    `" ".join(...)`, decimal rendering of counts, and ASCII lower-casing. */
module Text {

  /** The characters Python's `str.split()` treats as whitespace. */
  predicate IsSpace(c: char)
  {
    c == ' ' || c == '\t' || c == '\n' || c == '\r' || c == '\U{000B}' || c == '\U{000C}'
    || ('\U{001C}' <= c <= '\U{001F}')
    || c == '\U{0085}' || c == '\U{00A0}' || c == '\U{1680}'
    || ('\U{2000}' <= c <= '\U{200A}')
    || c == '\U{2028}' || c == '\U{2029}' || c == '\U{202F}' || c == '\U{205F}' || c == '\U{3000}'
  }

  predicate NoSpace(s: string)
  {
    forall i :: 0 <= i < |s| ==> !IsSpace(s[i])
  }

  /** What `str.split()` can produce: a non-empty run of non-whitespace. */
  predicate IsWord(w: string)
  {
    |w| > 0 && NoSpace(w)
  }

  predicate AllWords(ws: seq<string>)
  {
    forall i :: 0 <= i < |ws| ==> IsWord(ws[i])
  }

  /** Length of the leading run of non-whitespace characters. */
  function WordEnd(s: string): (k: nat)
    ensures k <= |s|
    ensures NoSpace(s[..k])
    ensures k < |s| ==> IsSpace(s[k])
  {
    if |s| == 0 || IsSpace(s[0]) then 0
    else
      var k := 1 + WordEnd(s[1..]);
      assert s[..k] == [s[0]] + s[1..][..k - 1];
      k
  }

  /** Python's `s.split()` with no separator argument. */
  function Split(s: string): (ws: seq<string>)
    ensures AllWords(ws)
    decreases |s|
  {
    if |s| == 0 then []
    else if IsSpace(s[0]) then Split(s[1..])
    else
      var k := WordEnd(s);
      [s[..k]] + Split(s[k..])
  }

  /** Python's `" ".join(ws)`. */
  function Join(ws: seq<string>): (r: string)
    ensures |ws| == 0 ==> r == ""
    ensures |ws| > 0 ==> ws[0] <= r
  {
    if |ws| == 0 then ""
    else if |ws| == 1 then ws[0]
    else ws[0] + " " + Join(ws[1..])
  }

  lemma {:induction false} WordEndOfWord(w: string, t: string)
    requires NoSpace(w)
    requires |t| == 0 || IsSpace(t[0])
    ensures WordEnd(w + t) == |w|
  {
    if |w| > 0 {
      assert (w + t)[1..] == w[1..] + t;
      WordEndOfWord(w[1..], t);
    } else {
      assert w + t == t;
    }
  }

  /** Splitting a space-joined list of words gives the words back: the text
      of a chunk built with `" ".join(words[i:i+600])` re-splits into exactly
      those words. */
  lemma {:induction false} SplitJoin(ws: seq<string>)
    requires AllWords(ws)
    ensures Split(Join(ws)) == ws
  {
    if |ws| == 1 {
      var w := ws[0];
      WordEndOfWord(w, "");
      assert w + "" == w;
      assert w[..|w|] == w;
      assert w[|w|..] == "";
    } else if |ws| > 1 {
      var w := ws[0];
      var rest := " " + Join(ws[1..]);
      var s := w + rest;
      assert Join(ws) == s;
      WordEndOfWord(w, rest);
      assert s[..|w|] == w;
      assert s[|w|..] == rest;
      assert rest[1..] == Join(ws[1..]);
      SplitJoin(ws[1..]);
    }
  }

  /** Decimal rendering of a natural number, as JavaScript's template strings print it. */
  function NatToString(n: nat): (s: string)
    ensures |s| > 0
    ensures forall i :: 0 <= i < |s| ==> '0' <= s[i] <= '9'
    decreases n
  {
    var d := [('0' as int + n % 10) as char];
    if n < 10 then d else NatToString(n / 10) + d
  }

  /** Inverse of `NatToString`: the value of a string of decimal digits. */
  function DigitsValue(s: string): nat
    requires forall i :: 0 <= i < |s| ==> '0' <= s[i] <= '9'
  {
    if |s| == 0 then 0 else DigitsValue(s[..|s| - 1]) * 10 + (s[|s| - 1] as int - '0' as int)
  }

  lemma {:induction false} NatToStringRoundTrip(n: nat)
    ensures DigitsValue(NatToString(n)) == n
    decreases n
  {
    var s := NatToString(n);
    if n >= 10 {
      NatToStringRoundTrip(n / 10);
      assert s[..|s| - 1] == NatToString(n / 10);
    }
  }

  /** `String.prototype.toLowerCase` on the ASCII letters. */
  function ToLower(s: string): (r: string)
    ensures |r| == |s|
    ensures forall i :: 0 <= i < |s| ==> !('A' <= r[i] <= 'Z')
    ensures forall i :: 0 <= i < |s| && !('A' <= s[i] <= 'Z') ==> r[i] == s[i]
    ensures forall i :: 0 <= i < |s| && 'A' <= s[i] <= 'Z' ==> r[i] == (s[i] as int + 32) as char
  {
    seq(|s|, i requires 0 <= i < |s| => if 'A' <= s[i] <= 'Z' then (s[i] as int + 32) as char else s[i])
  }
}
